=== FILE: README.md ===
# Extrateto: the query and aggregation core

Extrateto is a public dashboard of what members of the Brazilian judiciary
and public prosecution are paid above the constitutional cap (the *teto
constitucional*, R$ 46.366,19 a month). This project models its query and
aggregation core in Dafny and proves what that core promises:

- the per-client rate limiter in front of the `/api/` routes (`RateLimit`);
- the member listing endpoint: its filters, sort, `page` and `limit`
  normalisation, slicing and `meta` block (`Listing`);
- the `orgaos` and `estados` endpoints (`Routes`) over the per-state and
  per-body statistics, KPIs and salary comparison (`Aggregation`,
  `Grouping`);
- the record invariants (`Records`);
- the statistics page: top 10, pay composition, median and the
  "what could be built" figures (`Statistics`), and the state map
  (`StateMap`);
- the CSV export (`Csv`);
- the page-number strip (`Pagination`), the leaderboard pages and ranks
  (`Leaderboard`) and the transparency index (`Transparency`);
- the pay bar (`SalaryBar`) and the monthly chart labels (`Temporal`);
- the filter bar (`FilterBar`), the search box (`SearchBar`) and the `mes`
  and `ano` page parameters (`PageParams`);
- accent folding (`Accents`).

Shared pieces are the stable sort (`Sorting`), text helpers and
`parseInt` (`Text`), JavaScript rounding (`Numeric`), sequence helpers
(`Seqs`) and `Option` (`Options`).

Money is integer cents, so R$ 46.366,19 is `4636619`. Percentages and bar
geometry are `real`. `Math.round`, `Math.floor` and `Math.ceil` are explicit
functions, and `Math.round` rounds halves up as JavaScript does.
JavaScript's `sort` is stable, so every sort is proved to be a stable
sort of its input by its comparator (a lemma ending in `Stable` or
`IsStableSort` next to each), and a stable sort is unique
(`Sorting.StableSortUnique`). `localeCompare` on names is an
abstract comparator, assumed to be a total preorder wherever ordering is
proved. The current time, the fuzzy matcher, the transparency score, the
salary table and the leaderboard's page size are parameters.

Some behaviour of the code is kept as written and stated as such:

- The CSV export prefixes a dangerous field with an apostrophe. As a
  result `=1` and `'=1` export to the same field
  (`Csv.SanitizeMergesApostrophe`).
- The pay bar's two rounded shares can add up to 101
  (`SalaryBar.SharesCanOvershoot`).
- The search box's clear button leaves the selected index as it was.
  This is harmless, because nothing is left to select
  (`SearchBar.ClearEmpties`).

## Model

| member | source | states |
|---|---|---|
| Records.AboveCap | src/data/__tests__/mock-data.test.ts:29-34 | `acimaTeto = max(0, total - TETO)`: never negative, at least the excess, and one of the two |
| Records.MakeMember | src/data/__tests__/mock-data.test.ts:29-41 | a record built from its four components is well formed: its total is their sum, it is above the cap exactly when that sum exceeds 46366.19, and every other field is the given one |
| Records.WellFormedIsMade | src/data/__tests__/mock-data.test.ts:29-41 | every well-formed record is the one built from its own components, so the two invariants pin down `remuneracaoTotal` and `acimaTeto` |
| Records.AboveCapIffTotal | src/data/__tests__/mock-data.test.ts:29-34 | a well-formed record has `acimaTeto > 0` exactly when its total exceeds the cap, and its excess never exceeds a non-negative total |
| Records.StripLosesOnlyHistory | src/app/api/v1/membros/route.ts:53 | dropping `historico` loses nothing else: the stripped record with its history put back is the record, and two records strip alike exactly when they differ at most in `historico` |
| Records.Strip | src/app/api/v1/membros/route.ts:53 | the summary keeps every field but the history: putting the record's history back on it gives the record (partner `Records.StripLosesOnlyHistory`) |
| Records.SortedByTotalDescPairwise | src/data/__tests__/mock-data.test.ts:10-16 | the adjacent-pairs check of the dataset's order gives the order on every pair |
| RateLimit.Headers | src/middleware.ts:35-39 | a passed-through request gets no headers; every answer of the middleware carries the three CORS and cache headers first, and only a 429 adds a fourth (`Retry-After`) |
| RateLimit.Init | src/middleware.ts:5-17 | at load time there are no windows and the last sweep is the load time |
| RateLimit.ClientKey | src/middleware.ts:31-32 | a request without `x-forwarded-for` is keyed `"unknown"`; otherwise the key is the trimmed text before the header's first comma (the whole header when it has none), so it never holds a comma |
| RateLimit.Cleanup | src/middleware.ts:8-15 | the sweep keeps exactly the windows whose reset time is not strictly before `now`, each unchanged |
| RateLimit.MaybeCleanup | src/middleware.ts:24-29 | the sweep runs, and the sweep time becomes `now`, exactly when more than 300000 ms have passed since the last one; otherwise nothing changes |
| RateLimit.Step | src/middleware.ts:19-44 | a path outside `/api/` passes through with the state untouched; an `OPTIONS` request is answered 204 after the sweep and creates or counts no window |
| RateLimit.StepIsCount | src/middleware.ts:31-69 | any other `/api/` request is the rate check on the swept state for its client key |
| RateLimit.CountCases | src/middleware.ts:46-69 | the rate check: no live window opens `{count: 1, resetAt: now + 60000}` and admits; a live window below 60 gains exactly one and admits; a live window at 60 answers 429 with the state unchanged and `Retry-After = ceil((resetAt - now) / 1000)` |
| RateLimit.StepCounted | src/middleware.ts:46-69 | the same three outcomes for a whole middleware call, stated against the request's live window after the sweep |
| RateLimit.StepKeepsCountsInRange | src/middleware.ts:46-69 | every stored window keeps a count between 1 and 60, whatever the request |
| RateLimit.StepKeepsResetsWithin | src/middleware.ts:46-51 | if every window ends at most 60000 ms after `now`, the same holds after a request at `now` at every later time |
| RateLimit.CountKeepsResetsWithin | src/middleware.ts:46-69 | the rate check keeps every window ending at most 60000 ms after `now` |
| RateLimit.RetryAfterBounded | src/middleware.ts:53-63 | under that invariant the `Retry-After` of a 429 lies between 0 and 60 seconds |
| RateLimit.StepIsolatesClients | src/middleware.ts:10-66 | a request never creates or changes another client's window; another client's window can only disappear, and only when it had expired and the sweep ran |
| RateLimit.StepOnlyTouchesKey | src/middleware.ts:33-66 | after the sweep, an `/api/` request writes only its own client's entry |
| RateLimit.CountOnlyTouchesKey | src/middleware.ts:47-66 | the rate check leaves every other key's entry, present or absent, as it was |
| RateLimit.CleanupSchedule | src/middleware.ts:26-29 | an `/api/` request moves the last-sweep time to `now` exactly when more than five minutes have passed, and otherwise keeps it |
| RateLimit.Run | src/middleware.ts:19-70 | replaying one client's requests at a sequence of times gives one response per time |
| RateLimit.BurstAdmitted | src/middleware.ts:46-66 | from no live window, up to 60 counted requests in one window are all admitted, leaving the window `{count: n, resetAt: first + 60000}` |
| RateLimit.BurstRejected | src/middleware.ts:53-64 | the 61st request inside that window is answered 429 with a positive `Retry-After`, and the count stays at 60 |
| RateLimit.AfterExpiryRestarts | src/middleware.ts:46-51 | once the client's window has expired, the next counted request is admitted and restarts the window at count 1 |
| Listing.Get | src/app/api/v1/membros/route.ts:10-27 | `searchParams.get(name)` returns a value paired with `name` in the query, and nothing only when no pair has that name |
| Listing.GetFirst | src/app/api/v1/membros/route.ts:10 | with repeated parameters, `get` returns the first value given for the name |
| Listing.OrDefault | src/app/api/v1/membros/route.ts:31-46 | `value \|\| fallback`: the value when it is present and non-empty, the fallback otherwise |
| Listing.Stage | src/app/api/v1/membros/route.ts:11-28 | a filter stage keeps exactly the records that pass its test when its parameter is given, and changes nothing otherwise |
| Listing.StageIsFilter | src/app/api/v1/membros/route.ts:11 | a stage is a filter by "parameter absent, or the record passes" |
| Listing.StageStep | src/app/api/v1/membros/route.ts:11-17 | a stage after a filter is one filter by the conjunction of both tests |
| Listing.FieldStagesAreConjunction | src/app/api/v1/membros/route.ts:10-17 | the `estado`, `orgao` and `cargo` stages together keep exactly the records equal on every given field |
| Listing.NameStageIsConjunction | src/app/api/v1/membros/route.ts:19-25 | adding the `nome` stage keeps exactly the records whose lower-cased, accent-stripped name contains the lower-cased, accent-stripped query |
| Listing.FiltersAreConjunction | src/app/api/v1/membros/route.ts:9-28 | the five stages in sequence are a single filter by the conjunction of the five tests |
| Listing.FiltersSoundAndComplete | src/app/api/v1/membros/route.ts:9-28 | a record survives the filters if and only if it is in the dataset and satisfies every given filter; `acima_teto` applies only for the exact text `"true"` and then keeps `acimaTeto > 0` |
| Listing.ApplyFilters | src/app/api/v1/membros/route.ts:9-28 | the filter stages only drop records: every record of the result occurs in the dataset at least as often (partner `Listing.FiltersSoundAndComplete` says exactly which records are kept) |
| Listing.SortKeyOf | src/app/api/v1/membros/route.ts:31-41 | `sort=maior_acima_teto` and `sort=nome` pick those orders; anything else, including no `sort`, picks the total |
| Listing.ComparatorIsTotalPreorder | src/app/api/v1/membros/route.ts:33-40 | each of the three comparators is a total preorder when the collation is |
| Listing.Ordered | src/app/api/v1/membros/route.ts:30-41 | the sorted result is a permutation of the filtered records |
| Listing.OrderedIsStableSort | src/app/api/v1/membros/route.ts:30-41 | it is the stable sort of the filtered records under the chosen comparator: sorted, a permutation, and ties in filter order |
| Listing.OrderedByKey | src/app/api/v1/membros/route.ts:34-40 | by default it is non-increasing in `remuneracaoTotal`; with `maior_acima_teto` non-increasing in `acimaTeto` |
| Listing.OrderedByNome | src/app/api/v1/membros/route.ts:36-37 | with `sort=nome` the names are in collation order |
| Listing.PageOf | src/app/api/v1/membros/route.ts:44-45 | the page is always at least 1 |
| Listing.LimitOf | src/app/api/v1/membros/route.ts:46-47 | the limit always lies in 1..200 |
| Listing.LimitFrom | src/app/api/v1/membros/route.ts:47 | a parsed limit of 1 or more is capped at 200; no number, or one below 1, gives 50 |
| Listing.PageValue | src/app/api/v1/membros/route.ts:44-45 | a numeric page `n` up to 2^53 is used as is when `n >= 1` and replaced by 1 otherwise |
| Listing.LimitValue | src/app/api/v1/membros/route.ts:46-47 | a numeric limit `n` gives `min(n, 200)` when `n >= 1` and 50 otherwise |
| Listing.DefaultTextsParse | src/app/api/v1/membros/route.ts:44-46 | the fallback texts `"1"` and `"50"` parse to 1 and 50 |
| Listing.AbsentPage | src/app/api/v1/membros/route.ts:44-45 | without `page` the page is 1 |
| Listing.AbsentLimit | src/app/api/v1/membros/route.ts:46-47 | without `limit` the limit is 50 |
| Listing.NonNumericPage | src/app/api/v1/membros/route.ts:44-45 | a `page` that `parseInt` cannot read gives page 1 |
| Listing.NonNumericLimit | src/app/api/v1/membros/route.ts:46-47 | a `limit` that `parseInt` cannot read gives limit 50 |
| Listing.StripAll | src/app/api/v1/membros/route.ts:52-53 | one item per record, and putting the record's `historico` back gives the record: only `historico` is dropped |
| Listing.Offset | src/app/api/v1/membros/route.ts:48 | the offset `(page - 1) * limit` is non-negative and one limit short of `page * limit` |
| Listing.Paginate | src/app/api/v1/membros/route.ts:48-62 | `meta` holds the unsliced total, the page, the limit and `ceil(total / limit)`; `data` is the stripped slice from the offset, at most `limit` long, empty past the end |
| Listing.List | src/app/api/v1/membros/route.ts:4-64 | the whole route: `meta.total` counts the filtered records, the page and limit are normalised, and `data` is at most one limit long |
| Listing.ListItems | src/app/api/v1/membros/route.ts:48-53 | item `i` of `data` is the stripped record at offset `+ i` of the sorted result, a dataset record that passes every filter |
| Listing.PaginateItem | src/app/api/v1/membros/route.ts:50-53 | item `i` of a page is the stripped record at position offset `+ i` |
| Listing.OrderedMember | src/app/api/v1/membros/route.ts:9-41 | every record of the sorted result comes from the dataset and passes the filters |
| Listing.PaginatePastTheEnd | src/app/api/v1/membros/route.ts:48-50 | a page beyond `totalPages` has no data |
| Listing.PastTheEnd | src/app/api/v1/membros/route.ts:48-62 | for the whole route, a page past the end gives empty `data` while `meta.total` still counts every filtered record |
| Listing.EveryRecordOnItsPage | src/app/api/v1/membros/route.ts:48-61 | record `j` appears as item `j mod limit` of page `j div limit + 1`, which is within `totalPages` |
| Routes.Ids | src/app/api/v1/orgaos/route.ts:10 | one id per member, id `i` being member `i`'s id |
| Routes.ReshapeKeepsAllButMembers | src/app/api/v1/orgaos/route.ts:8-11 | the reshaped row keeps every field but `membros` (the organisation, its `estado`, the counts, total, percentage and score are the statistics' own), and `membros` becomes the members' ids in the same order; putting the members back gives the statistics again, and two rows agree exactly when the statistics agree but for members with the same ids |
| Routes.ReshapeAll | src/app/api/v1/orgaos/route.ts:7-11 | the map keeps the number and order of the rows and reshapes each one, so each row keeps its statistics' `estado` and every other field but `membros` |
| Routes.OrgaosData | src/app/api/v1/orgaos/route.ts:6-12 | the route's data is a permutation of the reshaped organisation statistics, each carrying its organisation and `estado`, non-increasing in `totalAcimaTeto` |
| Routes.OrgaosDataStable | src/app/api/v1/orgaos/route.ts:12 | the route's data is the stable sort of the reshaped statistics by descending `totalAcimaTeto`: organisations with equal excess keep their first-encounter order |
| Routes.OrgaosOneRowPerKey | src/app/api/v1/orgaos/route.ts:6-7 | each organisation of the dataset has exactly one row, and no other organisation has any |
| Routes.OrgaoRowIsReshaped | src/app/api/v1/orgaos/route.ts:6-11 | each row is the reshaped statistics of its own organisation's members, and its `estado` is the state of one of that organisation's records |
| Routes.RowIndex | src/app/api/v1/orgaos/route.ts:12 | each sorted row sits somewhere in the unsorted list |
| Routes.RowKeys | src/app/api/v1/orgaos/route.ts:6-11 | before sorting there is one row per organisation, row `i` naming the `i`-th organisation in first-seen order |
| Routes.UnsortedRow | src/app/api/v1/orgaos/route.ts:6-11 | before sorting, row `i` is the reshaped statistics, `estado` included, of the `i`-th organisation in first-seen order |
| Routes.EstadosData | src/app/api/v1/estados/route.ts:6-9 | the route's data is a permutation of the state statistics, non-increasing in `totalAcimaTeto` |
| Routes.EstadosDataStable | src/app/api/v1/estados/route.ts:6-9 | the route's data is the stable sort of the state statistics by descending `totalAcimaTeto`: states with equal excess keep their first-encounter order |
| Routes.EstadosRows | src/app/api/v1/estados/route.ts:6-9 | every row is, unchanged, the map's entry for its own `estado`, and there is one row per distinct state |
| Aggregation.CountAbove | src/data/__tests__/mock-data.test.ts:61-65 | the number of records above the cap, between 0 and the number of records |
| Aggregation.Share | src/data/__tests__/mock-data.test.ts:72-84 | a percentage of a whole: 0 for a whole of 0, `part / whole * 100` otherwise, and within 0..100 for a part of the whole |
| Aggregation.EstadoStatsOf | src/lib/__tests__/aggregations.test.ts:16-24 | a state's statistics name that state, count its records, count at most that many above the cap, and hold a percentage in 0..100 |
| Aggregation.EstadoRows | src/lib/__tests__/aggregations.test.ts:26-32 | one statistics row per key, each built from that key's group |
| Aggregation.EstadoRowsTail | src/lib/__tests__/aggregations.test.ts:26-32 | the rows for a list of keys are the first key's row followed by the rows for the rest |
| Aggregation.StatsByEstado | src/lib/__tests__/aggregations.test.ts:8-20 | one row per distinct state of the records, for states that occur, each with at least one member, no state twice |
| Aggregation.EstadoMap | src/lib/__tests__/aggregations.test.ts:12-20 | the map has exactly the states that occur as keys, and each entry's `estado` is its key with `totalMembros > 0` |
| Aggregation.EstadoMapValues | src/app/api/v1/estados/route.ts:7 | the map's values are the rows, each stored under its own `estado` |
| Aggregation.EstadoRowsSum | src/lib/__tests__/aggregations.test.ts:26-32 | summing a per-row field that is a per-member sum over the rows gives the sum over the groups |
| Aggregation.EstadosPartition | src/lib/__tests__/aggregations.test.ts:26-32 | the states partition the records: summed over the states, `totalMembros` is the number of records, `membrosAcimaTeto` the number above the cap, and `totalAcimaTeto` the total excess |
| Aggregation.EstadosCount | src/lib/__tests__/aggregations.test.ts:8-10 | there are as many state rows as distinct states |
| Aggregation.OrgaoStatsOf | src/lib/__tests__/aggregations.test.ts:42-65 | an organisation's statistics name it, carry the `estado` of its first record, list a permutation of its records and count them, hold a percentage in 0..100 and a transparency score in 0..100 |
| Aggregation.OrgaoRows | src/lib/__tests__/aggregations.test.ts:49-55 | one statistics row per key, each built from that key's group |
| Aggregation.OrgaoRowsTail | src/lib/__tests__/aggregations.test.ts:49-55 | the rows for a list of keys are the first key's row followed by the rows for the rest |
| Aggregation.StatsByOrgao | src/lib/__tests__/aggregations.test.ts:38-40 | one row per distinct organisation, in first-seen order, no organisation twice, each with the `estado` of its first record |
| Aggregation.OrgaoMembrosSorted | src/lib/__tests__/aggregations.test.ts:42-65 | each organisation's `membros` are a permutation of its records, non-increasing by `remuneracaoTotal`, non-empty, with a score in 0..100 |
| Aggregation.OrgaoMembrosStable | src/lib/__tests__/aggregations.test.ts:42-65 | an organisation's `membros` are the stable sort of its records by descending total: records with equal totals keep their dataset order |
| Aggregation.OrgaoEstadoFromRecords | src/components/transparency-index.tsx:52-54 | the `estado` shown beside an organisation is the state of one of that organisation's own records |
| Aggregation.OrgaoRowsSum | src/lib/__tests__/aggregations.test.ts:49-55 | summing `totalMembros` over the rows gives the sum of the group sizes |
| Aggregation.OrgaosPartition | src/lib/__tests__/aggregations.test.ts:49-55 | summed over the organisations, `totalMembros` is the number of records |
| Aggregation.MaxTotal | src/data/__tests__/mock-data.test.ts:67-84 | the largest total of the records, attained by one of them, and 0 for no records |
| Aggregation.GetKpis | src/data/__tests__/mock-data.test.ts:51-84 | `numAcimaTeto` counts the records with `acimaTeto > 0`, `totalAcimaTeto` sums the excess, the percentage lies in 0..100, the mean is the total over the count, and an empty input gives zero everywhere |
| Aggregation.Mean | src/data/__tests__/mock-data.test.ts:51-84 | the mean excess: 0 with nobody above the cap, and otherwise the total divided by the count |
| Aggregation.MaiorIsFirst | src/data/__tests__/mock-data.test.ts:67-70 | on a dataset sorted by non-increasing total, `maiorRemuneracao` is the first record's total |
| Aggregation.KpisOnValidData | src/data/__tests__/mock-data.test.ts:29-65 | on well-formed records, counting `acimaTeto > 0` is counting totals above the cap, and the total excess is non-negative |
| Aggregation.SalaryComparison | src/lib/__tests__/aggregations.test.ts:68-82 | for the reference table (non-empty, positive salaries) the comparison is non-empty, with one entry per reference salary, keeping its profession and salary, `mesesEquivalentes` the nearest whole number to `amount / salario`, and `anosEquivalentes` those months divided by 12 to the nearest tenth of a year |
| Aggregation.ComparisonMonths | src/lib/__tests__/aggregations.test.ts:74-82 | the months are positive once the amount is at least half a salary; months and years are 0 for no amount and never negative for a non-negative amount |
| Aggregation.ComparisonAntitone | src/lib/__tests__/aggregations.test.ts:74-82 | for a non-negative amount, a profession with a larger salary never gets more months or more years |
| Numeric.RoundDivMonotone | src/components/salary-comparison.tsx:52 | `Math.round(a / b)` never shrinks as `a` grows |
| Numeric.RoundDivAntitone | src/lib/__tests__/aggregations.test.ts:81 | `Math.round(a / b)` of a non-negative `a` never grows as `b` grows |
| Aggregation.ComparisonFifty | src/lib/__tests__/aggregations.test.ts:74-82 | R$ 100000 against a salary of R$ 2000 rounds to 50 months, which is 4.2 years |
| Grouping.Keys | src/app/api/v1/estados/route.ts:6-7 | the distinct keys of a sequence, each key that occurs exactly once |
| Grouping.Group | src/lib/__tests__/aggregations.test.ts:26-32 | a key's group holds every element with that key and nothing else |
| Grouping.GroupOfDistinctKeys | src/app/api/v1/orgaos/route.ts:6-7 | in a sequence with distinct keys each key's group has one element when the key occurs and none otherwise |
| Grouping.GroupsPartition | src/lib/__tests__/aggregations.test.ts:26-55 | summing a per-element quantity group by group, over the distinct keys, gives the sum over the whole sequence |
| Grouping.KeysCount | src/app/api/v1/estados/route.ts:6-7 | the list of distinct keys is as long as the set of keys |
| Statistics.Ranked | src/app/estatisticas/estatisticas-client.tsx:135-137 | the organisations re-ordered as a permutation, non-increasing in the selected metric |
| Statistics.RankedStable | src/app/estatisticas/estatisticas-client.tsx:135-137 | the ranking is the stable sort of the organisations by the descending metric: ties keep the order of the statistics |
| Statistics.Top10 | src/app/estatisticas/estatisticas-client.tsx:135-143 | at most 10 bars, as many as there are organisations when fewer, bar `i` naming the `i`-th ranked organisation with its metric |
| Statistics.Top10Sorted | src/app/estatisticas/estatisticas-client.tsx:135-143 | the bars are non-increasing in value and each comes from some organisation of the input |
| Statistics.Top10IsTop | src/app/estatisticas/estatisticas-client.tsx:135-143 | an organisation left out of the top 10 scores no more than the tenth bar, and with 10 organisations or fewer every one is shown |
| Statistics.CompositionOf | src/app/estatisticas/estatisticas-client.tsx:145-167 | the total is the sum of the four component sums, and `basePercent` is the base share rounded to the nearest whole per cent when the total is positive, 0 otherwise |
| Statistics.CompositionIsPayroll | src/app/estatisticas/estatisticas-client.tsx:145-156 | on well-formed records the composition's total is the sum of the records' totals |
| Statistics.BasePercentBounds | src/app/estatisticas/estatisticas-client.tsx:165 | with non-negative components `basePercent` lies in 0..100 |
| Statistics.SegmentShare | src/app/estatisticas/estatisticas-client.tsx:301-304 | a segment's width is its value as a percentage of a positive total, and 0 when the total is 0 or less |
| Statistics.DrawnIff | src/app/estatisticas/estatisticas-client.tsx:301-305 | a segment is drawn exactly when the total is positive and the segment is at least 1% of it |
| Statistics.SegmentsFillTheBar | src/app/estatisticas/estatisticas-client.tsx:299-305 | for a positive total made of the four components, the four widths add up to exactly 100 |
| Statistics.AboveByTotal | src/app/estatisticas/estatisticas-client.tsx:170-174 | the above-cap records re-ordered as a permutation, ascending by total |
| Statistics.AboveByTotalStable | src/app/estatisticas/estatisticas-client.tsx:170-174 | the list is the stable sort of the above-cap records by ascending total: equal totals keep the dataset order |
| Statistics.MedianAbove | src/app/estatisticas/estatisticas-client.tsx:169-176 | 0 when nobody is above the cap; otherwise the total of one of the above-cap records |
| Statistics.MedianSplits | src/app/estatisticas/estatisticas-client.tsx:169-176 | the median is the entry at `floor(n / 2)`: at most `floor(n / 2)` above-cap records have a smaller total and at most `n - floor(n / 2) - 1` a larger one |
| Statistics.SortedSplit | src/app/estatisticas/estatisticas-client.tsx:172-175 | in an ascending list at most `k` entries are below entry `k` and at most `n - k - 1` above it |
| Statistics.FewBelow | src/app/estatisticas/estatisticas-client.tsx:172-175 | in an ascending list at most `k` entries are below entry `k` |
| Statistics.FewAbove | src/app/estatisticas/estatisticas-client.tsx:172-175 | in an ascending list at most `n - k - 1` entries are above entry `k` |
| Statistics.MonthlyEquivalent | src/app/estatisticas/estatisticas-client.tsx:371 | `round(median / 12)` in whole reais: a whole number of reais, within half a real of a twelfth of the median |
| Statistics.Quantidade | src/app/estatisticas/estatisticas-client.tsx:391 | `floor(total / custo)`: the largest `q` with `q * custo <= total` |
| Statistics.Quantidades | src/app/estatisticas/estatisticas-client.tsx:390-391 | one count per infrastructure item, each the floor of the excess over that item's cost |
| Statistics.CheaperBuildsMore | src/app/estatisticas/estatisticas-client.tsx:391 | for a non-negative excess, a cheaper item is built at least as many times, and never a negative number of times |
| Statistics.TotalAcimaTetoAgrees | src/app/estatisticas/estatisticas-client.tsx:178-180 | the page's `reduce` over `acimaTeto` gives the KPI's total excess and the sum of the states' excess |
| StateMap.SortedStates | src/app/mapa/mapa-client.tsx:35-39 | the states re-ordered as a permutation, non-increasing in the chosen metric |
| StateMap.SortedStatesStable | src/app/mapa/mapa-client.tsx:35-39 | the map's list is the stable sort of the states by the descending metric: ties keep first-encounter order |
| StateMap.TotalsAreNational | src/app/mapa/mapa-client.tsx:41-48 | the summed state totals are the number of records, the total excess, and the number above the cap |
| StateMap.GetTotals | src/app/mapa/mapa-client.tsx:41-48 | the summed member counts of the states are the number of records (partner `StateMap.TotalsAreNational` gives the other two sums) |
| StateMap.TotalsOfSortedStates | src/app/mapa/mapa-client.tsx:35-48 | the totals are also the sums over the sorted list shown on the page |
| StateMap.LinkedEstado | src/app/mapa/mapa-client.tsx:50-52 | reading a link of the form `/?estado=` gives back a state exactly when the link has that prefix, and that state links to it |
| StateMap.LinkRoundTrip | src/app/mapa/mapa-client.tsx:50-52 | the link for a state reads back as that state |
| StateMap.EstadoLink | src/app/mapa/mapa-client.tsx:50-52 | the link is the `/?estado=` prefix followed by the state and nothing else (partner `StateMap.LinkRoundTrip` reads the state back) |
| StateMap.Rows | src/app/mapa/mapa-client.tsx:150-165 | row `i` shows rank `i + 1` and the `i`-th state, and clicking it links to that state |
| Csv.EscapeQuotes | src/lib/export-csv.ts:4 | doubling the quotes lengthens the text by exactly its number of quotes |
| Csv.UnescapeEscape | src/lib/export-csv.ts:4 | undoubling the doubled quotes gives the text back, so escaping loses nothing |
| Csv.Sanitize | src/lib/export-csv.ts:3-10 | the field always starts and ends with `"`, and its length is the text's plus its quotes plus 2, plus 1 for the apostrophe when the text starts a formula |
| Csv.EscapeKeepsDanger | src/lib/export-csv.ts:4-6 | testing the escaped text for `=`, `+`, `-`, `@`, TAB or CR at its start is testing the original text: escaping never adds or removes a formula start |
| Csv.SanitizeRoundTrip | src/lib/export-csv.ts:3-10 | inside the quotes, the apostrophe comes first exactly for a formula start, and after dropping it undoubling the quotes recovers the original text |
| Csv.SanitizeMergesApostrophe | src/lib/export-csv.ts:5-7 | `=1` and `'=1` export to the same field, so the apostrophe cannot always be told apart from one the text already had |
| Csv.Digits | src/lib/export-csv.ts:34-40 | the fixed-width digits of a number: exactly `width` ASCII digits |
| Csv.DigitsValue | src/lib/export-csv.ts:34-40 | those digits read back as the number's low `width` digits |
| Csv.ShiftLow | src/lib/export-csv.ts:34-40 | a number is its high part times `10^width` plus its low part |
| Csv.NumberCharsSafe | src/lib/export-csv.ts:34-43 | a number cell holds no quote, comma or line break, so it needs no quoting |
| Csv.FixedText | src/lib/export-csv.ts:34-40 | `toFixed(d)` of a value held as whole hundredths (or tenths) gives a non-empty number cell |
| Csv.ReadLayout | src/lib/export-csv.ts:34-40 | a whole part, a point and `d` fraction digits read back as the value they write |
| Csv.BodyRoundTrip | src/lib/export-csv.ts:34-40 | the digits written for a non-negative amount read back as that amount |
| Csv.FixedRoundTrip | src/lib/export-csv.ts:34-40 | every amount, negative or not, reads back from its `toFixed` text |
| Csv.AmountCells | src/lib/export-csv.ts:34-39 | six amount cells, each a number cell |
| Csv.AmountCellsRead | src/lib/export-csv.ts:34-39 | each amount cell reads back as the record's amount, in the column order base, verbas, eventuais, pessoais, total, excess |
| Csv.PercentCell | src/lib/export-csv.ts:40 | the percentage cell is a number cell |
| Csv.PercentCellRead | src/lib/export-csv.ts:40 | the percentage cell reads back, with one decimal, as the percentage rounded to the nearest tenth |
| Csv.RowShape | src/lib/export-csv.ts:13-41 | each row has 12 cells, as many as the headers; the first reads as `i + 1`; cells 1-4 are the sanitised `nome`, `cargo`, `orgao`, `estado`; every other cell is a bare number and the six amounts read back exactly |
| Csv.RowParts | src/lib/export-csv.ts:28-41 | the row is the position, the four text cells, the six amount cells and the percentage cell, in that order |
| Csv.RowNumbers | src/lib/export-csv.ts:29-40 | every cell outside the four text columns is a number cell |
| Csv.RowLines | src/lib/export-csv.ts:28-43 | one line per record, the `i`-th being the `i`-th row joined with commas |
| Csv.Lines | src/lib/export-csv.ts:43 | the header line first, then the line of record `j - 1` at position `j` |
| Csv.ExportLines | src/lib/export-csv.ts:43 | when no text field holds a line break, the export splits at line breaks into exactly the header line and one line per record |
| Csv.Export | src/lib/export-csv.ts:43 | the CSV text begins with the header line (partner `Csv.ExportLines` splits it back into the header and one line per record) |
| Csv.LinesSingle | src/lib/export-csv.ts:43 | under that condition no line holds a line break |
| Csv.LineSingle | src/lib/export-csv.ts:43 | the same for one line |
| Csv.HeaderLineSingle | src/lib/export-csv.ts:13-43 | the header line has no line break |
| Csv.RowLineSingle | src/lib/export-csv.ts:41-43 | a record line has no line break when the record's text fields have none |
| Csv.RowSingleLine | src/lib/export-csv.ts:28-41 | no cell of such a record's row holds a line break |
| Csv.TextCellSingle | src/lib/export-csv.ts:30-33 | a sanitised text cell holds a line break only if the field did |
| Csv.SanitizeWithout | src/lib/export-csv.ts:3-10 | sanitising adds no character other than quotes and the apostrophe |
| Csv.EscapeWithout | src/lib/export-csv.ts:4 | doubling quotes adds no character other than quotes |
| Pagination.Run | src/components/pagination.tsx:27-33 | the loop `for i in lo..hi` pushes exactly the pages `lo, lo + 1, ..., hi`, and nothing when `lo > hi` |
| Pagination.PageNumbers | src/components/pagination.tsx:24-38 | up to 7 pages lists exactly `1..totalPages`; beyond 7 it starts at 1, ends at `totalPages` and has 3 to 7 entries; in both cases neighbouring numbers differ by one and an ellipsis always stands for at least one hidden page |
| Pagination.WindowShape | src/components/pagination.tsx:29-35 | the first page, an optional ellipsis, the pages around the current one, an optional ellipsis and the last page have 3 to 7 entries, with consecutive numbers and ellipses that hide pages |
| Pagination.WindowIndex | src/components/pagination.tsx:29-35 | the entry at each position of that list: 1, then the ellipses, then the consecutive run, then the last page |
| Pagination.LocalToIncreasing | src/components/pagination.tsx:29-35 | from neighbour steps and hiding ellipses it follows that every number is smaller than every later number |
| Pagination.WindowParts | src/components/pagination.tsx:29-35 | beyond 7 pages the list is 1, `"..."` when the current page is above 3, the pages from `max(2, c - 1)` to `min(total - 1, c + 1)`, `"..."` when the current page is below `total - 2`, and the last page |
| Pagination.IncreasingStrip | src/components/pagination.tsx:24-38 | the numbers of the list are strictly increasing |
| Pagination.StripInRange | src/components/pagination.tsx:24-38 | every number of a list from 1 to `totalPages` lies in `1..totalPages` |
| Pagination.CurrentInStrip | src/components/pagination.tsx:26-35 | a current page in range is always listed |
| Pagination.GapFlags | src/components/pagination.tsx:30-34 | a leading `"..."` appears exactly when the current page is above 3, and a trailing one exactly when it is below `totalPages - 2` |
| Pagination.CurrentPageShown | src/components/pagination.tsx:24-38 | for a current page in range the numbers are strictly increasing, in range, and the current page appears exactly once, so exactly one button is highlighted |
| Pagination.Render | src/components/pagination.tsx:40 | nothing is rendered when `totalPages <= 1`; otherwise the buttons are the page list |
| Pagination.ItemRange | src/components/pagination.tsx:21-46 | on a page in range the summary `startItem-endItem` is a non-empty run of at most one page of items, within the total, and a full page before the last page |
| Pagination.NavigationStaysInRange | src/components/pagination.tsx:52-81 | "previous" is enabled exactly when page `c - 1` exists and "next" exactly when page `c + 1` exists, and every numbered button leads to an existing page |
| Leaderboard.TotalPages | src/components/leaderboard.tsx:25 | `ceil(n / per)`: the fewest pages of `per` that hold `n` records, 0 for none |
| Leaderboard.PageMembers | src/components/leaderboard.tsx:26-27 | at most `per` cards, card `i` being record `startIndex + i` |
| Leaderboard.PagesInRange | src/components/leaderboard.tsx:25-27 | every page from 1 to `totalPages` is non-empty, and full except possibly the last |
| Leaderboard.EveryMemberRanked | src/components/leaderboard.tsx:111-127 | every record appears on some page in range with rank equal to its position plus one |
| Leaderboard.RanksDistinct | src/components/leaderboard.tsx:111-127 | two cards with the same rank are the same card of the same page, so across pages the ranks 1..n each appear once |
| Leaderboard.VirtualNeedsLargePages | src/components/leaderboard.tsx:18-29 | the virtualised list is only used when a page holds more than 100 cards |
| Leaderboard.PagerShownIff | src/components/leaderboard.tsx:136 | the pager appears exactly when there are more records than fit on one page |
| Leaderboard.SummaryMatchesCards | src/components/leaderboard.tsx:111-143 | the pager's "start-end" summary names the ranks of the first and last card on the page |
| Leaderboard.Toggle | src/components/leaderboard.tsx:39-41 | toggling the expanded card collapses it; toggling any other card expands that one |
| Leaderboard.ToggleTwice | src/components/leaderboard.tsx:39-41 | toggling a card twice restores an expansion of that card and otherwise leaves everything collapsed |
| Leaderboard.SettleInRange | src/components/leaderboard.tsx:49-52 | after a render the page is in range: a page past the end of a non-empty list returns to 1, and a page in range is left alone |
| Leaderboard.ClickKeepsRange | src/components/leaderboard.tsx:43-47 | any click the pager allows moves to a page in range and collapses the expanded card |
| Transparency.BandOf | src/components/transparency-index.tsx:10-14 | a score of 80 or more is "Bom", 60 to 79 is "Regular", below 60 is "Insuficiente", each score in exactly one band |
| Transparency.BandMonotone | src/components/transparency-index.tsx:10-14 | a higher score never gets a worse band |
| Transparency.ScoreStyle | src/components/transparency-index.tsx:10-14 | the style's label is the label of the score's band |
| Transparency.LabelsDistinct | src/components/transparency-index.tsx:11-13 | the three labels are different, so the label names the band |
| Transparency.BandingAgrees | src/components/transparency-index.tsx:10-65 | the icon and the bar colour follow the same thresholds as the label |
| Transparency.SortedByScore | src/components/transparency-index.tsx:23 | a permutation of the organisations, non-increasing in score; the input is a value and is not changed |
| Transparency.SortedByScoreStable | src/components/transparency-index.tsx:23 | the ranking is the stable sort of the organisations by descending score: equal scores keep the input order |
| Transparency.Lines | src/components/transparency-index.tsx:39-54 | one line per organisation, line `i` showing rank `i + 1`, and each line shows one organisation's name, `estado` and score, with the style, icon and bar colour of that score |
| Transparency.LinesOrdered | src/components/transparency-index.tsx:23-70 | the lines go down in score and never up in band, and every organisation appears with its own `estado` and score |
| Transparency.SortedFromInput | src/components/transparency-index.tsx:23 | the sorted copy has as many entries as the input, each one of the input's organisations |
| Transparency.LineAt | src/components/transparency-index.tsx:39-54 | line `i` shows rank `i + 1` and the `i`-th organisation of the sorted copy |
| Transparency.LinesDescend | src/components/transparency-index.tsx:23-54 | down the list the scores never rise and the colour bands never improve |
| Transparency.LinesCover | src/components/transparency-index.tsx:23-54 | every organisation appears on some line with its own name, `estado` and score |
| Leaderboard.Initial | src/components/leaderboard.tsx:21-22 | the board opens on page 1 |
| Leaderboard.ChangePage | src/components/leaderboard.tsx:43-47 | changing page collapses any expanded card |
| Leaderboard.ToggleCard | src/components/leaderboard.tsx:39-41 | expanding or collapsing a card never changes the page |
| Leaderboard.Settle | src/components/leaderboard.tsx:49-52 | the page reset keeps the expanded card |
| SalaryBar.MaxValue | src/components/salary-bar.tsx:28 | the scale is at least the total and at least 1.1 times the cap, and is one of the two |
| SalaryBar.Width | src/components/salary-bar.tsx:31-35 | a width is its value as a percentage of the scale |
| SalaryBar.Share | src/components/salary-bar.tsx:37-38 | a share is 0 for a non-positive total, else within half a point of the exact percentage |
| SalaryBar.Segments | src/components/salary-bar.tsx:40-45 | one segment per amount, keyed base, verbas, eventuais, pessoais in that order, each as wide as its share of the scale |
| SalaryBar.Draw | src/components/salary-bar.tsx:28-45 | the bar keeps the four components in order under their keys, the extras are the three non-base components, and every width fits the scale |
| SalaryBar.CapMarkerInside | src/components/salary-bar.tsx:28-35 | the cap marker is always strictly inside the bar, at no more than 100/1.1 per cent |
| SalaryBar.SegmentsFit | src/components/salary-bar.tsx:28-34 | the widths add up to the components' sum over the scale, so the bar is never overfull when the scale covers that sum |
| SalaryBar.SharesAddUp | src/components/salary-bar.tsx:37-38 | both shares are 0 for a non-positive total; for a total made of the components they add up to 100 or 101 |
| SalaryBar.ShareSum | src/components/salary-bar.tsx:37-38 | the rounded percentages of two parts of a positive whole add up to 100 or 101 |
| SalaryBar.SharesCanOvershoot | src/components/salary-bar.tsx:37-38 | R$ 5.000 of base and R$ 3.000 of extras are shown as 63% and 38%, 101 in all |
| Temporal.MonthAbbrev | src/components/temporal-chart.tsx:26-29 | each month 1..12 has a three-letter Portuguese abbreviation |
| Temporal.MonthName | src/components/temporal-chart.tsx:30 | the month text is read by `parseInt` with no radix (so `0x` starts a hexadecimal number); looking it up gives a three-letter abbreviation or, for a missing or out-of-range month, the text "undefined" |
| Temporal.MonthNameOf | src/components/temporal-chart.tsx:30 | a month text that radix-less `parseInt` reads as 1..12 names that month's abbreviation |
| Temporal.ParseMonth | src/components/temporal-chart.tsx:30 | radix-less `parseInt` reads a two-digit month back as its number |
| Temporal.HexMonthNamed | src/components/temporal-chart.tsx:30 | a month written `0x` and one hexadecimal digit 1..9 names that digit's month, where a decimal reading would give 0 |
| Temporal.FormatValidMonth | src/components/temporal-chart.tsx:24-31 | a well-formed `YYYY-MM` is labelled with the month's abbreviation, a slash and the year's last two digits |
| Temporal.FormatMonth | src/components/temporal-chart.tsx:24-31 | every label puts its slash after a three-letter month abbreviation, or after `undefined` when the month does not read as 1..12 (partners `Temporal.FormatValidMonth` and `Temporal.FormatInjective`) |
| Temporal.AcceptedMonthsAreLabelled | src/components/temporal-chart.tsx:24-31 | every month the home page accepts gets a real label, never "undefined" |
| Temporal.JuneExample | src/components/temporal-chart.tsx:24-31 | "2025-06" is labelled "Jun/25" |
| Temporal.MonthsDistinct | src/components/temporal-chart.tsx:26-29 | no two months share an abbreviation |
| Temporal.FormatInjective | src/components/temporal-chart.tsx:24-31 | two well-formed months with the same label are the same month of years with the same last two digits |
| Temporal.ChartData | src/components/temporal-chart.tsx:63-67 | the chart has one row per history entry, in order, each keeping its record and carrying the cap |
| Temporal.JoinPrefix | src/components/temporal-chart.tsx:72 | joining the first pieces of a split gives a prefix of joining them all |
| Temporal.TitleIsPrefix | src/components/temporal-chart.tsx:72 | the chart title is a prefix of the name, and the whole name when it has at most one space |
| Temporal.Title | src/components/temporal-chart.tsx:72 | the chart title is a prefix of the name (partner `Temporal.TitleIsPrefix` adds that a name of at most two words is kept whole) |
| FilterBar.ActiveCount | src/components/filter-bar.tsx:46-49 | the badge count is at least the number of chosen cargos |
| FilterBar.BadgeIffCount | src/components/filter-bar.tsx:41-49 | `hasActiveFilters` holds exactly when the count is positive, and the count exceeds the number of cargos by at most 2 |
| FilterBar.HasActive | src/components/filter-bar.tsx:41-44 | `hasActiveFilters` holds exactly when `activeFilterCount` is positive (partner `FilterBar.BadgeIffCount` bounds the count) |
| FilterBar.Update | src/components/filter-bar.tsx:51-53 | `{...filters, ...partial}`: every field the patch does not supply keeps its value |
| FilterBar.UpdateLaws | src/components/filter-bar.tsx:51-53 | an empty patch changes nothing, a supplied field takes the patch's value, and two updates in a row are one update by the merged patch |
| FilterBar.ClearAll | src/components/filter-bar.tsx:27-57 | clearing gives the defaults: no state, organisation or cargo, so no active filter, salary range 0..300000, sort `maior_remuneracao` |
| FilterBar.ChooseEstado | src/components/filter-bar.tsx:115 | choosing a state sets it and clears the organisation, leaving the other fields alone |
| FilterBar.ChooseOrgao | src/components/filter-bar.tsx:137 | choosing an organisation changes only the organisation |
| FilterBar.ToggleCargo | src/components/filter-bar.tsx:59-64 | toggling flips whether the cargo is chosen, leaves every other cargo's membership and every other field alone |
| FilterBar.FilterDistinct | src/components/filter-bar.tsx:61 | filtering a list without repeats gives a list without repeats |
| FilterBar.FilterOutOne | src/components/filter-bar.tsx:61 | removing a cargo from a list without repeats shortens it by one exactly when the cargo was there |
| FilterBar.ToggleCargoCounts | src/components/filter-bar.tsx:46-63 | on a list without repeats, toggling keeps it without repeats and moves the badge count down by one for a chosen cargo and up by one for a new one; toggling a new cargo twice restores the filters |
| FilterBar.ToggleBack | src/components/filter-bar.tsx:59-63 | toggling an absent cargo twice restores the original filters |
| FilterBar.RemoveAppended | src/components/filter-bar.tsx:61-62 | removing a cargo just appended to a list that lacked it gives the list back |
| FilterBar.DeleteParam | src/components/filter-bar.tsx:71 | `params.delete(name)` leaves no pair with that name |
| FilterBar.ReplaceFirstLaws | src/components/filter-bar.tsx:69 | replacing in place leaves exactly one pair with the name, holding the new value, and keeps every other pair in order |
| FilterBar.SetParamLaws | src/components/filter-bar.tsx:69 | after `params.set(name, v)` the name has exactly the one value `v`, which `get` returns, and every other pair is kept in order |
| FilterBar.SetParam | src/components/filter-bar.tsx:69 | after `params.set(name, v)`, `get(name)` returns `v` (partner `FilterBar.SetParamLaws` adds that it is the only pair with that name and every other pair is kept) |
| FilterBar.AppendLaws | src/components/filter-bar.tsx:69 | setting a name the query lacks appends one pair and keeps the rest |
| FilterBar.OnlyOneGet | src/components/filter-bar.tsx:69 | a name with a single pair reads back that pair's value |
| FilterBar.MonthChangeKeepsDeleteParam | src/components/filter-bar.tsx:66-74 | a month change leaves every other parameter as it was, and afterwards `mes` reads as the chosen month, or is absent when the choice is empty |
| SearchBar.HandleSearch | src/components/search-bar.tsx:59-76 | every input change stores the query and clears the selection; a query under 2 UTF-16 code units empties the suggestions and closes the dropdown; a longer one shows the matcher's first 6 results for the accent-stripped query, open exactly when there is at least one |
| SearchBar.HandleKeyDown | src/components/search-bar.tsx:97-113 | keys do nothing while the dropdown is closed; keys never change the query or suggestions; Enter chooses a record exactly when one is selected, that record is a suggestion and the dropdown closes |
| SearchBar.StepKeepsValid | src/components/search-bar.tsx:59-155 | every event keeps the dropdown open only over suggestions and the selection in `-1..len - 1`; a chosen record is always a suggestion and choosing closes the dropdown; only the clear button reports a search at once |
| SearchBar.ClearEmpties | src/components/search-bar.tsx:131-139 | the clear button, rendered only over a non-empty query, empties the query and suggestions, closes the dropdown and calls `onSearch("")`; the selection index is left as it was, but Enter can no longer choose anything |
| SearchBar.Run | src/components/search-bar.tsx:59-155 | any sequence of possible events from a valid state ends in a valid state |
| SearchBar.ArrowsUndo | src/components/search-bar.tsx:100-105 | away from the ends, ArrowDown then ArrowUp (or the reverse) returns to the same selection |
| SearchBar.ArrowsStopAtEnds | src/components/search-bar.tsx:100-105 | ArrowDown stops at the last suggestion and ArrowUp at "no selection" |
| SearchBar.OpenIffMatches | src/components/search-bar.tsx:64-73 | the dropdown opens after typing exactly when the query has at least 2 UTF-16 code units and the matcher finds something |
| SearchBar.ShortQueries | src/components/search-bar.tsx:64-73 | two characters always search; a single character searches only when it is outside the Basic Multilingual Plane (an emoji), which UTF-16 counts as 2 |
| PageParams.TwoDigits | src/app/page.tsx:8-10 | a month number below 100 written as two digits reads back as that number |
| PageParams.MesRefValid | src/app/page.tsx:8-10 | every four-digit year with a month 01..12 passes the month pattern |
| PageParams.IsValidYear | src/app/mapa/page.tsx:9 | a year that passes `/^\d{4}$/` is all digits and reads as a number below 10000 (partner `PageParams.MesRefValid`) |
| PageParams.IsValidMesRef | src/app/page.tsx:9 | a month that passes has four digits, a dash and two digits reading 1..12 (partners `PageParams.MesRefValid` and `PageParams.ValidIsMesRef`, both directions of the pattern) |
| PageParams.ValidIsMesRef | src/app/page.tsx:8-10 | every text that passes the month pattern is a four-digit year, a dash and a month 01..12 |
| PageParams.MesRefEdges | src/app/page.tsx:8-10 | months 01 and 12 pass; months 00 and 13 do not |
| PageParams.CurrentMonth | src/app/page.tsx:15-16 | the month shown is the requested one when it is valid, else the first available month, and there is none exactly when neither exists |
| PageParams.InvalidMonthIgnored | src/app/page.tsx:15-16 | an invalid `mes` is treated as no `mes`, falling back to the first available month |
| PageParams.CurrentYear | src/app/estatisticas/page.tsx:15-16 | a valid `ano` wins even without data for it; otherwise 2025 when available, else the first available year, else 2025 |
| PageParams.YearComesFromSomewhere | src/app/mapa/page.tsx:15-16 | the year shown is the requested one, an available one or the default with nothing available, and it is a valid year whenever the available years are |
| PageParams.MonthYearIsYear | src/app/mapa/page.tsx:8-16 | the year part of an accepted month is a year the statistics and map pages accept as given |
| Accents.Decomposition | src/app/api/v1/membros/route.ts:21-23 | a character with a canonical decomposition is a Latin-1 letter, and it decomposes into an ASCII letter and a combining mark of U+0300..U+036F |
| Accents.DecomposeChar | src/app/api/v1/membros/route.ts:21-23 | NFD of one character: the character itself, or a base letter followed by one combining mark |
| Accents.Nfd | src/app/api/v1/membros/route.ts:21-23 | NFD at most doubles the length of the text and never shortens it |
| Accents.FoldAll | src/lib/__tests__/utils.test.ts:84-104 | folding character by character never lengthens the text |
| Accents.RemoveAccentsIsFold | src/app/api/v1/membros/route.ts:21-23 | decomposing and then deleting U+0300..U+036F is the same as folding each character on its own |
| Accents.RemoveAccents | src/app/api/v1/membros/route.ts:21 | no character in U+0300..U+036F survives (partners `Accents.RemoveAccentsIsFold` and `Accents.RemoveAccentsIdempotent`) |
| Accents.StripDecomposed | src/app/api/v1/membros/route.ts:21-23 | for one character, deleting the marks of its decomposition gives its fold |
| Accents.FoldAllAppend | src/lib/__tests__/utils.test.ts:84-104 | folding distributes over concatenation |
| Accents.FoldAllClean | src/lib/__tests__/utils.test.ts:84-104 | a folded text holds no combining mark and no decomposable letter |
| Accents.FoldAllClean_Identity | src/lib/__tests__/utils.test.ts:97-99 | a text with nothing to fold is left unchanged |
| Accents.FoldAllAscii | src/lib/__tests__/utils.test.ts:97-99 | ASCII text is left unchanged by folding |
| Accents.RemoveAccentsIdempotent | src/lib/__tests__/utils.test.ts:84-104 | removing accents twice is removing them once |
| Accents.RemoveAccentsAscii | src/lib/__tests__/utils.test.ts:97-99 | plain ASCII text is returned unchanged |
| Accents.RemoveAccentsShorter | src/lib/__tests__/utils.test.ts:84-104 | removing accents never lengthens a text |
| Accents.FoldThrough | src/lib/__tests__/utils.test.ts:85-95 | after an ASCII prefix, one character is folded in place and the rest is folded as a whole |
| Accents.RemoveAccentsAround | src/lib/__tests__/utils.test.ts:85-95 | an accented character between ASCII text is replaced by its fold and nothing else changes |
| Accents.TildeAndCedilla | src/lib/__tests__/utils.test.ts:89-95 | ã, õ, ñ and ç, lower and upper case, fold to their base letters |
| Accents.RemoveAccentsTilde | src/lib/__tests__/utils.test.ts:85-87 | an ã between ASCII text becomes an a, so "São Paulo" gives "Sao Paulo" |
| Accents.RemoveAccentsRemuneracao | src/lib/__tests__/utils.test.ts:89-91 | "remuneração" gives "remuneracao" |
| Accents.RemoveAccentsJustica | src/lib/__tests__/utils.test.ts:93-95 | "Justiça" gives "Justica" |
| Accents.RemoveAccentsPlain | src/lib/__tests__/utils.test.ts:97-103 | "hello" and the empty string are returned unchanged |
| Accents.LowerChar | src/app/api/v1/membros/route.ts:21-23 | `toLowerCase` sends each ASCII capital to a small letter |
| Accents.ToLower | src/app/api/v1/membros/route.ts:21-23 | lower-casing works character by character and keeps the length |
| Accents.ToLowerAppend | src/app/api/v1/membros/route.ts:21-23 | lower-casing distributes over concatenation |
| Accents.FoldCharLower | src/app/api/v1/membros/route.ts:21-23 | for one character, lower-casing and folding commute |
| Accents.FoldAllLower | src/app/api/v1/membros/route.ts:21-23 | lower-casing and folding commute on any text |
| Accents.NormalizeNameCommutes | src/app/api/v1/membros/route.ts:21-23 | the route's normalisation (lower-case, NFD, delete marks) equals lower-casing the accent-stripped text |
| Accents.NormalizeName | src/app/api/v1/membros/route.ts:21-23 | the normalised name holds no combining mark (partner `Accents.NormalizeNameCommutes`) |
| Sorting.Insert | src/app/api/v1/membros/route.ts:32-41 | inserting one element adds exactly that element |
| Sorting.Sort | src/app/api/v1/membros/route.ts:32-41 | sorting keeps the length and is a permutation of its input |
| Sorting.InsertSorted | src/app/api/v1/membros/route.ts:32-41 | inserting into a sorted sequence under a total preorder leaves it sorted |
| Sorting.InsertTies | src/app/api/v1/membros/route.ts:32-41 | insertion keeps the relative order of the elements tied with any value, placing the new one before them |
| Sorting.SortIsStableSort | src/app/api/v1/membros/route.ts:32-41 | under a total preorder the result is sorted, a permutation, and keeps tied elements in their input order, as `Array.prototype.sort` does |
| Sorting.StableSortUnique | src/app/api/v1/membros/route.ts:32-41 | a stable sort has exactly one possible result, so any stable sort of the same input agrees with this one |
| Sorting.SortedTiesUnique | src/app/api/v1/membros/route.ts:32-41 | two sorted permutations with the same order inside every tie class are equal |
| Sorting.DescIsTotalPreorder | src/app/api/v1/orgaos/route.ts:12 | a `(a, b) => key(b) - key(a)` comparator is a total preorder |
| Sorting.AscIsTotalPreorder | src/app/estatisticas/estatisticas-client.tsx:172-173 | a `(a, b) => key(a) - key(b)` comparator is a total preorder |
| Sorting.SortDescByKey | src/app/api/v1/membros/route.ts:34-40 | sorting by a descending key gives a permutation with the keys in non-increasing order, ties kept in input order |
| Sorting.SortAscByKey | src/app/estatisticas/estatisticas-client.tsx:172-173 | sorting by an ascending key gives a permutation with the keys in non-decreasing order |
| Sorting.PrefixOfDescIsTop | src/app/estatisticas/estatisticas-client.tsx:136-138 | the first `n` of a descending sort hold every element whose key beats the `n`-th |
| Text.DigitChar | src/app/api/v1/membros/route.ts:44 | each decimal digit has a character that reads back as it |
| Text.NatToString | src/app/api/v1/membros/route.ts:44 | a number is written as a non-empty run of digits with no leading zero |
| Text.NatToStringValue | src/app/api/v1/membros/route.ts:44 | the digits of a number read back as that number |
| Text.NatToStringInjective | src/app/api/v1/membros/route.ts:44 | different numbers are written differently |
| Text.TrimStart | src/middleware.ts:32 | trimming the start removes a run of leading spaces and nothing else |
| Text.TrimEnd | src/middleware.ts:32 | trimming the end removes a run of trailing spaces and nothing else |
| Text.Trim | src/middleware.ts:32 | `trim` returns the text between some leading and trailing spaces, and it neither starts nor ends with a space |
| Text.TrimWithout | src/middleware.ts:32 | trimming never introduces a character |
| Text.TrimTrimmed | src/middleware.ts:32 | a text with no space at either end is trimmed to itself |
| Text.IndexOf | src/middleware.ts:32 | the index found holds the first occurrence of the character |
| Text.Split | src/components/temporal-chart.tsx:25 | `split` gives at least one piece and no piece contains the separator |
| Text.SplitFirst | src/middleware.ts:32 | the first piece of `split` is the text before the first separator, or all of it when there is none |
| Text.FirstFieldEndUnique | src/middleware.ts:32 | the text before the first separator is determined by the text |
| Text.JoinSplit | src/components/temporal-chart.tsx:72 | joining the pieces of a split with the same separator gives back the text |
| Text.SplitJoin | src/components/temporal-chart.tsx:72 | splitting a join of separator-free pieces gives back the pieces |
| Text.SplitCons | src/components/temporal-chart.tsx:25 | a text before the first separator is the first piece |
| Text.LeadingDigits | src/app/api/v1/membros/route.ts:44 | the leading digits are the longest prefix of digits |
| Text.ParseIntDigits | src/app/api/v1/membros/route.ts:44 | `parseInt` of digits followed by a non-digit is the digits' value |
| Text.ParseIntIsNumber | src/app/api/v1/membros/route.ts:44-46 | `parseInt(s, 10)` (`Text.ParseInt`) is a number exactly when a decimal digit follows the leading white space and the optional sign, and it is negative only after a `-` (partner `Text.ParseIntDigits` gives the value) |
| Text.ParseIntOne | src/app/api/v1/membros/route.ts:44 | the default page "1" reads as 1 |
| Text.ParseIntFifty | src/app/api/v1/membros/route.ts:46 | the default limit "50" reads as 50 |
| Text.ParseIntMinus | src/app/api/v1/membros/route.ts:44-47 | a leading minus negates the digits that follow, and reads as NaN when none follow |
| Text.ParseIntNegative | src/app/api/v1/membros/route.ts:44-45 | a minus followed by digits reads as a negative number |
| Text.ParseIntNatToString | src/app/api/v1/membros/route.ts:44-47 | any written number, with or without a minus and any non-digit tail, reads back as itself |
| Text.ParseIntSkipsSpace | src/app/api/v1/membros/route.ts:44-47 | leading whitespace is skipped |
| Text.ParseIntAutoDecimal | src/components/temporal-chart.tsx:30 | `parseInt` with no radix agrees with the decimal reading unless the text, after spaces and sign, starts with `0x` or `0X` |
| Text.ParseIntAutoHex | src/components/temporal-chart.tsx:30 | `parseInt` with no radix reads `0x` followed by hexadecimal digits as their hexadecimal value, stopping at the first non-hex character |
| Text.ParseIntAutoIsNumber | src/components/temporal-chart.tsx:30 | `parseInt(s)` with no radix (`Text.ParseIntAuto`) is a number exactly when, after the white space and the optional sign, a hexadecimal digit follows a `0x` or `0X` prefix or, without the prefix, a decimal digit comes first; it is negative only after a `-` (partner `Text.ParseIntAutoHex` gives the value) |
| Text.MagnitudeIsNumber | src/components/temporal-chart.tsx:30 | the part after the sign is read exactly when its first digit is present, and is never negative |
| Text.DecimalStopsAtX | src/components/temporal-chart.tsx:30 | the decimal reading of a `0x` text stops at the `x` and gives 0 |
| Text.RadixMatters | src/components/temporal-chart.tsx:30 | on `0x` and a digit 1..9, the decimal reading gives 0 and the radix-less one gives the digit |
| Text.HexDigitsSingle | src/components/temporal-chart.tsx:30 | a single hexadecimal digit reads as its own value |
| Text.HexDigitValue | src/components/temporal-chart.tsx:30 | a hexadecimal digit has a value below 16, equal to its decimal value for `0`-`9` |
| Text.LeadingHexDigits | src/components/temporal-chart.tsx:30 | the leading run of hexadecimal digits is a prefix of the text, all hexadecimal digits, and followed by none |
| Text.Utf16Length | src/components/search-bar.tsx:64 | `length` counts UTF-16 code units: at least the number of characters and at most twice it |
| Text.Utf16LengthIsLength | src/components/search-bar.tsx:64 | `length` equals the number of characters exactly when no character is outside the Basic Multilingual Plane |
| Text.AstralPair | src/components/search-bar.tsx:64 | a single character outside the Basic Multilingual Plane has `length` 2 |
| Text.ParseIntRejects | src/app/api/v1/membros/route.ts:44-47 | a text with no digits where the number should start reads as NaN |
| Numeric.FloorDiv | src/app/estatisticas/estatisticas-client.tsx:391 | `Math.floor(a / b)` is the largest whole number of `b`s within `a` |
| Numeric.CeilDiv | src/middleware.ts:60 | `Math.ceil(a / b)` is the smallest whole number of `b`s covering `a` |
| Numeric.RoundDiv | src/app/estatisticas/estatisticas-client.tsx:371 | `Math.round(a / b)` is within half a unit of the exact quotient, halves rounded up |
| Numeric.Round | src/components/salary-bar.tsx:37 | `Math.round` is within half a unit of its argument, halves rounded up |
| Numeric.RoundWithin | src/app/estatisticas/estatisticas-client.tsx:165 | rounding a value between two whole numbers stays between them |
| Numeric.Percent | src/app/estatisticas/estatisticas-client.tsx:165 | a percentage times the whole is the part times 100, and a part of the whole is between 0 and 100 per cent |

## Left out

- The database layer and `get-members`: the records are a parameter, a sequence of `Records.Member`.
- The `historico` endpoint: its result is an SQL query, and its only logic outside I/O is a 400 response for a missing parameter.
- `src/lib/aggregations.ts` and `src/data/mock-data.ts` are not part of this model. `getStatsByEstado`, `getStatsByOrgao`, `getKPIs` and `getSalaryComparison` are defined from the contracts their tests state. Where the tests say nothing, the model fixes a choice: groups come in first-occurrence order, and a body's `estado` is that of its first member.
- The transparency score of a body and the salary table of the comparison are parameters. Their contents are data, not logic.
- Aggregation.SalaryComparison: the salary table is required to be non-empty with positive salaries, as the fixed table behind `getSalaryComparison` is. Which professions it lists, and so which months the test sees for R$ 1.000,00, is not stated. How `anosEquivalentes` is rounded is not fixed by the code shown here. The model holds it in tenths of a year, rounded half up from the rounded months, which matches a one-decimal display.
- Fuse.js fuzzy matching: the matcher is a parameter of the search box.
- The debounce timer of the search box, input focus, the mobile filter panel toggle and `router.push` navigation: they only schedule or display.
- recharts and `@tanstack/react-virtual` rendering: only the data handed to them is modelled.
- The CSV download through a Blob and an object URL: I/O.
- `formatCurrency`, `toFixed`, `toLocaleString` and the other number formatting: locale and floating-point output. The CSV writes amounts from integer cents and percentages rounded to tenths.
- Floating point in general: money is exact integer cents and percentages are exact reals, so the 0.01 tolerances of the tests become equalities.
- Text.ParseInt: `parseInt` returns a double, and the model returns the exact integer. The two agree up to 2^53. Above that the double is the nearest representable value, so `9007199254740993` reads as 9007199254740992. Past about 308 digits it is `Infinity`. The same holds for `Text.ParseIntAuto`.
- Text.ParseIntDigits: the digits' exact value, which `parseInt` matches only up to 2^53 (see `Text.ParseInt`).
- Text.ParseIntNegative: exact, as `Text.ParseIntDigits`; below -2^53 `parseInt` rounds and far below it gives `-Infinity`.
- Text.ParseIntNatToString: exact for every number, where `parseInt` is exact only up to 2^53.
- Text.ParseIntAutoHex: the hexadecimal digits' exact value, where `parseInt` is exact only up to 2^53.
- Listing.PageOf: a page text above 2^53 is used as its exact value, where the route uses the rounded double. A text of more than about 308 digits gives `Infinity` in the route. That passes the `< 1` test, `meta.page` serialises as `null`, and the page is empty. The model gives the exact integer instead. `Listing.PageValue` is stated only up to 2^53 for this reason. `Listing.LimitOf` is not affected, because of the cap of 200.
- `Date.now()`: the current time is the parameter `now`.
- Concurrency: the middleware runs on one event loop, so each request is one atomic step.
- `Accents.Nfd`: Unicode NFD is modelled by a table of the precomposed Latin-1 letters only. Other decomposable characters are left as they are.
- `Accents.ToLower`: `toLowerCase` is modelled for ASCII and Latin-1 capitals only.
- `ITEMS_PER_PAGE` and the other values of `src/lib/constants.ts` beyond the cap are not part of this model. The leaderboard's page size is a positive parameter.
- `NextResponse` and header plumbing: the CORS headers are modelled only as present on every response.
- `Leaderboard.Initial`, `Leaderboard.ChangePage`, `Leaderboard.ToggleCard` and `Leaderboard.Settle` state only one fact each. `Leaderboard.ToggleTwice`, `Leaderboard.SettleInRange` and `Leaderboard.ClickKeepsRange` state what they do together.

=== FILE: accents.dfy ===
/** Accent folding: `removeAccents` and the inline normalisation of the
    member-listing name filter, both of which decompose a string to Unicode
    Normalization Form D (UAX #15) and then delete every combining
    diacritical mark in U+0300..U+036F.

    The decomposition is a finite table: the precomposed Latin-1 letters used
    by Portuguese (and the other Latin-1 letters with a canonical
    decomposition) become a base letter followed by one combining mark; every
    other character is left as it is. `toLowerCase` is modelled on ASCII and
    Latin-1 in the same way. */
module Accents {
  import opened Options
  import Seqs

  predicate IsCombiningMark(c: char) { '\U{300}' <= c <= '\U{36F}' }

  predicate IsBaseChar(c: char) { !IsCombiningMark(c) }

  const Grave := '\U{300}'
  const Acute := '\U{301}'
  const Circumflex := '\U{302}'
  const Tilde := '\U{303}'
  const Diaeresis := '\U{308}'
  const Ring := '\U{30A}'
  const Cedilla := '\U{327}'

  /** Canonical decomposition of an upper-case Latin-1 letter (U+00C0..U+00DD)
      into base letter and combining mark. Ø, Æ, Ð, Þ and × have none. */
  function UpperDecomposition(c: char): Option<(char, char)>
  {
    if 'À' <= c <= 'Å' then Some(('A', [Grave, Acute, Circumflex, Tilde, Diaeresis, Ring][c as int - 'À' as int]))
    else if c == 'Ç' then Some(('C', Cedilla))
    else if 'È' <= c <= 'Ë' then Some(('E', [Grave, Acute, Circumflex, Diaeresis][c as int - 'È' as int]))
    else if 'Ì' <= c <= 'Ï' then Some(('I', [Grave, Acute, Circumflex, Diaeresis][c as int - 'Ì' as int]))
    else if c == 'Ñ' then Some(('N', Tilde))
    else if 'Ò' <= c <= 'Ö' then Some(('O', [Grave, Acute, Circumflex, Tilde, Diaeresis][c as int - 'Ò' as int]))
    else if 'Ù' <= c <= 'Ü' then Some(('U', [Grave, Acute, Circumflex, Diaeresis][c as int - 'Ù' as int]))
    else if c == 'Ý' then Some(('Y', Acute))
    else None
  }

  /** Canonical decomposition of a Latin-1 letter: the lower-case letters
      U+00E0..U+00FD mirror the upper-case ones 0x20 below them, and ÿ is
      y with a diaeresis. */
  function Decomposition(c: char): (r: Option<(char, char)>)
    ensures r.Some? ==> 'A' <= r.value.0 <= 'z' && IsCombiningMark(r.value.1)
    ensures r.Some? ==> '\U{C0}' <= c <= '\U{FF}'
  {
    if '\U{C0}' <= c <= '\U{DD}' then UpperDecomposition(c)
    else if '\U{E0}' <= c <= '\U{FD}' then
      match UpperDecomposition((c as int - 0x20) as char)
      case None => None
      case Some(p) => Some(((p.0 as int + 0x20) as char, p.1))
    else if c == 'ÿ' then Some(('y', Diaeresis))
    else None
  }

  /** The NFD form of one character. */
  function DecomposeChar(c: char): (r: seq<char>)
    ensures 1 <= |r| <= 2
    ensures |r| == 2 ==> IsBaseChar(r[0]) && IsCombiningMark(r[1])
    ensures |r| == 1 ==> r[0] == c
  {
    match Decomposition(c)
    case None => [c]
    case Some(p) => [p.0, p.1]
  }

  /** `s.normalize("NFD")`, restricted to the table above. */
  function Nfd(s: string): (r: string)
    ensures |s| <= |r| <= 2 * |s|
  {
    if |s| == 0 then [] else DecomposeChar(s[0]) + Nfd(s[1..])
  }

  /** `s.replace(/[̀-ͯ]/g, "")`. */
  function StripMarks(s: string): string
  {
    Seqs.Filter(s, IsBaseChar)
  }

  /** `removeAccents(s)`: NFD, then delete the combining marks. */
  function RemoveAccents(s: string): (r: string)
    ensures forall i | 0 <= i < |r| :: !IsCombiningMark(r[i])
  {
    StripMarks(Nfd(s))
  }

  /** What one character of the input becomes: nothing for a stray
      combining mark, its base letter for a decomposable letter, itself
      otherwise. */
  function FoldChar(c: char): seq<char>
  {
    if IsCombiningMark(c) then []
    else match Decomposition(c)
      case None => [c]
      case Some(p) => [p.0]
  }

  /** The character-by-character reading of accent removal. */
  function FoldAll(s: string): (r: string)
    ensures |r| <= |s|
  {
    if |s| == 0 then [] else FoldChar(s[0]) + FoldAll(s[1..])
  }

  /** Decomposing and then stripping marks is the same as folding each
      character on its own. */
  lemma {:induction false} RemoveAccentsIsFold(s: string)
    ensures RemoveAccents(s) == FoldAll(s)
  {
    if |s| > 0 {
      RemoveAccentsIsFold(s[1..]);
      Seqs.FilterAppend(DecomposeChar(s[0]), Nfd(s[1..]), IsBaseChar);
      StripDecomposed(s[0]);
    }
  }

  lemma StripDecomposed(c: char)
    ensures StripMarks(DecomposeChar(c)) == FoldChar(c)
  {
    var d := DecomposeChar(c);
    if |d| == 2 {
      assert d[1..] == [d[1]];
      assert Seqs.Filter(d[1..], IsBaseChar) == [];
    } else {
      assert d[1..] == [];
    }
  }

  lemma {:induction false} FoldAllAppend(a: string, b: string)
    ensures FoldAll(a + b) == FoldAll(a) + FoldAll(b)
  {
    if |a| == 0 {
      assert a + b == b;
    } else {
      assert (a + b)[1..] == a[1..] + b;
      FoldAllAppend(a[1..], b);
    }
  }

  /** No combining mark and no decomposable letter survives accent removal. */
  lemma {:induction false} FoldAllClean(s: string)
    ensures forall i :: 0 <= i < |FoldAll(s)| ==>
              IsBaseChar(FoldAll(s)[i]) && Decomposition(FoldAll(s)[i]).None?
  {
    if |s| > 0 {
      FoldAllClean(s[1..]);
      var c := s[0];
      if !IsCombiningMark(c) && Decomposition(c).Some? {
        var b := Decomposition(c).value.0;
        assert Decomposition(b).None?;
      }
    }
  }

  /** A string with no combining mark and no decomposable letter is left
      as it is. */
  lemma {:induction false} FoldAllClean_Identity(s: string)
    requires forall i :: 0 <= i < |s| ==> IsBaseChar(s[i]) && Decomposition(s[i]).None?
    ensures FoldAll(s) == s
  {
    if |s| > 0 {
      FoldAllClean_Identity(s[1..]);
      assert s == [s[0]] + s[1..];
    }
  }

  lemma FoldAllAscii(s: string)
    requires forall i :: 0 <= i < |s| ==> s[i] < '\U{80}'
    ensures FoldAll(s) == s
  {
    FoldAllClean_Identity(s);
  }

  /** Removing accents twice is the same as removing them once. */
  lemma RemoveAccentsIdempotent(s: string)
    ensures RemoveAccents(RemoveAccents(s)) == RemoveAccents(s)
  {
    RemoveAccentsIsFold(s);
    RemoveAccentsIsFold(FoldAll(s));
    FoldAllClean(s);
    FoldAllClean_Identity(FoldAll(s));
  }

  /** Plain ASCII text is returned unchanged. */
  lemma RemoveAccentsAscii(s: string)
    requires forall i :: 0 <= i < |s| ==> s[i] < '\U{80}'
    ensures RemoveAccents(s) == s
  {
    RemoveAccentsIsFold(s);
    FoldAllClean_Identity(s);
  }

  /** The result is never longer than the input. */
  lemma RemoveAccentsShorter(s: string)
    ensures |RemoveAccents(s)| <= |s|
  {
    RemoveAccentsIsFold(s);
  }

  /** Removing accents from ASCII text, one accented letter, and the rest. */
  lemma FoldThrough(pre: string, c: char, post: string)
    requires forall i :: 0 <= i < |pre| ==> pre[i] < '\U{80}'
    ensures FoldAll(pre + [c] + post) == pre + FoldChar(c) + FoldAll(post)
  {
    FoldAllAppend(pre + [c], post);
    FoldAllAppend(pre, [c]);
    FoldAllClean_Identity(pre);
    assert FoldAll([c]) == FoldChar(c) + FoldAll([]);
  }

  /** In ASCII text around one accented letter, only that letter changes. */
  lemma RemoveAccentsAround(pre: string, c: char, post: string)
    requires forall i :: 0 <= i < |pre| ==> pre[i] < '\U{80}'
    requires forall i :: 0 <= i < |post| ==> post[i] < '\U{80}'
    ensures RemoveAccents(pre + [c] + post) == pre + FoldChar(c) + post
  {
    RemoveAccentsIsFold(pre + [c] + post);
    FoldThrough(pre, c, post);
    FoldAllClean_Identity(post);
  }

  /** Tildes and cedillas fold to their base letters. */
  lemma TildeAndCedilla()
    ensures FoldChar('ã') == "a" && FoldChar('õ') == "o" && FoldChar('ñ') == "n"
    ensures FoldChar('Ã') == "A" && FoldChar('Õ') == "O" && FoldChar('Ñ') == "N"
    ensures FoldChar('ç') == "c" && FoldChar('Ç') == "C"
  {
  }

  /** The documented examples: a tilde between plain letters, as in
      "São Paulo", which becomes "Sao Paulo", ... */
  lemma RemoveAccentsTilde(pre: string, post: string)
    requires forall i :: 0 <= i < |pre| ==> pre[i] < '\U{80}'
    requires forall i :: 0 <= i < |post| ==> post[i] < '\U{80}'
    ensures RemoveAccents(pre + ['ã'] + post) == pre + "a" + post
  {
    assert FoldChar('ã') == "a";
    RemoveAccentsAround(pre, 'ã', post);
  }

  /** ... a cedilla and a tilde in one word, ... */
  lemma RemoveAccentsRemuneracao(s: string)
    requires s == "remuneração"
    ensures RemoveAccents(s) == "remuneracao"
  {
    var pre, mid, post := "remunera", "ão", "o";
    assert FoldAll(mid) == "ao" by {
      assert mid == "" + ['ã'] + post;
      FoldThrough("", 'ã', post);
      FoldAllAscii(post);
    }
    assert FoldAll(pre + ['ç'] + mid) == "remuneracao" by {
      FoldThrough(pre, 'ç', mid);
    }
    assert s == pre + ['ç'] + mid;
    RemoveAccentsIsFold(s);
  }

  /** ... a cedilla alone, ... */
  lemma RemoveAccentsJustica(s: string)
    requires s == "Justiça"
    ensures RemoveAccents(s) == "Justica"
  {
    var pre, post := "Justi", "a";
    FoldAllAscii(post);
    assert FoldAll(pre + ['ç'] + post) == "Justica" by {
      FoldThrough(pre, 'ç', post);
    }
    assert s == pre + ['ç'] + post;
    RemoveAccentsIsFold(s);
  }

  /** ... and plain text and the empty string, which are left alone. */
  lemma RemoveAccentsPlain()
    ensures RemoveAccents("hello") == "hello"
    ensures RemoveAccents("") == ""
  {
    RemoveAccentsAscii("hello");
    RemoveAccentsAscii("");
  }

  /** `toLowerCase` on one character: ASCII and the Latin-1 upper-case
      letters (all of U+00C0..U+00DE except ×). */
  function LowerChar(c: char): (r: char)
    ensures 'A' <= c <= 'Z' ==> 'a' <= r <= 'z'
  {
    if 'A' <= c <= 'Z' || ('\U{C0}' <= c <= '\U{DE}' && c != '\U{D7}') then (c as int + 0x20) as char
    else c
  }

  /** `s.toLowerCase()`. */
  function ToLower(s: string): (r: string)
    ensures |r| == |s| && forall i :: 0 <= i < |s| ==> r[i] == LowerChar(s[i])
  {
    seq(|s|, i requires 0 <= i < |s| => LowerChar(s[i]))
  }

  lemma ToLowerAppend(a: string, b: string)
    ensures ToLower(a + b) == ToLower(a) + ToLower(b)
  {
  }

  /** The name filter's normalisation: lower-case, NFD, strip marks. */
  function NormalizeName(s: string): (r: string)
    ensures forall i | 0 <= i < |r| :: !IsCombiningMark(r[i])
  {
    RemoveAccents(ToLower(s))
  }

  lemma FoldCharLower(c: char)
    ensures FoldChar(LowerChar(c)) == ToLower(FoldChar(c))
  {
  }

  /** Lower-casing before or after accent removal gives the same string. */
  lemma {:induction false} FoldAllLower(s: string)
    ensures FoldAll(ToLower(s)) == ToLower(FoldAll(s))
  {
    if |s| > 0 {
      FoldAllLower(s[1..]);
      FoldCharLower(s[0]);
      assert ToLower(s) == [LowerChar(s[0])] + ToLower(s[1..]);
      ToLowerAppend(FoldChar(s[0]), FoldAll(s[1..]));
    }
  }

  lemma NormalizeNameCommutes(s: string)
    ensures NormalizeName(s) == ToLower(RemoveAccents(s))
  {
    RemoveAccentsIsFold(ToLower(s));
    RemoveAccentsIsFold(s);
    FoldAllLower(s);
  }
}

=== FILE: aggregation.dfy ===
/** Per-state and per-organisation statistics, the headline figures and the
    salary-equivalence table.

    `src/lib/aggregations.ts` and `src/data/mock-data.ts` are not part of this
    model: the functions below define the results those modules are
    promised to return by src/lib/__tests__/aggregations.test.ts and
    src/data/__tests__/mock-data.test.ts, and the lemmas prove those
    promises. Groups are built as a one-pass `Map` builds them: keys in order
    of first encounter. */
module Aggregation {
  import Seqs
  import Sorting
  import Numeric
  import Grouping
  import opened Records

  function EstadoOf(m: Member): string { m.estado }

  function OrgaoOf(m: Member): string { m.orgao }

  function One(m: Member): int { 1 }

  function AcimaOf(m: Member): int { m.acimaTeto }

  function AboveFlag(m: Member): int { if IsAbove(m) then 1 else 0 }

  /** The total exceeds the cap. */
  predicate TotalAboveCap(m: Member) { m.remuneracaoTotal > Teto }

  /** How many records exceed the cap. */
  function CountAbove(s: seq<Member>): (n: int)
    ensures 0 <= n <= |s|
    ensures n == Seqs.Sum(s, AboveFlag)
  {
    Seqs.FilterCount(s, IsAbove, AboveFlag);
    |Seqs.Filter(s, IsAbove)|
  }

  /** `part / whole × 100`, and 0 for an empty whole. */
  function Share(part: int, whole: int): (p: real)
    ensures whole == 0 ==> p == 0.0
    ensures whole != 0 ==> p * (whole as real) == (part as real) * 100.0
    ensures 0 <= part <= whole ==> 0.0 <= p <= 100.0
  {
    if whole == 0 then 0.0 else Numeric.Percent(part, whole)
  }

  datatype EstadoStats = EstadoStats(
    estado: string,
    totalMembros: int,
    membrosAcimaTeto: int,
    totalAcimaTeto: int,
    percentualAcimaTeto: real)

  /** The statistics of one state from its records. */
  function EstadoStatsOf(k: string, g: seq<Member>): (st: EstadoStats)
    ensures st.estado == k && st.totalMembros == |g|
    ensures 0 <= st.membrosAcimaTeto <= st.totalMembros
    ensures 0.0 <= st.percentualAcimaTeto <= 100.0
  {
    var n := CountAbove(g);
    EstadoStats(k, |g|, n, Seqs.Sum(g, AcimaOf), Share(n, |g|))
  }

  /** One row per key of `ks`, in that order. */
  function EstadoRows(s: seq<Member>, ks: seq<string>): (r: seq<EstadoStats>)
    ensures |r| == |ks|
    ensures forall i | 0 <= i < |ks| :: r[i] == EstadoStatsOf(ks[i], Grouping.Group(s, EstadoOf, ks[i]))
  {
    seq(|ks|, i requires 0 <= i < |ks| => EstadoStatsOf(ks[i], Grouping.Group(s, EstadoOf, ks[i])))
  }

  lemma EstadoRowsTail(s: seq<Member>, ks: seq<string>)
    requires |ks| > 0
    ensures EstadoRows(s, ks)[0] == EstadoStatsOf(ks[0], Grouping.Group(s, EstadoOf, ks[0]))
    ensures EstadoRows(s, ks)[1..] == EstadoRows(s, ks[1..])
  {
    var r, t := EstadoRows(s, ks), EstadoRows(s, ks[1..]);
    forall i | 0 <= i < |t| ensures r[1..][i] == t[i] {
      assert ks[1..][i] == ks[i + 1];
    }
  }

  /** `Array.from(getStatsByEstado(members).values())`. */
  function StatsByEstado(s: seq<Member>): (r: seq<EstadoStats>)
    ensures |r| == |Grouping.Keys(s, EstadoOf)|
    ensures forall i | 0 <= i < |r| :: Grouping.Occurs(s, EstadoOf, r[i].estado) && r[i].totalMembros > 0
    ensures forall i, j | 0 <= i < j < |r| :: r[i].estado != r[j].estado
  {
    var ks := Grouping.Keys(s, EstadoOf);
    var r := EstadoRows(s, ks);
    assert forall i | 0 <= i < |r| :: r[i].estado == ks[i];
    forall i | 0 <= i < |r|
      ensures Grouping.Occurs(s, EstadoOf, r[i].estado) && r[i].totalMembros > 0
    {
      assert ks[i] in ks;
      Grouping.GroupOfKeyNonEmpty(s, EstadoOf, ks[i]);
    }
    r
  }

  /** `getStatsByEstado(members)` as a map: one entry per state that
      occurs, stored under its own `estado`. */
  function EstadoMap(s: seq<Member>): (mp: map<string, EstadoStats>)
    ensures forall k :: k in mp <==> Grouping.Occurs(s, EstadoOf, k)
    ensures forall k | k in mp :: mp[k].estado == k && mp[k].totalMembros > 0
  {
    var ks := Grouping.Keys(s, EstadoOf);
    var mp := map k | k in ks :: EstadoStatsOf(k, Grouping.Group(s, EstadoOf, k));
    assert forall k | k in mp :: mp[k].totalMembros > 0 by {
      forall k | k in mp
        ensures mp[k].totalMembros > 0
      {
        Grouping.GroupOfKeyNonEmpty(s, EstadoOf, k);
      }
    }
    mp
  }

  /** The values of the map in insertion order are the rows. */
  lemma EstadoMapValues(s: seq<Member>)
    ensures var r, mp := StatsByEstado(s), EstadoMap(s);
            forall i | 0 <= i < |r| :: r[i].estado in mp && mp[r[i].estado] == r[i]
  {
  }

  lemma {:induction false} EstadoRowsSum(s: seq<Member>, ks: seq<string>, field: EstadoStats -> int, f: Member -> int)
    requires forall k :: field(EstadoStatsOf(k, Grouping.Group(s, EstadoOf, k))) == Seqs.Sum(Grouping.Group(s, EstadoOf, k), f)
    ensures Seqs.Sum(EstadoRows(s, ks), field) == Grouping.GroupSums(s, ks, EstadoOf, f)
  {
    if |ks| > 0 {
      EstadoRowsTail(s, ks);
      EstadoRowsSum(s, ks[1..], field, f);
    }
  }

  function TotalMembrosOf(st: EstadoStats): int { st.totalMembros }

  function MembrosAcimaOf(st: EstadoStats): int { st.membrosAcimaTeto }

  function TotalAcimaOf(st: EstadoStats): int { st.totalAcimaTeto }

  /** The states partition the records: summed over the states, the member
      counts give the number of records, the above-cap counts give the
      number of records above the cap, and the excess totals give the total
      excess. */
  lemma EstadosPartition(s: seq<Member>)
    ensures Seqs.Sum(StatsByEstado(s), TotalMembrosOf) == |s|
    ensures Seqs.Sum(StatsByEstado(s), MembrosAcimaOf) == CountAbove(s)
    ensures Seqs.Sum(StatsByEstado(s), TotalAcimaOf) == Seqs.Sum(s, AcimaOf)
  {
    var ks := Grouping.Keys(s, EstadoOf);
    forall k
      ensures TotalMembrosOf(EstadoStatsOf(k, Grouping.Group(s, EstadoOf, k))) == Seqs.Sum(Grouping.Group(s, EstadoOf, k), One)
    {
      Seqs.SumOnes(Grouping.Group(s, EstadoOf, k), One);
    }
    EstadoRowsSum(s, ks, TotalMembrosOf, One);
    Grouping.GroupsPartition(s, EstadoOf, One);
    Seqs.SumOnes(s, One);
    EstadoRowsSum(s, ks, MembrosAcimaOf, AboveFlag);
    Grouping.GroupsPartition(s, EstadoOf, AboveFlag);
    EstadoRowsSum(s, ks, TotalAcimaOf, AcimaOf);
    Grouping.GroupsPartition(s, EstadoOf, AcimaOf);
  }

  /** There is one row per distinct state. */
  lemma EstadosCount(s: seq<Member>)
    ensures |StatsByEstado(s)| == |Grouping.KeyValues(s, EstadoOf)|
  {
    Grouping.KeysCount(s, EstadoOf);
  }

  /** A transparency score: a whole number from 0 to 100. */
  type Score = x: int | 0 <= x <= 100

  datatype OrgaoStats = OrgaoStats(
    orgao: string,
    estado: string,
    totalMembros: int,
    membrosAcimaTeto: int,
    totalAcimaTeto: int,
    percentualAcimaTeto: real,
    transparenciaScore: int,
    membros: seq<Member>)

  /** The statistics of one organisation from its records. The score is a
      function of the organisation and its records supplied by the caller
      (its metadata table is not part of this model); the state is that of
      the organisation's first record; the members are listed by descending
      total. */
  function OrgaoStatsOf(k: string, g: seq<Member>, score: (string, seq<Member>) -> Score): (st: OrgaoStats)
    ensures st.orgao == k && st.totalMembros == |g| == |st.membros|
    ensures |g| > 0 ==> st.estado == g[0].estado
    ensures multiset(st.membros) == multiset(g)
    ensures 0 <= st.membrosAcimaTeto <= st.totalMembros
    ensures 0.0 <= st.percentualAcimaTeto <= 100.0
    ensures 0 <= st.transparenciaScore <= 100
  {
    var n := CountAbove(g);
    var estado := if |g| > 0 then g[0].estado else "";
    OrgaoStats(k, estado, |g|, n, Seqs.Sum(g, AcimaOf), Share(n, |g|), score(k, g), Sorting.Sort(g, Sorting.Desc(TotalKey)))
  }

  /** The members are a stable sort of the records by descending total:
      equal totals keep their input order. */
  lemma OrgaoMembrosStable(k: string, g: seq<Member>, score: (string, seq<Member>) -> Score)
    ensures Sorting.IsStableSortOf(OrgaoStatsOf(k, g, score).membros, g, Sorting.Desc(TotalKey))
  {
    Sorting.DescIsTotalPreorder(TotalKey);
    Sorting.SortIsStableSort(g, Sorting.Desc(TotalKey));
  }

  function OrgaoRows(s: seq<Member>, ks: seq<string>, score: (string, seq<Member>) -> Score): (r: seq<OrgaoStats>)
    ensures |r| == |ks|
    ensures forall i | 0 <= i < |ks| :: r[i] == OrgaoStatsOf(ks[i], Grouping.Group(s, OrgaoOf, ks[i]), score)
  {
    seq(|ks|, i requires 0 <= i < |ks| => OrgaoStatsOf(ks[i], Grouping.Group(s, OrgaoOf, ks[i]), score))
  }

  lemma OrgaoRowsTail(s: seq<Member>, ks: seq<string>, score: (string, seq<Member>) -> Score)
    requires |ks| > 0
    ensures OrgaoRows(s, ks, score)[0] == OrgaoStatsOf(ks[0], Grouping.Group(s, OrgaoOf, ks[0]), score)
    ensures OrgaoRows(s, ks, score)[1..] == OrgaoRows(s, ks[1..], score)
  {
    var r, t := OrgaoRows(s, ks, score), OrgaoRows(s, ks[1..], score);
    forall i | 0 <= i < |t| ensures r[1..][i] == t[i] {
      assert ks[1..][i] == ks[i + 1];
    }
  }

  /** `Array.from(getStatsByOrgao(members).values())`. */
  function StatsByOrgao(s: seq<Member>, score: (string, seq<Member>) -> Score): (r: seq<OrgaoStats>)
    ensures |r| == |Grouping.Keys(s, OrgaoOf)|
    ensures forall i | 0 <= i < |r| :: r[i].orgao == Grouping.Keys(s, OrgaoOf)[i]
    ensures forall i, j | 0 <= i < j < |r| :: r[i].orgao != r[j].orgao
  {
    OrgaoRows(s, Grouping.Keys(s, OrgaoOf), score)
  }

  /** Each organisation's members are exactly its records, ordered by
      non-increasing total; every score lies in [0, 100]. */
  lemma OrgaoMembrosSorted(s: seq<Member>, score: (string, seq<Member>) -> Score, i: int)
    requires 0 <= i < |StatsByOrgao(s, score)|
    ensures var st := StatsByOrgao(s, score)[i];
            && multiset(st.membros) == multiset(Grouping.Group(s, OrgaoOf, st.orgao))
            && (forall a, b | 0 <= a < b < |st.membros| :: st.membros[a].remuneracaoTotal >= st.membros[b].remuneracaoTotal)
            && 0 <= st.transparenciaScore <= 100
            && st.totalMembros > 0
  {
    var st := StatsByOrgao(s, score)[i];
    Sorting.SortDescByKey(Grouping.Group(s, OrgaoOf, st.orgao), TotalKey);
    Grouping.GroupOfKeyNonEmpty(s, OrgaoOf, st.orgao);
  }

  /** Each organisation's state is the state of one of its own records. */
  lemma OrgaoEstadoFromRecords(s: seq<Member>, score: (string, seq<Member>) -> Score, i: int)
    requires 0 <= i < |StatsByOrgao(s, score)|
    ensures var st := StatsByOrgao(s, score)[i];
            exists m | m in s :: m.orgao == st.orgao && m.estado == st.estado
  {
    var st := StatsByOrgao(s, score)[i];
    var g := Grouping.Group(s, OrgaoOf, st.orgao);
    Grouping.GroupOfKeyNonEmpty(s, OrgaoOf, st.orgao);
    assert OrgaoOf(g[0]) == st.orgao && g[0] in s;
  }

  function OrgaoMembrosOf(st: OrgaoStats): int { st.totalMembros }

  lemma {:induction false} OrgaoRowsSum(s: seq<Member>, ks: seq<string>, score: (string, seq<Member>) -> Score)
    ensures Seqs.Sum(OrgaoRows(s, ks, score), OrgaoMembrosOf) == Grouping.GroupSums(s, ks, OrgaoOf, One)
  {
    if |ks| > 0 {
      OrgaoRowsTail(s, ks, score);
      OrgaoRowsSum(s, ks[1..], score);
      Seqs.SumOnes(Grouping.Group(s, OrgaoOf, ks[0]), One);
    }
  }

  /** The organisations partition the records. */
  lemma OrgaosPartition(s: seq<Member>, score: (string, seq<Member>) -> Score)
    ensures Seqs.Sum(StatsByOrgao(s, score), OrgaoMembrosOf) == |s|
  {
    OrgaoRowsSum(s, Grouping.Keys(s, OrgaoOf), score);
    Grouping.GroupsPartition(s, OrgaoOf, One);
    Seqs.SumOnes(s, One);
  }

  /** The figure by which the map and the statistics page rank states and
      organisations. */
  datatype Metric = TotalAcimaTeto | MembrosAcimaTeto | PercentualAcimaTeto

  /** `st[metric]` for a state. */
  function EstadoMetric(metric: Metric): EstadoStats -> real
  {
    (st: EstadoStats) =>
      match metric
      case TotalAcimaTeto => st.totalAcimaTeto as real
      case MembrosAcimaTeto => st.membrosAcimaTeto as real
      case PercentualAcimaTeto => st.percentualAcimaTeto
  }

  /** `o[metric]` for an organisation. */
  function OrgaoMetric(metric: Metric): OrgaoStats -> real
  {
    (st: OrgaoStats) =>
      match metric
      case TotalAcimaTeto => st.totalAcimaTeto as real
      case MembrosAcimaTeto => st.membrosAcimaTeto as real
      case PercentualAcimaTeto => st.percentualAcimaTeto
  }

  /** The headline figures of the dashboard. */
  datatype Kpis = Kpis(
    totalAcimaTeto: int,
    numAcimaTeto: int,
    maiorRemuneracao: int,
    mediaAcimaTeto: real,
    percentualAcimaTeto: real)

  /** The largest total, and 0 for no records. */
  function MaxTotal(s: seq<Member>): (r: int)
    ensures forall i | 0 <= i < |s| :: s[i].remuneracaoTotal <= r
    ensures |s| > 0 ==> exists i | 0 <= i < |s| :: s[i].remuneracaoTotal == r
    ensures |s| == 0 ==> r == 0
  {
    if |s| == 0 then 0
    else if |s| == 1 then s[0].remuneracaoTotal
    else
      var rest := MaxTotal(s[1..]);
      assert forall i | 1 <= i < |s| :: s[i] == s[1..][i - 1];
      if s[0].remuneracaoTotal >= rest then s[0].remuneracaoTotal else rest
  }

  /** `getKPIs(members)`: the total excess, how many records exceed the
      cap, the largest total, the mean excess of those above the cap, and
      their share of all records; every figure is 0 for no records. */
  function GetKpis(s: seq<Member>): (k: Kpis)
    ensures k.numAcimaTeto == |Seqs.Filter(s, IsAbove)|
    ensures k.totalAcimaTeto == Seqs.Sum(s, AcimaOf)
    ensures 0.0 <= k.percentualAcimaTeto <= 100.0
    ensures IsMean(k.mediaAcimaTeto, k.totalAcimaTeto, k.numAcimaTeto)
    ensures |s| == 0 ==> k == Kpis(0, 0, 0, 0.0, 0.0)
  {
    var total := Seqs.Sum(s, AcimaOf);
    var num := CountAbove(s);
    assert num == |Seqs.Filter(s, IsAbove)|;
    Kpis(total, num, MaxTotal(s), Mean(total, num), Share(num, |s|))
  }

  /** `m` times a positive count gives back the total. */
  predicate IsMean(m: real, total: int, count: int)
  {
    count > 0 ==> m * (count as real) == total as real
  }

  /** `total / count`, and 0 when nothing is counted. */
  function Mean(total: int, count: int): (m: real)
    ensures IsMean(m, total, count)
    ensures count <= 0 ==> m == 0.0
  {
    if count > 0 then (total as real) / (count as real) else 0.0
  }

  /** On the dataset, which is ordered by descending total, the largest
      total is the first record's. */
  lemma MaiorIsFirst(s: seq<Member>)
    requires SortedByTotalDesc(s) && |s| > 0
    ensures GetKpis(s).maiorRemuneracao == s[0].remuneracaoTotal
  {
    var i :| 0 <= i < |s| && s[i].remuneracaoTotal == MaxTotal(s);
    SortedByTotalDescPairwise(s, 0, i);
  }

  /** On a well-formed dataset, the records above the cap are exactly those
      whose total exceeds it, and the total excess is non-negative. */
  lemma KpisOnValidData(s: seq<Member>)
    requires ValidDataset(s)
    ensures GetKpis(s).numAcimaTeto == |Seqs.Filter(s, TotalAboveCap)|
    ensures GetKpis(s).totalAcimaTeto >= 0
  {
    forall m | m in s
      ensures IsAbove(m) == (m.remuneracaoTotal > Teto)
    {
      AboveCapIffTotal(m);
    }
    Seqs.FilterExtOn(s, IsAbove, TotalAboveCap);
    Seqs.SumNonNegative(s, AcimaOf);
  }

  /** A reference salary of the comparison table. */
  datatype Reference = Reference(profissao: string, salario: int)

  /** One line of the comparison. `anosEquivalentes` is held in tenths of a
      year: the months divided by 12, shown with one decimal. */
  datatype Comparison = Comparison(profissao: string, salario: int, mesesEquivalentes: int, anosEquivalentes: int)

  /** The reference table: at least one entry, every salary positive. */
  predicate ReferenceTable(table: seq<Reference>)
  {
    |table| > 0 && forall i | 0 <= i < |table| :: table[i].salario > 0
  }

  /** `getSalaryComparison(amount)` over the reference table (not part of
      this model, so a parameter): one entry per reference, in order, with
      the number of its monthly salaries that make up `amount`, rounded to
      the nearest whole month, and those months in years, rounded to the
      nearest tenth. */
  function SalaryComparison(amount: int, table: seq<Reference>): (r: seq<Comparison>)
    requires ReferenceTable(table)
    ensures |r| == |table| && |r| > 0
    ensures forall i | 0 <= i < |r| ::
              && r[i].profissao == table[i].profissao && r[i].salario == table[i].salario
              && 2 * r[i].mesesEquivalentes * r[i].salario - r[i].salario
                 <= 2 * amount
                 < 2 * r[i].mesesEquivalentes * r[i].salario + r[i].salario
              && 12 * r[i].anosEquivalentes - 6 <= 10 * r[i].mesesEquivalentes < 12 * r[i].anosEquivalentes + 6
  {
    seq(|table|, i requires 0 <= i < |table| && table[i].salario > 0 =>
      var meses := Numeric.RoundDiv(amount, table[i].salario);
      Comparison(table[i].profissao, table[i].salario, meses, Numeric.RoundDiv(10 * meses, 12)))
  }

  /** At least half a salary gives at least one month; a zero amount gives
      zero months and zero years everywhere, and a non-negative amount
      never gives a negative number of either. */
  lemma ComparisonMonths(amount: int, table: seq<Reference>, i: int)
    requires ReferenceTable(table)
    requires 0 <= i < |table|
    ensures var m := SalaryComparison(amount, table)[i].mesesEquivalentes;
            && (2 * amount >= table[i].salario ==> m >= 1)
            && (amount == 0 ==> m == 0)
            && (amount >= 0 ==> m >= 0)
    ensures var y := SalaryComparison(amount, table)[i].anosEquivalentes;
            && (amount == 0 ==> y == 0)
            && (amount >= 0 ==> y >= 0)
  {
    var m := SalaryComparison(amount, table)[i].mesesEquivalentes;
    var sal := table[i].salario;
    Numeric.FactorSign(2 * m + 1, sal);
    Numeric.FactorSign(1 - 2 * m, sal);
  }

  /** For a non-negative amount, a larger salary never makes up more
      months or more years: the comparison ranks the professions by salary. */
  lemma ComparisonAntitone(amount: int, table: seq<Reference>, i: int, j: int)
    requires ReferenceTable(table)
    requires 0 <= i < |table| && 0 <= j < |table|
    requires amount >= 0 && table[i].salario <= table[j].salario
    ensures var r := SalaryComparison(amount, table);
            && r[i].mesesEquivalentes >= r[j].mesesEquivalentes
            && r[i].anosEquivalentes >= r[j].anosEquivalentes
  {
    var r := SalaryComparison(amount, table);
    Numeric.RoundDivAntitone(amount, table[i].salario, table[j].salario);
    Numeric.RoundDivMonotone(10 * r[j].mesesEquivalentes, 10 * r[i].mesesEquivalentes, 12);
  }

  /** R$ 100.000,00 against a salary of R$ 2.000,00 is 50 months, which
      is 4.2 years. */
  lemma ComparisonFifty()
    ensures Numeric.RoundDiv(10000000, 200000) == 50
    ensures Numeric.RoundDiv(10 * 50, 12) == 42
  {
  }
}

=== FILE: csv.dfy ===
/** The CSV export of the listing: each text field is quoted, its quotes
    doubled as rule 7 of section 2 of RFC 4180 requires, and a field that
    a spreadsheet would read as a formula gets an apostrophe in front. */
module Csv {
  import opened Options
  import Numeric
  import Text
  import opened Records

  /** `str.replace(/"/g, '""')` */
  function EscapeQuotes(s: string): (r: string)
    ensures |r| == |s| + Quotes(s)
  {
    if |s| == 0 then ""
    else (if s[0] == '"' then "\"\"" else [s[0]]) + EscapeQuotes(s[1..])
  }

  /** The number of `"` in `s`. */
  function Quotes(s: string): nat
  {
    if |s| == 0 then 0 else (if s[0] == '"' then 1 else 0) + Quotes(s[1..])
  }

  /** Reads a doubled quote as one quote: the inverse of `EscapeQuotes`. */
  function Unescape(r: string): string
  {
    if |r| == 0 then ""
    else if |r| >= 2 && r[0] == '"' && r[1] == '"' then "\"" + Unescape(r[2..])
    else [r[0]] + Unescape(r[1..])
  }

  /** Undoubling the quotes gives the original text back. */
  lemma {:induction false} UnescapeEscape(s: string)
    ensures Unescape(EscapeQuotes(s)) == s
  {
    if |s| > 0 {
      UnescapeEscape(s[1..]);
      var e := EscapeQuotes(s);
      if s[0] == '"' {
        assert e[2..] == EscapeQuotes(s[1..]);
      } else {
        assert e[1..] == EscapeQuotes(s[1..]);
      }
    }
  }

  /** `= + - @`, TAB and CR: the characters that make a spreadsheet read a
      cell as a formula. */
  predicate FormulaStart(c: char)
  {
    c == '=' || c == '+' || c == '-' || c == '@' || c == '\t' || c == '\r'
  }

  predicate Dangerous(s: string)
  {
    |s| > 0 && FormulaStart(s[0])
  }

  /** `sanitizeCSVField(value)` */
  function Sanitize(value: string): (r: string)
    ensures |r| >= 2 && r[0] == '"' && r[|r| - 1] == '"'
    ensures |r| == |value| + Quotes(value) + 2 + (if Dangerous(value) then 1 else 0)
  {
    var str := EscapeQuotes(value);
    EscapeKeepsDanger(value);
    if Dangerous(str) then "\"'" + str + "\"" else "\"" + str + "\""
  }

  /** Escaping does not change whether a value starts like a formula: a
      leading quote becomes two quotes, and any other first character stays. */
  lemma EscapeKeepsDanger(value: string)
    ensures Dangerous(EscapeQuotes(value)) <==> Dangerous(value)
  {
  }

  /** The text between the outer quotes. */
  function Inner(r: string): string
    requires |r| >= 2
  {
    r[1..|r| - 1]
  }

  /** The apostrophe appears after the opening quote exactly for a
      formula-like value; dropping it where it was injected and undoubling
      the quotes gives the value back. */
  lemma SanitizeRoundTrip(value: string)
    ensures var r := Sanitize(value);
            && (Dangerous(value) ==> r[1] == '\'' && Unescape(Inner(r)[1..]) == value)
            && (!Dangerous(value) ==> Unescape(Inner(r)) == value)
  {
    var str := EscapeQuotes(value);
    UnescapeEscape(value);
    var r := Sanitize(value);
    if Dangerous(value) {
      assert Inner(r)[1..] == str;
    } else {
      assert Inner(r) == str;
    }
  }

  /** The injected apostrophe is indistinguishable from one that was in the
      value: `=1` and `'=1` are written alike, so the flag above is needed
      to read a field back. */
  lemma SanitizeMergesApostrophe()
    ensures Sanitize("=1") == Sanitize("'=1")
  {
    assert EscapeQuotes("=1") == "=1" by {
      assert EscapeQuotes("1") == "1";
    }
    assert EscapeQuotes("'=1") == "'=1" by {
      assert EscapeQuotes("=1") == "=1" by {
        assert EscapeQuotes("1") == "1";
      }
    }
  }

  /** The last `width` decimal digits of `n`, zero-padded. */
  function Digits(n: nat, width: nat): (r: string)
    ensures |r| == width && Text.AllDigits(r)
  {
    if width == 0 then "" else Digits(n / 10, width - 1) + [Text.DigitChar(n % 10)]
  }

  /** `n` with its last `width` digits dropped. */
  function Shift(n: nat, width: nat): nat
  {
    if width == 0 then n else Shift(n / 10, width - 1)
  }

  /** The value of the last `width` digits of `n`. */
  function Low(n: nat, width: nat): nat
  {
    if width == 0 then 0 else 10 * Low(n / 10, width - 1) + n % 10
  }

  lemma {:induction false} DigitsValue(n: nat, width: nat)
    ensures Text.DigitsValue(Digits(n, width)) == Low(n, width)
  {
    if width > 0 {
      var r := Digits(n, width);
      assert r[..|r| - 1] == Digits(n / 10, width - 1);
      DigitsValue(n / 10, width - 1);
    }
  }

  /** Dropping the last `width` digits and putting them back gives `n`. */
  lemma {:induction false} ShiftLow(n: nat, width: nat)
    ensures Shift(n, width) * Text.Pow10(width) + Low(n, width) == n
  {
    if width > 0 {
      ShiftLow(n / 10, width - 1);
      var s, p := Shift(n / 10, width - 1), Text.Pow10(width - 1);
      assert s * (10 * p) == 10 * (s * p);
    }
  }

  /** Only digits, minus signs and decimal points: text that needs no
      quoting in a CSV cell. */
  predicate NumberChars(r: string)
  {
    forall i | 0 <= i < |r| :: Text.IsDigit(r[i]) || r[i] == '-' || r[i] == '.'
  }

  lemma NumberCharsConcat(a: string, b: string)
    requires NumberChars(a) && NumberChars(b)
    ensures NumberChars(a + b)
  {
    forall i | 0 <= i < |a + b|
      ensures Text.IsDigit((a + b)[i]) || (a + b)[i] == '-' || (a + b)[i] == '.'
    {
      if i < |a| {
        assert (a + b)[i] == a[i];
      } else {
        assert (a + b)[i] == b[i - |a|];
      }
    }
  }

  /** A plain number never holds a quote, a comma or a line break. */
  lemma NumberCharsSafe(r: string)
    requires NumberChars(r)
    ensures '"' !in r && ',' !in r && '\n' !in r
  {
  }

  const Point: string := "."
  const Minus: string := "-"

  /** The unsigned part of `FixedText`: the whole part, and for `d > 0` a
      point and exactly `d` digits. */
  function FixedBody(a: nat, d: nat): string
  {
    Layout(Whole(a, d), Digits(a, d))
  }

  /** The whole part of `a` units of `10^-d`, in decimal. */
  function Whole(a: nat, d: nat): (r: string)
    ensures |r| > 0 && Text.AllDigits(r)
  {
    Text.NatToString(Shift(a, d))
  }

  /** The whole part, and a point before the fraction digits if there are
      any. */
  function Layout(whole: string, frac: string): string
  {
    if |frac| == 0 then whole else whole + Point + frac
  }

  lemma LayoutChars(whole: string, frac: string)
    requires |whole| > 0 && Text.AllDigits(whole) && Text.AllDigits(frac)
    ensures var r := Layout(whole, frac); |r| > 0 && Text.IsDigit(r[0]) && NumberChars(r)
  {
    if |frac| > 0 {
      NumberCharsConcat(whole, Point);
      NumberCharsConcat(whole + Point, frac);
    }
  }

  lemma FixedBodyChars(a: nat, d: nat)
    ensures var r := FixedBody(a, d); |r| > 0 && Text.IsDigit(r[0]) && NumberChars(r)
  {
    LayoutChars(Whole(a, d), Digits(a, d));
  }

  /** `(units / 10^d).toFixed(d)` for an integer count of `10^-d` units:
      an optional minus sign, then the unsigned part. */
  function FixedText(units: int, d: nat): (r: string)
    ensures |r| > 0 && NumberChars(r)
  {
    var body := FixedBody(if units < 0 then -units else units, d);
    FixedBodyChars(if units < 0 then -units else units, d);
    if units < 0 then
      NumberCharsConcat(Minus, body);
      Minus + body
    else body
  }

  /** The number of `10^-d` units in `w` wholes and `f` hundredths (for
      `d = 2`). */
  function Compose(w: nat, f: nat, d: nat): nat
  {
    w * Text.Pow10(d) + f
  }

  /** Reads an unsigned fixed-point text with `d` decimals. */
  function ReadBody(body: string, d: nat): Option<int>
  {
    var point := |body| - d - 1;
    if d == 0 then
      if |body| > 0 && Text.AllDigits(body) then Some(Text.DigitsValue(body)) else None
    else if point >= 1 && body[point] == '.' && Text.AllDigits(body[..point]) && Text.AllDigits(body[point + 1..]) then
      Some(Compose(Text.DigitsValue(body[..point]), Text.DigitsValue(body[point + 1..]), d))
    else None
  }

  /** Reads a fixed-point text with `d` decimals back into units. */
  function ReadFixed(r: string, d: nat): Option<int>
  {
    if |r| > 0 && r[0] == '-' then
      match ReadBody(r[1..], d)
      case Some(v) => Some(-v)
      case None => None
    else ReadBody(r, d)
  }

  /** Reading a layout back gives the whole part's value scaled, plus the
      fraction's. */
  lemma ReadLayout(whole: string, frac: string, d: nat)
    requires |whole| > 0 && Text.AllDigits(whole) && Text.AllDigits(frac) && |frac| == d
    ensures ReadBody(Layout(whole, frac), d) == Some(Compose(Text.DigitsValue(whole), Text.DigitsValue(frac), d))
  {
    var body := Layout(whole, frac);
    if d > 0 {
      assert body == whole + Point + frac;
      var point := |body| - d - 1;
      assert point == |whole|;
      assert body[..point] == whole && body[point] == '.' && body[point + 1..] == frac;
      var w, f := Text.DigitsValue(body[..point]), Text.DigitsValue(body[point + 1..]);
      assert w == Text.DigitsValue(whole) && f == Text.DigitsValue(frac);
      assert ReadBody(body, d) == Some(Compose(w, f, d));
    } else {
      assert body == whole;
      assert Text.DigitsValue(frac) == 0;
      assert ReadBody(body, d) == Some(Text.DigitsValue(whole));
      assert Compose(Text.DigitsValue(whole), 0, 0) == Text.DigitsValue(whole);
    }
  }

  lemma BodyRoundTrip(a: nat, d: nat)
    ensures ReadBody(FixedBody(a, d), d) == Some(a)
  {
    DigitsValue(a, d);
    Text.NatToStringValue(Shift(a, d));
    ReadLayout(Whole(a, d), Digits(a, d), d);
    ShiftLow(a, d);
  }

  /** The rendered amount reads back as the same number of units. */
  lemma FixedRoundTrip(units: int, d: nat)
    ensures ReadFixed(FixedText(units, d), d) == Some(units)
  {
    var a := if units < 0 then -units else units;
    BodyRoundTrip(a, d);
    var body := FixedBody(a, d);
    var r := FixedText(units, d);
    if units < 0 {
      assert r == Minus + body;
      assert r[1..] == body;
    } else {
      assert r == body;
    }
  }

  /** The column titles of the export. */
  const Headers: seq<string> := [
    "Posição", "Nome", "Cargo", "Órgão", "Estado", "Remuneração Base",
    "Verbas Indenizatórias", "Direitos Eventuais", "Direitos Pessoais",
    "Remuneração Total", "Acima do Teto", "% Acima do Teto"]

  /** Money is written with two decimals, the percentage with one. */
  const MoneyDecimals: nat := 2
  const PercentDecimals: nat := 1

  /** The four quoted text cells. */
  function TextCells(m: Member): seq<string>
  {
    [Sanitize(m.nome), Sanitize(m.cargo), Sanitize(m.orgao), Sanitize(m.estado)]
  }

  /** The six amounts, in column order. */
  function Amounts(m: Member): seq<int>
  {
    [m.remuneracaoBase, m.verbasIndenizatorias, m.direitosEventuais,
     m.direitosPessoais, m.remuneracaoTotal, m.acimaTeto]
  }

  function AmountCells(m: Member): (r: seq<string>)
    ensures |r| == 6
    ensures forall k | 0 <= k < 6 :: NumberChars(r[k])
  {
    var am := Amounts(m);
    seq(6, k requires 0 <= k < 6 => FixedText(am[k], MoneyDecimals))
  }

  /** Every amount cell reads back as its amount. */
  lemma AmountCellsRead(m: Member)
    ensures forall k | 0 <= k < 6 :: ReadFixed(AmountCells(m)[k], MoneyDecimals) == Some(Amounts(m)[k])
  {
    var am, r := Amounts(m), AmountCells(m);
    forall k | 0 <= k < 6
      ensures ReadFixed(r[k], MoneyDecimals) == Some(am[k])
    {
      assert r[k] == FixedText(am[k], MoneyDecimals);
      FixedRoundTrip(am[k], MoneyDecimals);
    }
  }

  /** `percentualAcimaTeto.toFixed(1)`, rounding to the nearest tenth.
      `Numeric.Round` takes a negative half towards positive infinity where
      `toFixed` rounds the magnitude; the two agree on the non-negative
      percentages of well-formed records. */
  function PercentCell(m: Member): (r: string)
    ensures NumberChars(r)
  {
    FixedText(PercentTenths(m), PercentDecimals)
  }

  /** The percentage cell reads back, with one decimal, as the percentage
      rounded to the nearest tenth. */
  lemma PercentCellRead(m: Member)
    ensures ReadFixed(PercentCell(m), PercentDecimals) == Some(Numeric.Round(m.percentualAcimaTeto * 10.0))
  {
    FixedRoundTrip(PercentTenths(m), PercentDecimals);
  }

  /** The percentage in tenths, rounded to the nearest. */
  function PercentTenths(m: Member): int
  {
    Numeric.Round(m.percentualAcimaTeto * 10.0)
  }

  /** The cells of the row of the `i`-th record (0-based). */
  function Row(i: nat, m: Member): seq<string>
  {
    [Text.NatToString(i + 1)] + TextCells(m) + AmountCells(m) + [PercentCell(m)]
  }

  /** Every row has one cell per header; the first cell reads back as the
      1-based position; cells 1 to 4 are the sanitised name, post,
      organisation and state; every other cell is a plain number, and the
      amount cells read back as the record's amounts. */
  lemma RowShape(i: nat, m: Member)
    ensures |Row(i, m)| == |Headers| == 12
    ensures Text.DigitsValue(Row(i, m)[0]) == i + 1
    ensures Row(i, m)[1..5] == [Sanitize(m.nome), Sanitize(m.cargo), Sanitize(m.orgao), Sanitize(m.estado)]
    ensures forall k | 0 <= k < 12 && !(1 <= k <= 4) :: NumberChars(Row(i, m)[k])
    ensures forall k | 5 <= k < 11 :: ReadFixed(Row(i, m)[k], MoneyDecimals) == Some(Amounts(m)[k - 5])
  {
    Text.NatToStringValue(i + 1);
    RowParts(i, m);
    RowNumbers(i, m);
    AmountCellsRead(m);
  }

  /** Where each group of cells sits in a row. */
  lemma RowParts(i: nat, m: Member)
    ensures var r := Row(i, m);
            && |r| == 12 && r[0] == Text.NatToString(i + 1) && r[1..5] == TextCells(m)
            && (forall k | 5 <= k < 11 :: r[k] == AmountCells(m)[k - 5])
            && r[11] == PercentCell(m)
  {
    var r := Row(i, m);
    var head, tc, ac, pc := [Text.NatToString(i + 1)], TextCells(m), AmountCells(m), [PercentCell(m)];
    assert r == head + tc + ac + pc;
    assert |head + tc| == 5 && |head + tc + ac| == 11;
    assert r[1..5] == tc by {
      assert r[..11] == head + tc + ac;
      assert (head + tc + ac)[..5] == head + tc;
    }
    forall k | 5 <= k < 11
      ensures r[k] == ac[k - 5]
    {
      assert r[k] == (head + tc + ac)[k];
    }
  }

  /** The position, amount and percentage cells are plain numbers. */
  lemma RowNumbers(i: nat, m: Member)
    ensures forall k | 0 <= k < 12 && !(1 <= k <= 4) :: NumberChars(Row(i, m)[k])
  {
    RowParts(i, m);
    var r := Row(i, m);
    assert NumberChars(r[0]) by {
      var t := Text.NatToString(i + 1);
      assert forall c | 0 <= c < |t| :: Text.IsDigit(t[c]);
    }
  }

  /** The header line. */
  function HeaderLine(): string
  {
    Text.Join(Headers[..12], ",")
  }

  /** The line of the `i`-th record. */
  function RowLine(i: nat, m: Member): string
  {
    Text.Join(Row(i, m), ",")
  }

  /** One line per record, in order. */
  function RowLines(members: seq<Member>): (ls: seq<string>)
    ensures |ls| == |members|
    ensures forall i | 0 <= i < |members| :: ls[i] == RowLine(i, members[i])
  {
    seq(|members|, i requires 0 <= i < |members| => RowLine(i, members[i]))
  }

  /** `[headers.join(","), ...rows.map(r => r.join(","))]` */
  function Lines(members: seq<Member>): (ls: seq<string>)
    ensures |ls| == |members| + 1
    ensures ls[0] == HeaderLine()
    ensures forall j | 1 <= j < |ls| :: ls[j] == RowLine(j - 1, members[j - 1])
  {
    [HeaderLine()] + RowLines(members)
  }

  /** The CSV text: the lines joined by `"\n"`. */
  function Export(members: seq<Member>): (r: string)
    ensures HeaderLine() <= r
  {
    Text.Join(Lines(members), "\n")
  }

  /** The record's text fields hold no line break. */
  predicate SingleLine(m: Member)
  {
    '\n' !in m.nome && '\n' !in m.cargo && '\n' !in m.orgao && '\n' !in m.estado
  }

  /** When no text field holds a line break, the export splits at line
      breaks into the header line followed by one line per record. */
  lemma ExportLines(members: seq<Member>)
    requires forall i | 0 <= i < |members| :: SingleLine(members[i])
    ensures Text.Split(Export(members), '\n') == Lines(members)
    ensures |Text.Split(Export(members), '\n')| == |members| + 1
  {
    LinesSingle(members);
    Text.SplitJoin(Lines(members), '\n');
  }

  lemma LinesSingle(members: seq<Member>)
    requires forall i | 0 <= i < |members| :: SingleLine(members[i])
    ensures forall j | 0 <= j < |Lines(members)| :: '\n' !in Lines(members)[j]
  {
    forall j | 0 <= j < |Lines(members)|
      ensures '\n' !in Lines(members)[j]
    {
      LineSingle(members, j);
    }
  }

  lemma LineSingle(members: seq<Member>, j: int)
    requires forall i | 0 <= i < |members| :: SingleLine(members[i])
    requires 0 <= j <= |members|
    ensures '\n' !in Lines(members)[j]
  {
    if j == 0 {
      HeaderLineSingle();
    } else {
      RowLineSingle(j - 1, members[j - 1]);
    }
  }

  lemma HeaderLineSingle()
    ensures '\n' !in HeaderLine()
  {
    JoinWithout(Headers[..12], ",", '\n');
  }

  lemma RowLineSingle(i: nat, m: Member)
    requires SingleLine(m)
    ensures '\n' !in RowLine(i, m)
  {
    RowSingleLine(i, m);
    JoinWithout(Row(i, m), ",", '\n');
  }

  lemma RowSingleLine(i: nat, m: Member)
    requires SingleLine(m)
    ensures forall k | 0 <= k < |Row(i, m)| :: '\n' !in Row(i, m)[k]
  {
    RowParts(i, m);
    RowNumbers(i, m);
    var r := Row(i, m);
    forall k | 0 <= k < |r|
      ensures '\n' !in r[k]
    {
      if 1 <= k <= 4 {
        TextCellSingle(m, k - 1);
        assert r[k] == r[1..5][k - 1];
      } else {
        NumberCharsSafe(r[k]);
      }
    }
  }

  lemma TextCellSingle(m: Member, k: int)
    requires SingleLine(m) && 0 <= k < 4
    ensures '\n' !in TextCells(m)[k]
  {
    var v := [m.nome, m.cargo, m.orgao, m.estado][k];
    SanitizeWithout(v, '\n');
  }

  /** Sanitising adds only quotes and an apostrophe. */
  lemma SanitizeWithout(value: string, c: char)
    requires c !in value && c != '"' && c != '\''
    ensures c !in Sanitize(value)
  {
    EscapeWithout(value, c);
  }

  lemma {:induction false} EscapeWithout(s: string, c: char)
    requires c !in s && c != '"'
    ensures c !in EscapeQuotes(s)
  {
    if |s| > 0 {
      EscapeWithout(s[1..], c);
    }
  }

  lemma {:induction false} JoinWithout(parts: seq<string>, sep: string, c: char)
    requires c !in sep
    requires forall i | 0 <= i < |parts| :: c !in parts[i]
    ensures c !in Text.Join(parts, sep)
  {
    if |parts| > 1 {
      JoinWithout(parts[1..], sep, c);
    }
  }
}

=== FILE: filterbar.dfy ===
/** The filter bar of the home page: the filter state with its defaults,
    the active-filter badge, the partial updates the controls make, the
    cargo chips, and the period selector that rewrites the `mes` query
    parameter.

    `Cargo` and `SortOption` come from a constants file that is not part of
    this model; both are strings here. */
module FilterBar {
  import opened Options
  import Seqs
  import Listing

  datatype Filters = Filters(
    estado: string,
    orgao: string,
    cargos: seq<string>,
    salarioMin: int,
    salarioMax: int,
    sortBy: string)

  /** The salary ceiling of the default range, in reais. */
  const DefaultSalarioMax: int := 300000
  const DefaultSort: string := "maior_remuneracao"

  /** `defaultFilters` */
  const Defaults: Filters := Filters("", "", [], 0, DefaultSalarioMax, DefaultSort)

  /** `hasActiveFilters`: a state, an organ or some cargo is chosen. The
      salary range and the sort order do not count. */
  predicate HasActive(f: Filters)
    ensures HasActive(f) <==> ActiveCount(f) > 0
  {
    f.estado != "" || f.orgao != "" || |f.cargos| > 0
  }

  /** `activeFilterCount`, shown in the badge of the collapsed panel. */
  function ActiveCount(f: Filters): (n: nat)
    ensures n >= |f.cargos|
  {
    (if f.estado != "" then 1 else 0) + (if f.orgao != "" then 1 else 0) + |f.cargos|
  }

  /** The badge appears exactly when it would show a positive number, and the
      number is at most two more than the chosen cargos. */
  lemma BadgeIffCount(f: Filters)
    ensures HasActive(f) <==> ActiveCount(f) > 0
    ensures ActiveCount(f) <= |f.cargos| + 2
  {
  }

  /** A `Partial<FilterState>`: the fields it names, and nothing for the rest. */
  datatype Patch = Patch(
    estado: Option<string>,
    orgao: Option<string>,
    cargos: Option<seq<string>>,
    salarioMin: Option<int>,
    salarioMax: Option<int>,
    sortBy: Option<string>)

  const NoChange: Patch := Patch(None, None, None, None, None, None)

  /** `{ ...filters, ...partial }` */
  function Update(f: Filters, p: Patch): (r: Filters)
    ensures p.estado.None? ==> r.estado == f.estado
    ensures p.orgao.None? ==> r.orgao == f.orgao
    ensures p.cargos.None? ==> r.cargos == f.cargos
    ensures p.salarioMin.None? ==> r.salarioMin == f.salarioMin
    ensures p.salarioMax.None? ==> r.salarioMax == f.salarioMax
    ensures p.sortBy.None? ==> r.sortBy == f.sortBy
  {
    Filters(
      p.estado.GetOr(f.estado), p.orgao.GetOr(f.orgao), p.cargos.GetOr(f.cargos),
      p.salarioMin.GetOr(f.salarioMin), p.salarioMax.GetOr(f.salarioMax), p.sortBy.GetOr(f.sortBy))
  }

  /** The later of two values for one field. */
  function Later<T>(a: Option<T>, b: Option<T>): Option<T>
  {
    if b.Some? then b else a
  }

  /** Two partial objects spread one after the other: `{ ...p, ...q }`. */
  function Merge(p: Patch, q: Patch): Patch
  {
    Patch(Later(p.estado, q.estado), Later(p.orgao, q.orgao), Later(p.cargos, q.cargos),
          Later(p.salarioMin, q.salarioMin), Later(p.salarioMax, q.salarioMax), Later(p.sortBy, q.sortBy))
  }

  /** An empty patch changes nothing, a patch naming a field sets it, and two
      updates in a row are one update by the merged patch. */
  lemma UpdateLaws(f: Filters, p: Patch, q: Patch)
    ensures Update(f, NoChange) == f
    ensures p.estado.Some? ==> Update(f, p).estado == p.estado.value
    ensures p.cargos.Some? ==> Update(f, p).cargos == p.cargos.value
    ensures Update(Update(f, p), q) == Update(f, Merge(p, q))
  {
  }

  /** `clearAll()`: back to the defaults, with no active filter left. */
  function ClearAll(f: Filters): (r: Filters)
    ensures !HasActive(r) && ActiveCount(r) == 0
    ensures r.salarioMin == 0 && r.salarioMax == DefaultSalarioMax && r.sortBy == DefaultSort
  {
    Defaults
  }

  /** The state selector: choosing a state (or "Todos", the empty value)
      also resets the organ. */
  function ChooseEstado(f: Filters, estado: string): (r: Filters)
    ensures r.estado == estado && r.orgao == ""
    ensures r.cargos == f.cargos && r.salarioMin == f.salarioMin
    ensures r.salarioMax == f.salarioMax && r.sortBy == f.sortBy
  {
    Update(f, NoChange.(estado := Some(estado), orgao := Some("")))
  }

  /** The organ selector. */
  function ChooseOrgao(f: Filters, orgao: string): (r: Filters)
    ensures r.orgao == orgao && r == f.(orgao := orgao)
  {
    Update(f, NoChange.(orgao := Some(orgao)))
  }

  /** The test that keeps every cargo but one. */
  function Without(cargo: string): string -> bool { (c: string) => c != cargo }

  /** `toggleCargo(cargo)`: removes every copy of a chosen cargo, or appends
      one that was not chosen. */
  function ToggleCargo(f: Filters, cargo: string): (r: Filters)
    ensures cargo in r.cargos <==> cargo !in f.cargos
    ensures forall c | c != cargo :: c in r.cargos <==> c in f.cargos
    ensures r == f.(cargos := r.cargos)
  {
    var next := if cargo in f.cargos then Seqs.Filter(f.cargos, Without(cargo))
                else f.cargos + [cargo];
    Update(f, NoChange.(cargos := Some(next)))
  }

  /** The tail of a list without repeats has none either, and lacks the head. */
  lemma DistinctTail<T>(s: seq<T>)
    requires |s| > 0 && Seqs.Distinct(s)
    ensures Seqs.Distinct(s[1..]) && s[0] !in s[1..]
  {
    forall i, j | 0 <= i < j < |s[1..]| ensures s[1..][i] != s[1..][j] {
      assert s[1..][i] == s[i + 1] && s[1..][j] == s[j + 1];
    }
    forall i | 0 <= i < |s[1..]| ensures s[1..][i] != s[0] {
      assert s[1..][i] == s[i + 1];
    }
  }

  /** A head missing from a list without repeats can be put in front of it. */
  lemma DistinctCons<T>(x: T, t: seq<T>)
    requires Seqs.Distinct(t) && x !in t
    ensures Seqs.Distinct([x] + t)
  {
    var r := [x] + t;
    forall i, j | 0 <= i < j < |r| ensures r[i] != r[j] {
      assert r[j] == t[j - 1];
      if i > 0 {
        assert r[i] == t[i - 1];
      }
    }
  }

  /** Filtering keeps a list free of repeats. */
  lemma {:induction false} FilterDistinct<T>(s: seq<T>, p: T -> bool)
    requires Seqs.Distinct(s)
    ensures Seqs.Distinct(Seqs.Filter(s, p))
  {
    if |s| > 0 {
      DistinctTail(s);
      FilterDistinct(s[1..], p);
      var t := Seqs.Filter(s[1..], p);
      if p(s[0]) {
        assert s[0] !in t;
        DistinctCons(s[0], t);
      } else {
        assert Seqs.Filter(s, p) == t;
      }
    }
  }

  /** Removing an element from a list without repeats shortens it by one
      when the element is there. */
  lemma {:induction false} FilterOutOne(s: seq<string>, x: string)
    requires Seqs.Distinct(s)
    ensures |Seqs.Filter(s, Without(x))| == if x in s then |s| - 1 else |s|
  {
    if |s| > 0 {
      DistinctTail(s);
      FilterOutOne(s[1..], x);
      assert x in s <==> x == s[0] || x in s[1..] by {
        assert s == [s[0]] + s[1..];
      }
      if s[0] == x {
        Seqs.FilterAll(s[1..], Without(x));
      }
    }
  }

  /** The cargo chips keep the list free of repeats; each click changes the
      badge count by exactly one; and choosing then unchoosing a cargo gives
      back the previous filters. */
  lemma ToggleCargoCounts(f: Filters, cargo: string)
    requires Seqs.Distinct(f.cargos)
    ensures Seqs.Distinct(ToggleCargo(f, cargo).cargos)
    ensures ActiveCount(ToggleCargo(f, cargo)) ==
              if cargo in f.cargos then ActiveCount(f) - 1 else ActiveCount(f) + 1
    ensures cargo !in f.cargos ==> ToggleCargo(ToggleCargo(f, cargo), cargo) == f
  {
    if cargo in f.cargos {
      FilterOutOne(f.cargos, cargo);
      FilterDistinct(f.cargos, Without(cargo));
    } else {
      ToggleBack(f, cargo);
    }
  }

  /** Appending a cargo that was not chosen, then removing it. */
  lemma ToggleBack(f: Filters, cargo: string)
    requires Seqs.Distinct(f.cargos) && cargo !in f.cargos
    ensures Seqs.Distinct(ToggleCargo(f, cargo).cargos)
    ensures ToggleCargo(ToggleCargo(f, cargo), cargo) == f
  {
    var g := ToggleCargo(f, cargo);
    assert g.cargos == f.cargos + [cargo];
    DistinctSnoc(f.cargos, cargo);
    RemoveAppended(f.cargos, cargo);
    var h := ToggleCargo(g, cargo);
    assert h.cargos == f.cargos;
  }

  lemma DistinctSnoc<T>(t: seq<T>, x: T)
    requires Seqs.Distinct(t) && x !in t
    ensures Seqs.Distinct(t + [x])
  {
    var s := t + [x];
    forall i, j | 0 <= i < j < |s| ensures s[i] != s[j] {
      assert s[i] == t[i];
    }
  }

  lemma RemoveAppended(t: seq<string>, x: string)
    requires x !in t
    ensures Seqs.Filter(t + [x], Without(x)) == t
  {
    Seqs.FilterAppend(t, [x], Without(x));
    Seqs.FilterAll(t, Without(x));
    assert Seqs.Filter([x], Without(x)) == [];
  }

  // The period selector

  /** The query string of the page, as its ordered `name=value` pairs. */
  type Query = Listing.Query

  /** The tests that keep the pairs with, or without, a given name. */
  function NameIs(name: string): ((string, string)) -> bool { (pair: (string, string)) => pair.0 == name }
  function NameIsNot(name: string): ((string, string)) -> bool { (pair: (string, string)) => pair.0 != name }

  /** `params.delete(name)`: every pair with that name is removed. */
  function DeleteParam(q: Query, name: string): (r: Query)
    ensures forall i | 0 <= i < |r| :: r[i].0 != name
  {
    Seqs.Filter(q, NameIsNot(name))
  }

  /** The first pair with that name gets the value, and the later ones go. */
  function ReplaceFirst(q: Query, name: string, v: string): (r: Query)
  {
    if |q| == 0 then []
    else if q[0].0 == name then [(name, v)] + DeleteParam(q[1..], name)
    else [q[0]] + ReplaceFirst(q[1..], name, v)
  }

  /** `params.set(name, value)`: the first pair with that name takes the
      value and the later ones are removed; without such a pair, one is
      appended. */
  function SetParam(q: Query, name: string, v: string): (r: Query)
    ensures Listing.Get(r, name) == Some(v)
  {
    if exists i | 0 <= i < |q| :: q[i].0 == name then
      ReplaceFirstLaws(q, name, v);
      OnlyOneGet(ReplaceFirst(q, name, v), name, v);
      ReplaceFirst(q, name, v)
    else
      AppendLaws(q, name, v);
      OnlyOneGet(q + [(name, v)], name, v);
      q + [(name, v)]
  }

  /** `handleMonthChange(mesRef)`: the query the page navigates to. */
  function MonthQuery(q: Query, mesRef: string): (r: Query)
  {
    if mesRef != "" then SetParam(q, "mes", mesRef) else DeleteParam(q, "mes")
  }

  /** The pairs with a given name. */
  function Those(q: Query, name: string): Query
  {
    Seqs.Filter(q, NameIs(name))
  }

  lemma {:induction false} ReplaceFirstLaws(q: Query, name: string, v: string)
    requires exists i | 0 <= i < |q| :: q[i].0 == name
    ensures Those(ReplaceFirst(q, name, v), name) == [(name, v)]
    ensures DeleteParam(ReplaceFirst(q, name, v), name) == DeleteParam(q, name)
  {
    var r := ReplaceFirst(q, name, v);
    var isN := NameIs(name);
    var notN := NameIsNot(name);
    var d := DeleteParam(q[1..], name);
    if q[0].0 == name {
      assert r == [(name, v)] + d;
      Seqs.FilterAppend([(name, v)], d, isN);
      Seqs.FilterAppend([(name, v)], d, notN);
      Seqs.FilterNone(d, isN);
      Seqs.FilterFilter(q[1..], notN, notN, notN);
    } else {
      assert exists i | 0 <= i < |q[1..]| :: q[1..][i].0 == name by {
        var i :| 0 <= i < |q| && q[i].0 == name;
        assert q[1..][i - 1] == q[i];
      }
      ReplaceFirstLaws(q[1..], name, v);
      var t := ReplaceFirst(q[1..], name, v);
      assert r == [q[0]] + t;
      Seqs.FilterAppend([q[0]], t, isN);
      Seqs.FilterAppend([q[0]], t, notN);
    }
  }

  /** After `set`, the name has exactly the new value and every other
      parameter is kept, in order. */
  lemma SetParamLaws(q: Query, name: string, v: string)
    ensures Those(SetParam(q, name, v), name) == [(name, v)]
    ensures DeleteParam(SetParam(q, name, v), name) == DeleteParam(q, name)
    ensures Listing.Get(SetParam(q, name, v), name) == Some(v)
  {
    var r := SetParam(q, name, v);
    assert Those(r, name) == [(name, v)] && DeleteParam(r, name) == DeleteParam(q, name) by {
      if exists i | 0 <= i < |q| :: q[i].0 == name {
        ReplaceFirstLaws(q, name, v);
      } else {
        AppendLaws(q, name, v);
      }
    }
    OnlyOneGet(r, name, v);
  }

  lemma AppendLaws(q: Query, name: string, v: string)
    requires forall i | 0 <= i < |q| :: q[i].0 != name
    ensures Those(q + [(name, v)], name) == [(name, v)]
    ensures DeleteParam(q + [(name, v)], name) == DeleteParam(q, name)
  {
    var isN := NameIs(name);
    var notN := NameIsNot(name);
    Seqs.FilterAppend(q, [(name, v)], isN);
    Seqs.FilterAppend(q, [(name, v)], notN);
    Seqs.FilterNone(q, isN);
  }

  /** A query whose only pair with that name carries `v` answers `v`. */
  lemma {:induction false} OnlyOneGet(q: Query, name: string, v: string)
    requires Those(q, name) == [(name, v)]
    ensures Listing.Get(q, name) == Some(v)
  {
    var isN := NameIs(name);
    assert q == [q[0]] + q[1..];
    Seqs.FilterAppend([q[0]], q[1..], isN);
    if q[0].0 != name {
      OnlyOneGet(q[1..], name, v);
    }
  }

  /** Choosing a period sets `mes` to it, and choosing the empty value
      removes `mes`; all other parameters survive, in their order. */
  lemma MonthChangeKeepsDeleteParam(q: Query, mesRef: string)
    ensures DeleteParam(MonthQuery(q, mesRef), "mes") == DeleteParam(q, "mes")
    ensures Listing.Get(MonthQuery(q, mesRef), "mes") == if mesRef != "" then Some(mesRef) else None
  {
    if mesRef != "" {
      SetParamLaws(q, "mes", mesRef);
    } else {
      var notN := NameIsNot("mes");
      Seqs.FilterFilter(q, notN, notN, notN);
    }
  }
}

=== FILE: grouping.dfy ===
/** Grouping a sequence by a string key, as a JavaScript `Map` filled in one
    pass does: the keys in order of first encounter, and for each key the
    elements that carry it, in input order. */
module Grouping {
  import Seqs

  /** The test "carries key `k`". */
  function HasKey<T>(key: T -> string, k: string): T -> bool
  {
    (x: T) => key(x) == k
  }

  /** Some element of `s` carries key `k`. */
  predicate Occurs<T>(s: seq<T>, key: T -> string, k: string)
  {
    exists i | 0 <= i < |s| :: key(s[i]) == k
  }

  /** The distinct keys of `s`, in order of first occurrence. */
  function Keys<T>(s: seq<T>, key: T -> string): (ks: seq<string>)
    ensures forall i, j | 0 <= i < j < |ks| :: ks[i] != ks[j]
    ensures forall k :: k in ks <==> Occurs(s, key, k)
  {
    if |s| == 0 then []
    else
      var init := s[..|s| - 1];
      var x := s[|s| - 1];
      var ks := Keys(init, key);
      OccursSnoc(init, x, key);
      assert s == init + [x];
      if key(x) in ks then ks else ks + [key(x)]
  }

  lemma OccursSnoc<T>(init: seq<T>, x: T, key: T -> string)
    ensures forall k :: Occurs(init + [x], key, k) <==> Occurs(init, key, k) || key(x) == k
  {
    var s := init + [x];
    forall k | Occurs(s, key, k)
      ensures Occurs(init, key, k) || key(x) == k
    {
      var i :| 0 <= i < |s| && key(s[i]) == k;
      if i < |init| {
        assert key(init[i]) == k;
      }
    }
    forall k | Occurs(init, key, k)
      ensures Occurs(s, key, k)
    {
      var i :| 0 <= i < |init| && key(init[i]) == k;
      assert key(s[i]) == k;
    }
    assert key(s[|init|]) == key(x);
  }

  /** The elements of `s` with key `k`, in input order. */
  function Group<T>(s: seq<T>, key: T -> string, k: string): (g: seq<T>)
    ensures forall i | 0 <= i < |g| :: key(g[i]) == k && g[i] in s
    ensures forall i | 0 <= i < |s| && key(s[i]) == k :: s[i] in g
  {
    Seqs.Filter(s, HasKey(key, k))
  }

  /** Appending an element appends it to its own group only. */
  lemma GroupSnoc<T>(s: seq<T>, x: T, key: T -> string, k: string)
    ensures Group(s + [x], key, k) == Group(s, key, k) + (if key(x) == k then [x] else [])
  {
    Seqs.FilterAppend(s, [x], HasKey(key, k));
    assert [x][1..] == [];
  }

  /** A key that no element carries has an empty group. */
  lemma {:induction false} GroupOfAbsentKey<T>(s: seq<T>, key: T -> string, k: string)
    requires !Occurs(s, key, k)
    ensures Group(s, key, k) == []
  {
    if |s| > 0 {
      assert !Occurs(s[1..], key, k) by {
        forall i | 0 <= i < |s[1..]|
          ensures key(s[1..][i]) != k
        {
          assert s[1..][i] == s[i + 1];
        }
      }
      GroupOfAbsentKey(s[1..], key, k);
      assert key(s[0]) != k;
    }
  }

  /** When no two elements share a key, each key's group has one element if
      the key occurs and none otherwise. */
  lemma {:induction false} GroupOfDistinctKeys<T>(s: seq<T>, key: T -> string, k: string)
    requires forall i, j | 0 <= i < j < |s| :: key(s[i]) != key(s[j])
    ensures |Group(s, key, k)| == if Occurs(s, key, k) then 1 else 0
  {
    if |s| > 0 {
      var t := s[1..];
      assert forall i | 0 <= i < |t| :: t[i] == s[i + 1];
      GroupOfDistinctKeys(t, key, k);
      assert Occurs(s, key, k) <==> key(s[0]) == k || Occurs(t, key, k) by {
        if Occurs(s, key, k) {
          var i :| 0 <= i < |s| && key(s[i]) == k;
          if i > 0 {
            assert key(t[i - 1]) == k;
          }
        }
        if Occurs(t, key, k) {
          var i :| 0 <= i < |t| && key(t[i]) == k;
          assert key(s[i + 1]) == k;
        }
      }
      if key(s[0]) == k {
        assert !Occurs(t, key, k) by {
          forall i | 0 <= i < |t|
            ensures key(t[i]) != k
          {
            assert key(s[i + 1]) != key(s[0]);
          }
        }
      }
    }
  }

  /** A key that occurs has a non-empty group. */
  lemma GroupOfKeyNonEmpty<T>(s: seq<T>, key: T -> string, k: string)
    requires k in Keys(s, key)
    ensures |Group(s, key, k)| > 0
  {
    var i :| 0 <= i < |s| && key(s[i]) == k;
    assert s[i] in Group(s, key, k);
  }

  /** `Σ over ks of Σ f over the group of k`. */
  function GroupSums<T>(s: seq<T>, ks: seq<string>, key: T -> string, f: T -> int): int
  {
    if |ks| == 0 then 0
    else Seqs.Sum(Group(s, key, ks[0]), f) + GroupSums(s, ks[1..], key, f)
  }

  lemma {:induction false} GroupSumsSnocKey<T>(s: seq<T>, ks: seq<string>, k: string, key: T -> string, f: T -> int)
    ensures GroupSums(s, ks + [k], key, f) == GroupSums(s, ks, key, f) + Seqs.Sum(Group(s, key, k), f)
  {
    if |ks| > 0 {
      assert (ks + [k])[1..] == ks[1..] + [k];
      GroupSumsSnocKey(s, ks[1..], k, key, f);
    } else {
      assert [k][1..] == [];
    }
  }

  /** Adding an element to the input adds `f` of it once, to the sum of
      its own key, when the key list is duplicate-free. */
  lemma {:induction false} GroupSumsSnocElement<T>(s: seq<T>, x: T, ks: seq<string>, key: T -> string, f: T -> int)
    requires forall i, j | 0 <= i < j < |ks| :: ks[i] != ks[j]
    ensures GroupSums(s + [x], ks, key, f) == GroupSums(s, ks, key, f) + (if key(x) in ks then f(x) else 0)
  {
    if |ks| > 0 {
      GroupSumsSnocElement(s, x, ks[1..], key, f);
      GroupSnoc(s, x, key, ks[0]);
      Seqs.SumAppend(Group(s, key, ks[0]), if key(x) == ks[0] then [x] else [], f);
      assert Seqs.Sum([x], f) == f(x);
      assert key(x) in ks <==> key(x) == ks[0] || key(x) in ks[1..];
      if key(x) == ks[0] {
        assert key(x) !in ks[1..];
      }
    }
  }

  /** The groups partition the input: summing any quantity group by group
      gives its sum over the whole input. */
  lemma {:induction false} GroupsPartition<T>(s: seq<T>, key: T -> string, f: T -> int)
    ensures GroupSums(s, Keys(s, key), key, f) == Seqs.Sum(s, f)
  {
    if |s| > 0 {
      var init := s[..|s| - 1];
      var x := s[|s| - 1];
      assert s == init + [x];
      GroupsPartition(init, key, f);
      var ks := Keys(init, key);
      Seqs.SumAppend(init, [x], f);
      assert Seqs.Sum([x], f) == f(x);
      GroupSumsSnocElement(init, x, ks, key, f);
      if key(x) in ks {
        assert Keys(s, key) == ks;
      } else {
        assert Keys(s, key) == ks + [key(x)];
        assert Seqs.Sum(Group(s, key, key(x)), f) == f(x) by {
          GroupOfAbsentKey(init, key, key(x));
          GroupSnoc(init, x, key, key(x));
        }
        GroupSumsSnocKey(s, ks, key(x), key, f);
      }
    }
  }

  /** A duplicate-free sequence has as many elements as its set. */
  lemma {:induction false} DistinctCard(ks: seq<string>)
    requires forall i, j | 0 <= i < j < |ks| :: ks[i] != ks[j]
    ensures |set k | k in ks| == |ks|
  {
    if |ks| > 0 {
      var rest := ks[1..];
      DistinctCard(rest);
      assert (set k | k in ks) == (set k | k in rest) + {ks[0]};
      assert ks[0] !in rest;
    }
  }

  /** The set of key values that occur in `s`. */
  function KeyValues<T>(s: seq<T>, key: T -> string): set<string>
  {
    set i | 0 <= i < |s| :: key(s[i])
  }

  /** The number of keys is the number of distinct key values. */
  lemma KeysCount<T>(s: seq<T>, key: T -> string)
    ensures |Keys(s, key)| == |KeyValues(s, key)|
  {
    var ks := Keys(s, key);
    DistinctCard(ks);
    assert (set k | k in ks) == (set i | 0 <= i < |s| :: key(s[i])) by {
      forall k | k in ks
        ensures k in (set i | 0 <= i < |s| :: key(s[i]))
      {
        assert Occurs(s, key, k);
      }
    }
  }
}

=== FILE: leaderboard.dfy ===
/** The paged ranking of records: which cards a page shows, the rank on
    each card, which card is expanded, and how the current page follows
    the pager and a change of the underlying list.

    The page size `ITEMS_PER_PAGE` is defined in a constants file that is
    not part of this model; it is the positive parameter `per`. */
module Leaderboard {
  import opened Options
  import Seqs
  import Numeric
  import Pagination

  /** Pages longer than this are drawn through a virtualised list. */
  const VirtualizationThreshold: int := 100

  /** `Math.ceil(members.length / ITEMS_PER_PAGE)` */
  function TotalPages(n: nat, per: int): (t: int)
    requires per > 0
    ensures t >= 0
    ensures (t - 1) * per < n <= t * per || (n == 0 && t == 0)
  {
    Numeric.CeilDiv(n, per)
  }

  /** The position in the whole list of the first card of `page`. */
  function StartIndex(page: int, per: int): int
  {
    (page - 1) * per
  }

  /** `members.slice(startIndex, startIndex + ITEMS_PER_PAGE)` */
  function PageMembers<T>(members: seq<T>, page: int, per: int): (r: seq<T>)
    requires per > 0
    ensures |r| <= per
    ensures page >= 1 ==> forall i | 0 <= i < |r| ::
              StartIndex(page, per) + i < |members| && r[i] == members[StartIndex(page, per) + i]
  {
    assert page >= 1 ==> StartIndex(page, per) >= 0 by {
      if page >= 1 {
        Numeric.MulMonotone(0, page - 1, per);
      }
    }
    Seqs.Slice(members, StartIndex(page, per), StartIndex(page, per) + per)
  }

  /** The rank printed on the `index`-th card of `page`. */
  function Rank(page: int, per: int, index: int): int
  {
    StartIndex(page, per) + index + 1
  }

  /** Pages `1..totalPages` are all non-empty, and every page but the last
      is full. */
  lemma PagesInRange<T>(members: seq<T>, page: int, per: int)
    requires per > 0 && 1 <= page <= TotalPages(|members|, per)
    ensures var pm := PageMembers(members, page, per);
            |pm| == Seqs.Min(per, |members| - StartIndex(page, per)) && |pm| > 0
            && (page < TotalPages(|members|, per) ==> |pm| == per)
  {
    var t := TotalPages(|members|, per);
    var start := StartIndex(page, per);
    Numeric.MulMonotone(0, page - 1, per);
    Numeric.MulMonotone(page - 1, t - 1, per);
    assert 0 <= start < |members|;
    if page < t {
      Numeric.MulMonotone(page, t - 1, per);
      assert start + per == page * per;
    }
  }

  /** Each record is on exactly one page in range, and its card carries its
      1-based position in the list as its rank. */
  lemma EveryMemberRanked<T>(members: seq<T>, per: int, j: int) returns (page: int, i: int)
    requires per > 0 && 0 <= j < |members|
    ensures 1 <= page <= TotalPages(|members|, per)
    ensures 0 <= i < |PageMembers(members, page, per)|
    ensures PageMembers(members, page, per)[i] == members[j] && Rank(page, per, i) == j + 1
  {
    page, i := j / per + 1, j % per;
    var t := TotalPages(|members|, per);
    assert StartIndex(page, per) + i == j;
    assert (page - 1) * per < t * per;
    Numeric.MulStrict(page - 1, t, per);
  }

  /** No two cards, on the same page or on different pages, carry the same
      rank: ranks run through `1..n` once each. */
  lemma RanksDistinct(per: int, p: int, i: int, q: int, k: int)
    requires per > 0 && 0 <= i < per && 0 <= k < per
    requires Rank(p, per, i) == Rank(q, per, k)
    ensures p == q && i == k
  {
    var pos := Rank(p, per, i) - 1;
    assert (p - 1) * per <= pos < p * per;
    assert (q - 1) * per <= pos < q * per;
    Numeric.MulStrict(p - 1, q, per);
    Numeric.MulStrict(q - 1, p, per);
  }

  /** `useVirtual` */
  predicate UseVirtual<T>(members: seq<T>, page: int, per: int)
    requires per > 0
  {
    |PageMembers(members, page, per)| > VirtualizationThreshold
  }

  /** A virtualised list needs a page size above the threshold. */
  lemma VirtualNeedsLargePages<T>(members: seq<T>, page: int, per: int)
    requires per > 0 && UseVirtual(members, page, per)
    ensures per > VirtualizationThreshold
  {
  }

  /** The pager is shown exactly when the list does not fit on one page,
      and then it is drawn. */
  lemma PagerShownIff(n: nat, per: int, page: int)
    requires per > 0
    ensures TotalPages(n, per) > 1 <==> n > per
    ensures Pagination.Render(page, TotalPages(n, per), n, per).Some? <==> n > per
  {
    var t := TotalPages(n, per);
    if t > 1 {
      Numeric.MulMonotone(1, t - 1, per);
    }
    Numeric.MulStrict(1, t, per);
  }

  /** The pager's "showing a–b" summary names the ranks on the first and
      last card of the page. */
  lemma SummaryMatchesCards<T>(members: seq<T>, page: int, per: int)
    requires per > 0 && 1 <= page <= TotalPages(|members|, per)
    ensures var pm := PageMembers(members, page, per);
            var r := Pagination.Render(page, TotalPages(|members|, per), |members|, per);
            |pm| > 0 && (r.Some? ==>
              r.value.startItem == Rank(page, per, 0) && r.value.endItem == Rank(page, per, |pm| - 1))
  {
    PagesInRange(members, page, per);
    Numeric.MulSucc(page - 1, per);
  }

  /** `handleToggle(id)`: collapses the expanded card, or expands another. */
  function Toggle(expanded: Option<int>, id: int): (r: Option<int>)
    ensures r.None? <==> expanded == Some(id)
    ensures r.Some? ==> r.value == id
  {
    if expanded == Some(id) then None else Some(id)
  }

  /** Toggling the same card twice: an expanded card comes back expanded,
      any other state ends with nothing expanded. */
  lemma ToggleTwice(expanded: Option<int>, id: int)
    ensures Toggle(Toggle(expanded, id), id) == if expanded == Some(id) then expanded else None
  {
  }

  /** The component's state: the current page and the expanded card. */
  datatype Board = Board(page: int, expanded: Option<int>)

  /** The first render: page 1, with the highlighted record expanded. */
  function Initial(highlight: Option<int>): (b: Board)
    ensures b.page == 1
  {
    Board(1, highlight)
  }

  /** `handlePageChange(page)`: moves to the page and collapses any card. */
  function ChangePage(b: Board, page: int): (r: Board)
    ensures r.expanded.None?
  {
    Board(page, None)
  }

  function ToggleCard(b: Board, id: int): (r: Board)
    ensures r.page == b.page
  {
    b.(expanded := Toggle(b.expanded, id))
  }

  /** The reset during render: a page past the end of a non-empty list goes
      back to 1. The expanded card is kept. */
  function Settle(b: Board, totalPages: int): (r: Board)
    ensures r.expanded == b.expanded
  {
    if b.page > totalPages && totalPages > 0 then b.(page := 1) else b
  }

  /** The current page is a page of the list, or 1 or more for an empty one. */
  predicate InRange(b: Board, totalPages: int)
  {
    1 <= b.page && (totalPages > 0 ==> b.page <= totalPages)
  }

  /** After a render the page is in range, whatever the list became; a page
      already in range is left alone. */
  lemma SettleInRange(b: Board, totalPages: int)
    requires b.page >= 1
    ensures InRange(Settle(b, totalPages), totalPages)
    ensures Settle(b, totalPages) == b <==> InRange(b, totalPages)
  {
  }

  /** A page the pager lets the user click. */
  predicate Clickable(p: Pagination.Pager, current: int, target: int)
  {
    || (p.prevEnabled && target == current - 1)
    || (p.nextEnabled && target == current + 1)
    || Pagination.Num(target) in p.items
  }

  /** Clicking the pager keeps the page in range and collapses the cards. */
  lemma ClickKeepsRange(b: Board, n: nat, per: int, target: int)
    requires per > 0
    requires var t := TotalPages(n, per); 1 <= b.page <= t
    requires var r := Pagination.Render(b.page, TotalPages(n, per), n, per);
             r.Some? && Clickable(r.value, b.page, target)
    ensures var r := ChangePage(b, target);
            InRange(r, TotalPages(n, per)) && r.expanded.None?
  {
    var t := TotalPages(n, per);
    var r := Pagination.Render(b.page, t, n, per);
    Pagination.NavigationStaysInRange(b.page, t, n, per);
    if Pagination.Num(target) in r.value.items {
      var i :| 0 <= i < |r.value.items| && r.value.items[i] == Pagination.Num(target);
    }
  }
}

=== FILE: listing.dfy ===
/** The record listing endpoint `GET /api/v1/membros`
    (src/app/api/v1/membros/route.ts): AND-composed filters, a key-selected
    stable sort, normalisation of `page` and `limit`, slicing, the `meta`
    block and the stripping of `historico`.

    The query string is the ordered list of its `name=value` pairs, and
    `localeCompare(…, "pt-BR")` is the parameter `collate`, with
    `collate(a, b)` meaning `a.localeCompare(b, "pt-BR") <= 0`. */
module Listing {
  import opened Options
  import Seqs
  import Text
  import Accents
  import Sorting
  import Numeric
  import opened Records

  /** The decoded query string of the request URL. */
  type Query = seq<(string, string)>

  /** `searchParams.get(name)`: the value of the first pair with that name,
      or `null`. */
  function Get(q: Query, name: string): (r: Option<string>)
    ensures r.Some? ==> (name, r.value) in q
    ensures r.None? ==> forall i | 0 <= i < |q| :: q[i].0 != name
  {
    if |q| == 0 then None
    else if q[0].0 == name then Some(q[0].1)
    else Get(q[1..], name)
  }

  /** Later pairs with the same name are shadowed by the first one. */
  lemma {:induction false} GetFirst(q1: Query, name: string, v: string, q2: Query)
    requires forall i | 0 <= i < |q1| :: q1[i].0 != name
    ensures Get(q1 + [(name, v)] + q2, name) == Some(v)
  {
    if |q1| > 0 {
      assert (q1 + [(name, v)] + q2)[1..] == q1[1..] + [(name, v)] + q2;
      GetFirst(q1[1..], name, v, q2);
    }
  }

  /** JavaScript truthiness of `get(…)`: present and not the empty string. */
  predicate Truthy(o: Option<string>)
  {
    o.Some? && o.value != ""
  }

  /** `get(name) || fallback`. */
  function OrDefault(o: Option<string>, fallback: string): (r: string)
    ensures Truthy(o) ==> r == o.value
    ensures !Truthy(o) ==> r == fallback
  {
    if Truthy(o) then o.value else fallback
  }

  /** The name test: lower-cased and accent-stripped, the query is a
      substring of the member's name. */
  predicate NameMatches(nome: string, query: string)
  {
    Text.Contains(Accents.NormalizeName(nome), Accents.NormalizeName(query))
  }

  /** Each exact-match filter: skipped when its parameter is not given. */
  predicate EstadoOk(q: Query, m: Member)
  {
    var estado := Get(q, "estado");
    Truthy(estado) ==> m.estado == estado.value
  }

  predicate OrgaoOk(q: Query, m: Member)
  {
    var orgao := Get(q, "orgao");
    Truthy(orgao) ==> m.orgao == orgao.value
  }

  predicate CargoOk(q: Query, m: Member)
  {
    var cargo := Get(q, "cargo");
    Truthy(cargo) ==> m.cargo == cargo.value
  }

  /** The three exact-match filters, as one conjunction. */
  predicate FieldsMatch(q: Query, m: Member)
  {
    EstadoOk(q, m) && OrgaoOk(q, m) && CargoOk(q, m)
  }

  /** The exact-match filters and the name filter. */
  predicate FieldsAndNameMatch(q: Query, m: Member)
  {
    var nome := Get(q, "nome");
    FieldsMatch(q, m) && (Truthy(nome) ==> NameMatches(m.nome, nome.value))
  }

  /** What the listing keeps, as one conjunction: every supplied filter
      holds of the record. */
  predicate Matches(q: Query, m: Member)
  {
    FieldsAndNameMatch(q, m) && (Get(q, "acima_teto") == Some("true") ==> m.acimaTeto > 0)
  }

  /** The test of each filter stage, given the parameter's value. */
  function EstadoIs(v: string): Member -> bool { (m: Member) => m.estado == v }
  function OrgaoIs(v: string): Member -> bool { (m: Member) => m.orgao == v }
  function CargoIs(v: string): Member -> bool { (m: Member) => m.cargo == v }
  function NameHas(v: string): Member -> bool { (m: Member) => NameMatches(m.nome, v) }
  function IsAboveCap(): Member -> bool { (m: Member) => m.acimaTeto > 0 }

  /** The conjunctions above as tests. */
  function EstadoTest(q: Query): Member -> bool { (m: Member) => EstadoOk(q, m) }
  function EstadoOrgaoTest(q: Query): Member -> bool { (m: Member) => EstadoOk(q, m) && OrgaoOk(q, m) }
  function FieldsTest(q: Query): Member -> bool { (m: Member) => FieldsMatch(q, m) }
  function FieldsAndNameTest(q: Query): Member -> bool { (m: Member) => FieldsAndNameMatch(q, m) }
  function MatchesTest(q: Query): Member -> bool { (m: Member) => Matches(q, m) }

  /** One filter stage of the route: skipped unless its parameter is given. */
  function Stage(s: seq<Member>, on: bool, p: Member -> bool): (r: seq<Member>)
    ensures on ==> r == Seqs.Filter(s, p)
    ensures !on ==> r == s
  {
    if on then Seqs.Filter(s, p) else s
  }

  /** The `estado`, `orgao` and `cargo` stages, in the route's order. */
  function FieldStages(s: seq<Member>, q: Query): seq<Member>
  {
    var estado, orgao, cargo := Get(q, "estado"), Get(q, "orgao"), Get(q, "cargo");
    var s1 := Stage(s, Truthy(estado), EstadoIs(OrDefault(estado, "")));
    var s2 := Stage(s1, Truthy(orgao), OrgaoIs(OrDefault(orgao, "")));
    Stage(s2, Truthy(cargo), CargoIs(OrDefault(cargo, "")))
  }

  /** The `nome` stage after the exact-match stages. */
  function NameStage(s: seq<Member>, q: Query): seq<Member>
  {
    var nome := Get(q, "nome");
    Stage(FieldStages(s, q), Truthy(nome), NameHas(OrDefault(nome, "")))
  }

  /** All filter stages in the order the route runs them. */
  function ApplyFilters(s: seq<Member>, q: Query): (r: seq<Member>)
    ensures multiset(r) <= multiset(s)
  {
    Stage(NameStage(s, q), Get(q, "acima_teto") == Some("true"), IsAboveCap())
  }

  /** A skipped or applied stage is a filter by "the stage is off, or the
      test holds". */
  lemma StageIsFilter(s: seq<Member>, on: bool, p: Member -> bool, g: Member -> bool)
    requires forall m :: g(m) == (on ==> p(m))
    ensures Stage(s, on, p) == Seqs.Filter(s, g)
  {
    if on {
      Seqs.FilterExt(s, p, g);
    } else {
      Seqs.FilterAll(s, g);
    }
  }

  /** A stage run on the result of a filter by `cp` filters the original
      input by `cp` and the stage's own test. */
  lemma StageStep(s: seq<Member>, t: seq<Member>, cp: Member -> bool, on: bool, p: Member -> bool, c: Member -> bool)
    requires t == Seqs.Filter(s, cp)
    requires forall m :: c(m) == (cp(m) && (on ==> p(m)))
    ensures Stage(t, on, p) == Seqs.Filter(s, c)
  {
    var g := (m: Member) => on ==> p(m);
    StageIsFilter(t, on, p, g);
    Seqs.FilterFilter(s, cp, g, c);
  }

  lemma FieldStagesAreConjunction(s: seq<Member>, q: Query)
    ensures FieldStages(s, q) == Seqs.Filter(s, FieldsTest(q))
  {
    var estado, orgao, cargo := Get(q, "estado"), Get(q, "orgao"), Get(q, "cargo");
    var s1 := Stage(s, Truthy(estado), EstadoIs(OrDefault(estado, "")));
    StageIsFilter(s, Truthy(estado), EstadoIs(OrDefault(estado, "")), EstadoTest(q));
    var s2 := Stage(s1, Truthy(orgao), OrgaoIs(OrDefault(orgao, "")));
    StageStep(s, s1, EstadoTest(q), Truthy(orgao), OrgaoIs(OrDefault(orgao, "")), EstadoOrgaoTest(q));
    StageStep(s, s2, EstadoOrgaoTest(q), Truthy(cargo), CargoIs(OrDefault(cargo, "")), FieldsTest(q));
  }

  lemma NameStageIsConjunction(s: seq<Member>, q: Query)
    ensures NameStage(s, q) == Seqs.Filter(s, FieldsAndNameTest(q))
  {
    var nome := Get(q, "nome");
    FieldStagesAreConjunction(s, q);
    StageStep(s, FieldStages(s, q), FieldsTest(q), Truthy(nome), NameHas(OrDefault(nome, "")), FieldsAndNameTest(q));
  }

  /** The sequential filter chain keeps exactly the records that satisfy the
      conjunction of the supplied filters, in their input order. */
  lemma FiltersAreConjunction(s: seq<Member>, q: Query)
    ensures ApplyFilters(s, q) == Seqs.Filter(s, MatchesTest(q))
  {
    NameStageIsConjunction(s, q);
    StageStep(s, NameStage(s, q), FieldsAndNameTest(q), Get(q, "acima_teto") == Some("true"), IsAboveCap(), MatchesTest(q));
  }

  /** Every record the filters keep satisfies every supplied filter, and
      every record of the input that does is kept. */
  lemma FiltersSoundAndComplete(s: seq<Member>, q: Query, m: Member)
    ensures m in ApplyFilters(s, q) <==> m in s && Matches(q, m)
  {
    FiltersAreConjunction(s, q);
    var r := ApplyFilters(s, q);
    if m in r {
      var i :| 0 <= i < |r| && r[i] == m;
    }
    if m in s && Matches(q, m) {
      var i :| 0 <= i < |s| && s[i] == m;
    }
  }

  datatype SortKey = MaiorRemuneracao | MaiorAcimaTeto | ByNome

  /** `get("sort") || "maior_remuneracao"`, then the `switch`: an unknown
      value falls to the default. */
  function SortKeyOf(q: Query): (k: SortKey)
    ensures Get(q, "sort") == Some("maior_acima_teto") <==> k == MaiorAcimaTeto
    ensures Get(q, "sort") == Some("nome") <==> k == ByNome
  {
    var sort := OrDefault(Get(q, "sort"), "maior_remuneracao");
    if sort == "maior_acima_teto" then MaiorAcimaTeto
    else if sort == "nome" then ByNome
    else MaiorRemuneracao
  }

  /** The comparator each sort key selects. */
  function Comparator(k: SortKey, collate: (string, string) -> bool): (Member, Member) -> bool
  {
    match k
    case MaiorAcimaTeto => Sorting.Desc(AcimaKey)
    case ByNome => (a: Member, b: Member) => collate(a.nome, b.nome)
    case MaiorRemuneracao => Sorting.Desc(TotalKey)
  }

  /** Every selected comparator is a total preorder when the collation is. */
  lemma ComparatorIsTotalPreorder(k: SortKey, collate: (string, string) -> bool)
    requires Sorting.TotalPreorder(collate)
    ensures Sorting.TotalPreorder(Comparator(k, collate))
  {
    match k
    case MaiorAcimaTeto => Sorting.DescIsTotalPreorder(AcimaKey);
    case MaiorRemuneracao => Sorting.DescIsTotalPreorder(TotalKey);
    case ByNome =>
      var le := Comparator(k, collate);
      assert forall a: Member, b: Member :: le(a, b) == collate(a.nome, b.nome);
  }

  /** The filtered records in the order the route returns them. */
  function Ordered(db: seq<Member>, q: Query, collate: (string, string) -> bool): (r: seq<Member>)
    ensures multiset(r) == multiset(ApplyFilters(db, q))
  {
    Sorting.Sort(ApplyFilters(db, q), Comparator(SortKeyOf(q), collate))
  }

  /** The ordering is a stable sort of the filtered records by the selected
      key: a permutation, in key order, with ties in dataset order. */
  lemma OrderedIsStableSort(db: seq<Member>, q: Query, collate: (string, string) -> bool)
    requires Sorting.TotalPreorder(collate)
    ensures Sorting.IsStableSortOf(Ordered(db, q, collate), ApplyFilters(db, q), Comparator(SortKeyOf(q), collate))
  {
    ComparatorIsTotalPreorder(SortKeyOf(q), collate);
    Sorting.SortIsStableSort(ApplyFilters(db, q), Comparator(SortKeyOf(q), collate));
  }

  /** Absent, empty or unknown `sort`: the list is non-increasing in
      `remuneracaoTotal`; `maior_acima_teto`: non-increasing in `acimaTeto`. */
  lemma OrderedByKey(db: seq<Member>, q: Query, collate: (string, string) -> bool)
    ensures var r := Ordered(db, q, collate);
            && (SortKeyOf(q) == MaiorRemuneracao ==>
                  forall i, j | 0 <= i < j < |r| :: r[i].remuneracaoTotal >= r[j].remuneracaoTotal)
            && (SortKeyOf(q) == MaiorAcimaTeto ==>
                  forall i, j | 0 <= i < j < |r| :: r[i].acimaTeto >= r[j].acimaTeto)
  {
    var s := ApplyFilters(db, q);
    match SortKeyOf(q)
    case MaiorRemuneracao => Sorting.SortDescByKey(s, TotalKey);
    case MaiorAcimaTeto => Sorting.SortDescByKey(s, AcimaKey);
    case ByNome =>
  }

  /** `sort=nome`: ascending by the collation of `nome`. */
  lemma OrderedByNome(db: seq<Member>, q: Query, collate: (string, string) -> bool)
    requires Sorting.TotalPreorder(collate)
    requires Get(q, "sort") == Some("nome")
    ensures var r := Ordered(db, q, collate);
            forall i, j | 0 <= i < j < |r| :: collate(r[i].nome, r[j].nome)
  {
    OrderedIsStableSort(db, q, collate);
  }

  /** `page`: `parseInt(get("page") || "1", 10)`, replaced by 1 when it is
      not a number or below 1. */
  function PageOf(q: Query): (p: int)
    ensures p >= 1
  {
    var raw := Text.ParseInt(OrDefault(Get(q, "page"), DefaultPageText));
    if raw.None? || raw.value < 1 then 1 else raw.value
  }

  /** The fallback texts of `get("page") || "1"` and `get("limit") || "50"`. */
  const DefaultPageText: string := "1"
  const DefaultLimitText: string := "50"

  /** 2^53: up to here a double holds every integer exactly. */
  const MaxSafeInteger: int := 0x20_0000_0000_0000

  const DefaultLimit: int := 50
  const MaxLimit: int := 200

  /** `limit`: `parseInt(get("limit") || "50", 10)`, replaced by 50 when it
      is not a number or below 1, and capped at 200. */
  function LimitOf(q: Query): (l: int)
    ensures 1 <= l <= MaxLimit
  {
    LimitFrom(Text.ParseInt(OrDefault(Get(q, "limit"), DefaultLimitText)))
  }

  /** The fallback and the cap applied to the parsed `limit`. */
  function LimitFrom(raw: Option<int>): (l: int)
    ensures 1 <= l <= MaxLimit
    ensures raw.Some? && raw.value >= 1 ==> l == Seqs.Min(raw.value, MaxLimit)
    ensures (raw.None? || raw.value < 1) ==> l == DefaultLimit
  {
    if raw.None? || raw.value < 1 then DefaultLimit else Seqs.Min(raw.value, MaxLimit)
  }

  /** A decimal `page` is read as its value; a positive one is used as
      given, and 0 falls back to 1. Beyond 2^53 `parseInt`'s double no
      longer holds every integer, so the claim stops there. */
  lemma PageValue(q: Query, n: nat)
    requires Get(q, "page") == Some(Text.NatToString(n))
    requires n <= MaxSafeInteger
    ensures PageOf(q) == if n >= 1 then n else 1
  {
    var t := Text.NatToString(n);
    Text.ParseIntNatToString(n, "");
    assert t + "" == t;
    assert OrDefault(Get(q, "page"), DefaultPageText) == t;
    assert Text.ParseInt(t) == Some(n as int);
  }

  /** A decimal `limit` is read as its value; a positive one is capped at
      200, and 0 falls back to 50. */
  lemma LimitValue(q: Query, n: nat)
    requires Get(q, "limit") == Some(Text.NatToString(n))
    ensures LimitOf(q) == if n >= 1 then Seqs.Min(n, MaxLimit) else DefaultLimit
  {
    var t := Text.NatToString(n);
    Text.ParseIntNatToString(n, "");
    assert t + "" == t;
    assert OrDefault(Get(q, "limit"), DefaultLimitText) == t;
    assert Text.ParseInt(t) == Some(n as int);
  }

  /** The fallback texts parse to the defaults. */
  lemma DefaultTextsParse()
    ensures Text.ParseInt(DefaultPageText) == Some(1)
    ensures Text.ParseInt(DefaultLimitText) == Some(DefaultLimit)
  {
    Text.ParseIntOne();
    Text.ParseIntFifty();
  }

  /** An absent `page` gives page 1. */
  lemma AbsentPage(q: Query)
    requires Get(q, "page").None?
    ensures PageOf(q) == 1
  {
    DefaultTextsParse();
  }

  /** An absent `limit` gives limit 50. */
  lemma AbsentLimit(q: Query)
    requires Get(q, "limit").None?
    ensures LimitOf(q) == DefaultLimit
  {
    DefaultTextsParse();
  }

  /** A `page` or `limit` in which no number starts after the leading
      blanks falls back to its default. */
  lemma NonNumericPage(q: Query, k: nat)
    requires Get(q, "page").Some? && Text.NoNumberAt(Get(q, "page").value, k)
    ensures PageOf(q) == 1
  {
    var v := Get(q, "page").value;
    if v == "" {
      DefaultTextsParse();
    } else {
      Text.ParseIntRejects(v, k);
    }
  }

  lemma NonNumericLimit(q: Query, k: nat)
    requires Get(q, "limit").Some? && Text.NoNumberAt(Get(q, "limit").value, k)
    ensures LimitOf(q) == DefaultLimit
  {
    var v := Get(q, "limit").value;
    if v == "" {
      DefaultTextsParse();
    } else {
      Text.ParseIntRejects(v, k);
    }
  }

  datatype Meta = Meta(total: int, page: int, limit: int, totalPages: int)

  datatype Response = Response(data: seq<MemberSummary>, meta: Meta)

  /** `paged.map(({ historico, ...rest }) => rest)`. */
  function StripAll(s: seq<Member>): (r: seq<MemberSummary>)
    ensures |r| == |s|
    ensures forall i | 0 <= i < |s| :: Restore(r[i], s[i].historico) == s[i]
  {
    seq(|s|, i requires 0 <= i < |s| => Strip(s[i]))
  }

  /** `(page - 1) * limit`. */
  function Offset(page: int, limit: int): (o: int)
    requires page >= 1 && limit >= 1
    ensures 0 <= o && o + limit == page * limit
  {
    (page - 1) * limit
  }

  /** Slicing, stripping and the `meta` block for a normalised page and
      limit: the page holds the records at positions
      `[(page − 1)·limit, page·limit)` that exist, each minus its history;
      `meta` reports the count before slicing and the number of pages. */
  function Paginate(result: seq<Member>, page: int, limit: int): (r: Response)
    requires page >= 1 && limit >= 1
    ensures r.meta.total == |result| && r.meta.page == page && r.meta.limit == limit
    ensures r.meta.totalPages * limit - limit < |result| <= r.meta.totalPages * limit
    ensures |r.data| <= limit
    ensures Offset(page, limit) >= |result| ==> r.data == []
    ensures Offset(page, limit) < |result| ==> |r.data| == Seqs.Min(limit, |result| - Offset(page, limit))
    ensures forall i | 0 <= i < |r.data| ::
              Offset(page, limit) + i < |result| && r.data[i] == Strip(result[Offset(page, limit) + i])
  {
    var offset := Offset(page, limit);
    var paged := Seqs.Slice(result, offset, offset + limit);
    Response(StripAll(paged), Meta(|result|, page, limit, Numeric.CeilDiv(|result|, limit)))
  }

  /** The whole handler. */
  function List(db: seq<Member>, q: Query, collate: (string, string) -> bool): (r: Response)
    ensures r.meta.total == |ApplyFilters(db, q)|
    ensures r.meta.page >= 1 && 1 <= r.meta.limit <= MaxLimit
    ensures |r.data| <= r.meta.limit
  {
    Paginate(Ordered(db, q, collate), PageOf(q), LimitOf(q))
  }

  /** Item `i` of the page is the record at position `offset + i` of the
      ordered list, minus its history; so every returned item is a record
      of the dataset that satisfies every supplied filter. */
  lemma ListItems(db: seq<Member>, q: Query, collate: (string, string) -> bool, i: int)
    requires 0 <= i < |List(db, q, collate).data|
    ensures var r := List(db, q, collate);
            var ord := Ordered(db, q, collate);
            var j := Offset(r.meta.page, r.meta.limit) + i;
            && j < |ord| && r.data[i] == Strip(ord[j])
            && ord[j] in db && Matches(q, ord[j])
  {
    var ord := Ordered(db, q, collate);
    var r := List(db, q, collate);
    var j := Offset(r.meta.page, r.meta.limit) + i;
    assert j < |ord| && r.data[i] == Strip(ord[j]) by {
      PaginateItem(ord, PageOf(q), LimitOf(q), i);
    }
    assert ord[j] in db && Matches(q, ord[j]) by {
      OrderedMember(db, q, collate, j);
    }
  }

  lemma PaginateItem(result: seq<Member>, page: int, limit: int, i: int)
    requires page >= 1 && limit >= 1 && 0 <= i < |Paginate(result, page, limit).data|
    ensures var r := Paginate(result, page, limit);
            Offset(r.meta.page, r.meta.limit) + i < |result|
            && r.data[i] == Strip(result[Offset(r.meta.page, r.meta.limit) + i])
  {
  }

  /** Every record of the ordered list is a record of the dataset that
      satisfies every supplied filter. */
  lemma OrderedMember(db: seq<Member>, q: Query, collate: (string, string) -> bool, j: int)
    requires 0 <= j < |Ordered(db, q, collate)|
    ensures Ordered(db, q, collate)[j] in db && Matches(q, Ordered(db, q, collate)[j])
  {
    var ord := Ordered(db, q, collate);
    assert ord[j] in multiset(ApplyFilters(db, q));
    FiltersSoundAndComplete(db, q, ord[j]);
  }

  /** A page past the last one is empty. */
  lemma PaginatePastTheEnd(result: seq<Member>, page: int, limit: int)
    requires page >= 1 && limit >= 1
    requires page > Paginate(result, page, limit).meta.totalPages
    ensures Paginate(result, page, limit).data == []
  {
    var tp := Paginate(result, page, limit).meta.totalPages;
    Numeric.MulMonotone(tp, page - 1, limit);
    assert Offset(page, limit) == (page - 1) * limit;
  }

  /** A requested page past the end is empty while `meta.total` still
      counts every match. */
  lemma PastTheEnd(db: seq<Member>, q: Query, collate: (string, string) -> bool)
    requires PageOf(q) > List(db, q, collate).meta.totalPages
    ensures List(db, q, collate).data == []
    ensures List(db, q, collate).meta.total == |ApplyFilters(db, q)|
  {
    PaginatePastTheEnd(Ordered(db, q, collate), PageOf(q), LimitOf(q));
  }

  /** Position `j` of the ordered list is item `j mod limit` of page
      `⌊j / limit⌋ + 1`, and that page exists: requesting every page in
      turn returns every match exactly once. */
  lemma EveryRecordOnItsPage(result: seq<Member>, limit: int, j: int)
    requires limit >= 1 && 0 <= j < |result|
    ensures var p := j / limit + 1;
            var r := Paginate(result, p, limit);
            p <= r.meta.totalPages && j % limit < |r.data| && r.data[j % limit] == Strip(result[j])
  {
    var p := j / limit + 1;
    assert Offset(p, limit) + j % limit == j;
    var r := Paginate(result, p, limit);
    assert (p - 1) * limit < r.meta.totalPages * limit;
    if p > r.meta.totalPages {
      Numeric.MulMonotone(r.meta.totalPages, p - 1, limit);
    }
  }
}

=== FILE: numeric.dfy ===
/** JavaScript's `Math.floor`, `Math.ceil` and `Math.round`, written out.

    The dashboard keeps money in reais as floating-point numbers; this model
    keeps it in integer cents, so most quotients are exact ratios of two
    integers and are rounded with the `...Div` functions below. Percentages
    and bar geometry are `real`s and are rounded with `Round`. */
module Numeric {

  /** `Math.floor(a / b)` for a positive divisor. */
  function FloorDiv(a: int, b: int): (q: int)
    requires b > 0
    ensures q * b <= a < q * b + b
  {
    a / b
  }

  /** `Math.ceil(a / b)` for a positive divisor. */
  function CeilDiv(a: int, b: int): (q: int)
    requires b > 0
    ensures q * b - b < a <= q * b
  {
    -((-a) / b)
  }

  /** `Math.round(a / b)` for a positive divisor: the nearest integer, with
      halves rounded up (towards positive infinity). */
  function RoundDiv(a: int, b: int): (q: int)
    requires b > 0
    ensures 2 * q * b - b <= 2 * a < 2 * q * b + b
  {
    (2 * a + b) / (2 * b)
  }

  /** A larger amount never rounds to less. */
  lemma RoundDivMonotone(a: int, c: int, b: int)
    requires a <= c && b > 0
    ensures RoundDiv(a, b) <= RoundDiv(c, b)
  {
    var x, y := 2 * RoundDiv(a, b) - 1, 2 * RoundDiv(c, b) + 1;
    assert x * b <= 2 * a by { MulSucc(2 * RoundDiv(a, b) - 1, b); }
    assert 2 * c < y * b by { MulSucc(2 * RoundDiv(c, b), b); }
    MulStrict(x, y, b);
  }

  /** Dividing a non-negative amount by a larger divisor never rounds to
      more. */
  lemma RoundDivAntitone(a: int, b: int, c: int)
    requires a >= 0 && 0 < b <= c
    ensures RoundDiv(a, b) >= RoundDiv(a, c)
  {
    var x, y := 2 * RoundDiv(a, b) + 1, 2 * RoundDiv(a, c) - 1;
    assert 2 * a < x * b by { MulSucc(2 * RoundDiv(a, b), b); }
    assert y * c <= 2 * a by { MulSucc(2 * RoundDiv(a, c) - 1, c); }
    assert x > 0 by { FactorSign(x, b); }
    if y > 0 {
      MulMonotone(b, c, y);
      assert b * y == y * b && c * y == y * c;
      MulStrict(y, x, b);
    }
    assert y < x;
  }

  /** `Math.round(x)`: the nearest integer, with halves rounded up. */
  function Round(x: real): (r: int)
    ensures r as real - 0.5 <= x < r as real + 0.5
  {
    (x + 0.5).Floor
  }

  /** `Math.round` is monotone, so it keeps any integer bounds of its argument. */
  lemma RoundWithin(x: real, lo: int, hi: int)
    requires lo as real <= x <= hi as real
    ensures lo <= Round(x) <= hi
  {
  }

  /** `part / whole * 100` for a non-zero whole. */
  function Percent(part: int, whole: int): (p: real)
    requires whole != 0
    ensures 0 <= part <= whole ==> 0.0 <= p <= 100.0
    ensures p * (whole as real) == (part as real) * 100.0
  {
    PercentBounds(part, whole);
    (part as real) / (whole as real) * 100.0
  }

  lemma PercentBounds(part: int, whole: int)
    requires whole != 0
    ensures 0 <= part <= whole ==> 0.0 <= (part as real) / (whole as real) * 100.0 <= 100.0
  {
    if 0 <= part <= whole {
      var q := (part as real) / (whole as real);
      assert q * (whole as real) == part as real;
      assert 0.0 <= q <= 1.0;
    }
  }

  /** Multiplying by a non-negative factor keeps order. */
  lemma MulMonotone(a: int, b: int, c: int)
    requires a <= b && c >= 0
    ensures a * c <= b * c
  {
  }

  /** One more times `c` is `c` more. */
  lemma MulSucc(a: int, c: int)
    ensures (a + 1) * c == a * c + c
  {
  }

  /** With a positive factor, products compare as the other factors do. */
  lemma MulStrict(a: int, b: int, c: int)
    requires c > 0
    ensures a * c < b * c <==> a < b
  {
    if a < b {
      MulMonotone(a + 1, b, c);
    } else {
      MulMonotone(b, a, c);
    }
  }

  /** With a positive factor, the sign of a product is the other factor's. */
  lemma FactorSign(a: int, b: int)
    requires b > 0
    ensures a * b > 0 ==> a > 0
    ensures a * b >= 0 ==> a >= 0
  {
    if a <= 0 {
      MulMonotone(a, 0, b);
    }
  }

  /** Multiplying both sides by a positive number keeps a comparison. */
  lemma ScaleCompare(a: real, b: real, t: real)
    requires t > 0.0
    ensures a >= b <==> a * t >= b * t
  {
    if a >= b {
      assert (a - b) * t >= 0.0;
    } else {
      assert (b - a) * t > 0.0;
    }
  }

  /** A product distributes over a sum of two. */
  lemma Distribute2(a: real, b: real, m: real)
    ensures (a + b) * m == a * m + b * m
  {
  }

  /** A product distributes over a sum of four. */
  lemma Distribute(a: real, b: real, c: real, d: real, m: real)
    ensures (a + b + c + d) * m == a * m + b * m + c * m + d * m
  {
  }

  /** Shares `x` and `y` of `h` per `w`, of two parts adding up to `w`,
      add up to `h`, scaled by `w`. The factor `h` is a variable so that the
      solver keeps the products apart from literal arithmetic. */
  lemma PartsOfWhole(x: real, y: real, a: real, b: real, w: real, h: real)
    requires x * w == a * h && y * w == b * h && a + b == w
    ensures (x + y) * w == h * w
  {
    Distribute2(x, y, w);
    Distribute2(a, b, h);
  }

  /** The same for four parts. */
  lemma FourPartsOfWhole(x: real, y: real, z: real, u: real, a: real, b: real, c: real, d: real, w: real, h: real)
    requires x * w == a * h && y * w == b * h && z * w == c * h && u * w == d * h
    requires a + b + c + d == w
    ensures (x + y + z + u) * w == h * w
  {
    FourParts(x, y, z, u, a, b, c, d, w, h);
  }

  /** Four products with a common factor on each side add up alike. */
  lemma FourParts(x: real, y: real, z: real, u: real, a: real, b: real, c: real, d: real, w: real, h: real)
    requires x * w == a * h && y * w == b * h && z * w == c * h && u * w == d * h
    ensures (x + y + z + u) * w == (a + b + c + d) * h
  {
    Distribute(x, y, z, u, w);
    Distribute(a, b, c, d, h);
  }

  lemma Congr(u: real, v: real, k: real)
    requires u == v
    ensures u * k == v * k
  {
  }

  lemma Commute(a: real, b: real)
    ensures a * b == b * a
  {
  }

  /** A factor of a product with a positive partner is at least 1 exactly
      when the product is at least the partner. */
  lemma AtLeastOne(p: real, t: real, v: real)
    requires t > 0.0 && p * t == v
    ensures p >= 1.0 <==> v >= t
  {
    ScaleCompare(p, 1.0, t);
  }
}

=== FILE: options.dfy ===
/** An optional value: JavaScript's `undefined`/`null`/`NaN` results. */
module Options {

  datatype Option<T> = None | Some(value: T)
  {
    function GetOr(default: T): (r: T)
      ensures Some? ==> r == value
      ensures None? ==> r == default
    {
      match this
      case None => default
      case Some(v) => v
    }
  }
}

=== FILE: pageparams.dfy ===
/** The query parameters of the pages: the reference month `mes` of the
    home page and the year `ano` of the statistics and map pages, with the
    fallbacks used when a parameter is absent or malformed.

    `\d` in these patterns is an ASCII digit (the patterns have no `u`
    flag) and `$` anchors at the very end of the text (no `m` flag). */
module PageParams {
  import opened Options
  import Text

  /** `/^\d{4}$/.test(ano)` */
  predicate IsValidYear(s: string)
    ensures IsValidYear(s) ==> Text.AllDigits(s) && Text.DigitsValue(s) < 10000
  {
    if |s| == 4 && Text.AllDigits(s) then
      Text.DigitsValueBelow(s);
      true
    else false
  }

  /** `/^\d{4}-(0[1-9]|1[0-2])$/.test(mes)` */
  predicate IsValidMesRef(s: string)
    ensures IsValidMesRef(s) ==>
      (&& |s| == 7 && Text.AllDigits(s[..4]) && Text.IsDigit(s[5]) && Text.IsDigit(s[6])
       && 1 <= 10 * Text.DigitValue(s[5]) + Text.DigitValue(s[6]) <= 12)
  {
    && |s| == 7 && Text.AllDigits(s[..4]) && s[4] == '-'
    && ((s[5] == '0' && '1' <= s[6] <= '9') || (s[5] == '1' && '0' <= s[6] <= '2'))
  }

  /** A month number written with two digits. */
  function TwoDigits(m: nat): (r: string)
    requires m < 100
    ensures |r| == 2 && Text.AllDigits(r) && Text.DigitsValue(r) == m
  {
    var r := [Text.DigitChar(m / 10), Text.DigitChar(m % 10)];
    assert r[..1] == [r[0]] && r[..1][..0] == "";
    assert Text.DigitsValue(r[..1]) == m / 10;
    r
  }

  /** The reference month `YYYY-MM` for a year and a month. */
  function MesRef(year: string, m: nat): string
    requires m < 100
  {
    year + "-" + TwoDigits(m)
  }

  /** The pattern accepts exactly a four-digit year, a dash and a month
      from 01 to 12: every such text passes, and every text that passes is
      one. */
  lemma MesRefValid(year: string, m: nat)
    requires IsValidYear(year) && 1 <= m <= 12
    ensures IsValidMesRef(MesRef(year, m))
  {
    var s, t := MesRef(year, m), TwoDigits(m);
    assert s[..4] == year && s[4] == '-';
    assert s[5] == t[0] && s[6] == t[1];
    assert t[..1] == [t[0]] && Text.DigitsValue(t) == 10 * Text.DigitValue(t[0]) + Text.DigitValue(t[1]);
  }

  lemma ValidIsMesRef(s: string) returns (year: string, m: nat)
    requires IsValidMesRef(s)
    ensures IsValidYear(year) && 1 <= m <= 12 && s == MesRef(year, m)
  {
    year := s[..4];
    m := 10 * Text.DigitValue(s[5]) + Text.DigitValue(s[6]);
    assert s == year + "-" + s[5..];
    var t := TwoDigits(m);
    assert t == s[5..];
  }

  /** Months 01 and 12 are accepted; month 00 and month 13 are not. */
  lemma MesRefEdges()
    ensures !IsValidMesRef("2025-00") && !IsValidMesRef("2025-13")
    ensures IsValidMesRef("2025-01") && IsValidMesRef("2025-12")
  {
    assert "2025-01"[..4] == "2025";
    assert "2025-12"[..4] == "2025";
  }

  /** The home page's month: a valid `mes`, or else the first available
      month, or nothing when no month is available. */
  function CurrentMonth(mes: Option<string>, available: seq<string>): (r: Option<string>)
    ensures r.Some? ==> (mes.Some? && r.value == mes.value && IsValidMesRef(r.value)) || r.value in available
    ensures r.None? <==> !(mes.Some? && IsValidMesRef(mes.value)) && |available| == 0
    ensures mes.Some? && IsValidMesRef(mes.value) ==> r == mes
  {
    if mes.Some? && IsValidMesRef(mes.value) then mes
    else if |available| > 0 then Some(available[0])
    else None
  }

  /** An invalid `mes` counts as no `mes` at all. */
  lemma InvalidMonthIgnored(mes: string, available: seq<string>)
    requires !IsValidMesRef(mes)
    ensures CurrentMonth(Some(mes), available) == CurrentMonth(None, available)
    ensures |available| > 0 ==> CurrentMonth(Some(mes), available) == Some(available[0])
  {
  }

  /** The year preferred when `ano` is not usable. */
  const DefaultYear: string := "2025"

  /** The year of the statistics and map pages: a valid `ano` even when no
      data exists for it; otherwise 2025 if it is available; otherwise the
      first available year; and 2025 again when none is. */
  function CurrentYear(ano: Option<string>, available: seq<string>): (r: string)
    ensures ano.Some? && IsValidYear(ano.value) ==> r == ano.value
    ensures !(ano.Some? && IsValidYear(ano.value)) ==>
              && (DefaultYear in available ==> r == DefaultYear)
              && (DefaultYear !in available && |available| > 0 ==> r == available[0])
              && (|available| == 0 ==> r == DefaultYear)
  {
    if ano.Some? && ano.value != "" && IsValidYear(ano.value) then ano.value
    else if DefaultYear in available then DefaultYear
    else if |available| > 0 then available[0]
    else DefaultYear
  }

  /** The chosen year is the requested one, an available one, or the
      default when nothing is available; it is a valid year whenever the
      available years are. */
  lemma YearComesFromSomewhere(ano: Option<string>, available: seq<string>)
    ensures var r := CurrentYear(ano, available);
            (ano.Some? && r == ano.value) || r in available || (r == DefaultYear && |available| == 0)
    ensures (forall i | 0 <= i < |available| :: IsValidYear(available[i])) ==> IsValidYear(CurrentYear(ano, available))
  {
    assert IsValidYear(DefaultYear);
  }

  /** An accepted month has seven characters, and its first four are a
      year the other pages accept. */
  lemma MonthYearIsYear(s: string)
    requires IsValidMesRef(s)
    ensures |s| == 7 && IsValidYear(s[..4]) && CurrentYear(Some(s[..4]), []) == s[..4]
  {
  }
}

=== FILE: pagination.dfy ===
/** The pager under the ranking: the strip of page buttons with ellipses,
    the "showing a–b of n results" summary, and the previous and next
    buttons. */
module Pagination {
  import opened Options
  import Seqs
  import Numeric

  /** One entry of the strip: a page button or a `"..."` gap. */
  datatype PageItem = Num(n: int) | Ellipsis

  /** The buttons `lo, lo + 1, …, hi` (none when `lo > hi`). */
  function Run(lo: int, hi: int): (r: seq<PageItem>)
    ensures |r| == if lo <= hi then hi - lo + 1 else 0
    ensures forall i | 0 <= i < |r| :: r[i] == Num(lo + i)
    decreases hi - lo
  {
    if lo > hi then [] else [Num(lo)] + Run(lo + 1, hi)
  }

  /** Consecutive buttons differ by one. */
  predicate Adjacent(r: seq<PageItem>)
  {
    forall i | 0 <= i < |r| - 1 && r[i].Num? && r[i + 1].Num? :: r[i + 1].n == r[i].n + 1
  }

  /** Every gap sits between two buttons and hides at least one page. */
  predicate GapsHidePages(r: seq<PageItem>)
  {
    forall i | 0 <= i < |r| && r[i].Ellipsis? ::
      0 < i < |r| - 1 && r[i - 1].Num? && r[i + 1].Num? && r[i + 1].n >= r[i - 1].n + 2
  }

  /** The page numbers shown strictly increase from left to right. */
  predicate Increasing(r: seq<PageItem>)
  {
    forall i, j | 0 <= i < j < |r| && r[i].Num? && r[j].Num? :: r[i].n < r[j].n
  }

  /** `getPageNumbers()`: all pages when there are at most seven; otherwise
      the first and last page, the current page and its neighbours, and a
      gap on each side that hides pages. */
  function PageNumbers(current: int, total: int): (r: seq<PageItem>)
    ensures total <= 7 ==> |r| == Seqs.Max(0, total) && forall i | 0 <= i < |r| :: r[i] == Num(i + 1)
    ensures total > 7 ==> 3 <= |r| <= 7 && r[0] == Num(1) && r[|r| - 1] == Num(total)
    ensures Adjacent(r) && GapsHidePages(r)
  {
    if total <= 7 then Run(1, total)
    else
      var lead := if current > 3 then [Ellipsis] else [];
      var mid := Run(Seqs.Max(2, current - 1), Seqs.Min(total - 1, current + 1));
      var trail := if current < total - 2 then [Ellipsis] else [];
      var r := [Num(1)] + lead + mid + trail + [Num(total)];
      WindowShape(current, total, lead, mid, trail, r);
      r
  }

  lemma WindowShape(current: int, total: int, lead: seq<PageItem>, mid: seq<PageItem>, trail: seq<PageItem>, r: seq<PageItem>)
    requires total > 7
    requires lead == if current > 3 then [Ellipsis] else []
    requires mid == Run(Seqs.Max(2, current - 1), Seqs.Min(total - 1, current + 1))
    requires trail == if current < total - 2 then [Ellipsis] else []
    requires r == [Num(1)] + lead + mid + trail + [Num(total)]
    ensures 3 <= |r| <= 7 && Adjacent(r) && GapsHidePages(r)
  {
    var lo, hi := Seqs.Max(2, current - 1), Seqs.Min(total - 1, current + 1);
    var a := 1 + |lead|;
    var b := a + |mid|;
    WindowIndex(lead, mid, trail, r, lo, total);
    assert b - a == if lo <= hi then hi - lo + 1 else 0;
    forall i | 0 <= i < |r| - 1 && r[i].Num? && r[i + 1].Num?
      ensures r[i + 1].n == r[i].n + 1
    {
    }
    forall i | 0 <= i < |r| && r[i].Ellipsis?
      ensures 0 < i < |r| - 1 && r[i - 1].Num? && r[i + 1].Num? && r[i + 1].n >= r[i - 1].n + 2
    {
    }
  }

  /** Entry `i` of the strip `[1] + lead + lo..hi + trail + [total]`, where
      the run occupies indices `a` to `b - 1` of a strip of length `n`. */
  function WindowAt(total: int, lo: int, a: int, b: int, n: int, i: int): PageItem
  {
    if i == 0 then Num(1)
    else if i < a then Ellipsis
    else if i < b then Num(lo + i - a)
    else if i < n - 1 then Ellipsis
    else Num(total)
  }

  lemma WindowIndex(lead: seq<PageItem>, mid: seq<PageItem>, trail: seq<PageItem>, r: seq<PageItem>, lo: int, total: int)
    requires forall i | 0 <= i < |lead| :: lead[i] == Ellipsis
    requires forall i | 0 <= i < |trail| :: trail[i] == Ellipsis
    requires forall i | 0 <= i < |mid| :: mid[i] == Num(lo + i)
    requires r == [Num(1)] + lead + mid + trail + [Num(total)]
    ensures forall i | 0 <= i < |r| :: r[i] == WindowAt(total, lo, 1 + |lead|, 1 + |lead| + |mid|, |r|, i)
  {
  }

  /** Local order implies global order: with adjacent buttons one apart and
      gaps that skip pages, the buttons increase. */
  lemma {:induction false} LocalToIncreasing(r: seq<PageItem>, i: int, j: int)
    requires Adjacent(r) && GapsHidePages(r)
    requires 0 <= i < j < |r| && r[i].Num? && r[j].Num?
    ensures r[i].n < r[j].n
    decreases j - i
  {
    if r[j - 1].Num? {
      if i < j - 1 {
        LocalToIncreasing(r, i, j - 1);
      }
    } else {
      if i < j - 2 {
        LocalToIncreasing(r, i, j - 2);
      }
    }
  }

  /** The strip for more than seven pages, piece by piece. */
  lemma WindowParts(current: int, total: int)
    requires total > 7
    ensures var mid := Run(Seqs.Max(2, current - 1), Seqs.Min(total - 1, current + 1));
            PageNumbers(current, total)
            == [Num(1)] + (if current > 3 then [Ellipsis] else []) + mid
               + (if current < total - 2 then [Ellipsis] else []) + [Num(total)]
  {
  }

  lemma IncreasingStrip(r: seq<PageItem>)
    requires Adjacent(r) && GapsHidePages(r)
    ensures Increasing(r)
  {
    forall i, j | 0 <= i < j < |r| && r[i].Num? && r[j].Num?
      ensures r[i].n < r[j].n
    {
      LocalToIncreasing(r, i, j);
    }
  }

  lemma StripInRange(r: seq<PageItem>, total: int)
    requires Adjacent(r) && GapsHidePages(r) && |r| > 0
    requires r[0] == Num(1) && r[|r| - 1] == Num(total)
    ensures forall i | 0 <= i < |r| && r[i].Num? :: 1 <= r[i].n <= total
  {
    forall i | 0 <= i < |r| && r[i].Num?
      ensures 1 <= r[i].n <= total
    {
      if 0 < i {
        LocalToIncreasing(r, 0, i);
      }
      if i < |r| - 1 {
        LocalToIncreasing(r, i, |r| - 1);
      }
    }
  }

  lemma CurrentInStrip(current: int, total: int) returns (k: int)
    requires 1 <= current <= total
    ensures 0 <= k < |PageNumbers(current, total)| && PageNumbers(current, total)[k] == Num(current)
  {
    var r := PageNumbers(current, total);
    if total <= 7 {
      k := current - 1;
    } else if current == 1 {
      k := 0;
    } else if current == total {
      k := |r| - 1;
    } else {
      WindowParts(current, total);
      var lo := Seqs.Max(2, current - 1);
      var mid := Run(lo, Seqs.Min(total - 1, current + 1));
      var a := if current > 3 then 2 else 1;
      k := a + current - lo;
      assert r[k] == mid[current - lo];
    }
  }

  lemma GapFlags(current: int, total: int)
    requires 1 <= current <= total && total > 7
    ensures var r := PageNumbers(current, total);
            (r[1] == Ellipsis <==> current > 3) && (r[|r| - 2] == Ellipsis <==> current < total - 2)
  {
    var r := PageNumbers(current, total);
    WindowParts(current, total);
    var mid := Run(Seqs.Max(2, current - 1), Seqs.Min(total - 1, current + 1));
    assert |mid| > 0;
    assert r[1] == (if current > 3 then Ellipsis else mid[0]);
    assert r[|r| - 2] == (if current < total - 2 then Ellipsis else mid[|mid| - 1]);
  }

  /** On a page in range, the strip lists increasing pages within `1..total`,
      shows the current page exactly once, and has a leading gap exactly
      when the current page is past 3 and a trailing gap exactly when it is
      more than two pages before the last. */
  lemma CurrentPageShown(current: int, total: int)
    requires 1 <= current <= total
    ensures var r := PageNumbers(current, total);
            && Increasing(r)
            && (forall i | 0 <= i < |r| && r[i].Num? :: 1 <= r[i].n <= total)
            && (exists i | 0 <= i < |r| :: r[i] == Num(current))
            && (forall i, j | 0 <= i < |r| && 0 <= j < |r| && r[i] == Num(current) && r[j] == Num(current) :: i == j)
            && (total > 7 ==> (r[1] == Ellipsis <==> current > 3) && (r[|r| - 2] == Ellipsis <==> current < total - 2))
  {
    var r := PageNumbers(current, total);
    IncreasingStrip(r);
    StripInRange(r, total);
    var k := CurrentInStrip(current, total);
    if total > 7 {
      GapFlags(current, total);
    }
  }

  /** What the component draws. */
  datatype Pager = Pager(
    startItem: int,
    endItem: int,
    totalItems: int,
    items: seq<PageItem>,
    prevEnabled: bool,
    nextEnabled: bool)

  /** `<Pagination …/>`: nothing at all for a single page. */
  function Render(current: int, totalPages: int, totalItems: int, perPage: int): (r: Option<Pager>)
    ensures r.None? <==> totalPages <= 1
    ensures r.Some? ==> r.value.items == PageNumbers(current, totalPages)
  {
    if totalPages <= 1 then None
    else Some(Pager(
      (current - 1) * perPage + 1,
      Seqs.Min(current * perPage, totalItems),
      totalItems,
      PageNumbers(current, totalPages),
      current != 1,
      current != totalPages))
  }

  /** With `totalPages` the page count of `totalItems` items, the summary
      "start-end of total" on a page in range shows a non-empty run of items
      ending at the last item at the latest, a full page of them before the
      last page. */
  lemma ItemRange(current: int, totalPages: int, totalItems: int, perPage: int)
    requires perPage >= 1 && 1 <= current <= totalPages && totalPages > 1
    requires (totalPages - 1) * perPage < totalItems <= totalPages * perPage
    ensures var p := Render(current, totalPages, totalItems, perPage).value;
            && 1 <= p.startItem <= p.endItem <= totalItems
            && p.endItem - p.startItem < perPage
            && (current < totalPages ==> p.endItem - p.startItem + 1 == perPage)
  {
    var p := Render(current, totalPages, totalItems, perPage).value;
    Numeric.MulMonotone(current - 1, totalPages - 1, perPage);
    Numeric.MulSucc(current - 1, perPage);
    if current < totalPages {
      Numeric.MulMonotone(current, totalPages - 1, perPage);
    }
  }

  /** The previous and next buttons are enabled exactly when their target
      page exists, and every page button targets a page that exists. */
  lemma NavigationStaysInRange(current: int, totalPages: int, totalItems: int, perPage: int)
    requires 1 <= current <= totalPages
    ensures var r := Render(current, totalPages, totalItems, perPage);
            r.Some? ==>
              && (r.value.prevEnabled <==> 1 <= current - 1 <= totalPages)
              && (r.value.nextEnabled <==> 1 <= current + 1 <= totalPages)
              && (forall i | 0 <= i < |r.value.items| && r.value.items[i].Num? :: 1 <= r.value.items[i].n <= totalPages)
  {
    CurrentPageShown(current, totalPages);
  }
}

=== FILE: ratelimit.dfy ===
/** The per-client fixed-window rate limiter that guards `/api/` routes
    (src/middleware.ts).

    The limiter state is the map from client key to window plus the time of
    the last sweep. `Date.now()` becomes the explicit parameter `now`
    (milliseconds); the middleware runs on one event loop, so a request is
    one atomic transition `Step`. */
module RateLimit {
  import opened Options
  import Text
  import Numeric

  /** Requests admitted per window. */
  const RateLimit: int := 60
  /** Window length in milliseconds. */
  const WindowMs: int := 60000
  /** Minimum time between two sweeps of expired windows, in milliseconds. */
  const CleanupIntervalMs: int := 300000

  datatype Window = Window(count: int, resetAt: int)

  datatype Limiter = Limiter(windows: map<string, Window>, lastCleanup: int)

  /** What the middleware reads from a request: the path, the method and the
      `x-forwarded-for` header, if present. */
  datatype Request = Request(path: string, httpMethod: string, forwardedFor: Option<string>)

  datatype Response =
    | PassThrough                      // `NextResponse.next()` with no extra headers
    | Preflight                        // 204 with the CORS headers
    | Admitted                         // `NextResponse.next()` with the CORS headers
    | TooManyRequests(retryAfter: nat) // 429 with the CORS headers and `Retry-After`

  datatype Outcome = Outcome(limiter: Limiter, response: Response)

  const CorsHeaders: seq<(string, string)> := [
    ("Access-Control-Allow-Origin", "*"),
    ("Access-Control-Allow-Methods", "GET"),
    ("Cache-Control", "public, max-age=300, stale-while-revalidate=60")
  ]

  /** The HTTP status the middleware answers with itself, if any: 204 for a
      preflight and 429 (section 4 of RFC 6585) for a rejection. */
  function Status(r: Response): Option<int>
  {
    match r
    case Preflight => Some(204)
    case TooManyRequests(_) => Some(429)
    case _ => None
  }

  /** The headers the middleware adds: the CORS and cache headers on every
      `/api/` response, and on a rejection `Retry-After` in seconds
      (section 10.2.3 of RFC 9110). */
  function Headers(r: Response): (h: seq<(string, string)>)
    ensures r.PassThrough? <==> |h| == 0
    ensures !r.PassThrough? ==> |h| >= 3 && h[..3] == CorsHeaders
    ensures r.TooManyRequests? <==> |h| == 4
  {
    match r
    case PassThrough => []
    case TooManyRequests(s) => CorsHeaders + [("Retry-After", Text.NatToString(s))]
    case _ => CorsHeaders
  }

  /** The state when the module is loaded: no windows, last sweep now. */
  function Init(now: int): (l: Limiter)
    ensures l.windows == map[] && l.lastCleanup == now
  {
    Limiter(map[], now)
  }

  /** The client key: the first comma-separated entry of `x-forwarded-for`,
      trimmed, or `"unknown"` when the header is absent. */
  function ClientKey(forwardedFor: Option<string>): (k: string)
    ensures forwardedFor.None? ==> k == "unknown"
    ensures forwardedFor.Some? ==>
              exists n | Text.FirstFieldEnd(forwardedFor.value, ',', n) ::
                k == Text.Trim(forwardedFor.value[..n])
    ensures forwardedFor.Some? ==> ',' !in k
  {
    match forwardedFor
    case None => "unknown"
    case Some(h) =>
      var first := Text.Split(h, ',')[0];
      Text.SplitFirst(h, ',');
      Text.TrimWithout(first, ',');
      Text.Trim(first)
  }

  /** A window is over once `now` is strictly past its reset time. */
  predicate Expired(w: Window, now: int)
  {
    now > w.resetAt
  }

  /** `cleanup()`: drop exactly the expired windows. */
  function Cleanup(windows: map<string, Window>, now: int): (r: map<string, Window>)
    ensures forall k :: k in r <==> k in windows && !Expired(windows[k], now)
    ensures forall k | k in r :: r[k] == windows[k]
  {
    map k | k in windows && !Expired(windows[k], now) :: windows[k]
  }

  /** The sweep that runs at the start of an `/api/` request when more than
      five minutes have passed since the last one. */
  function MaybeCleanup(l: Limiter, now: int): (r: Limiter)
    ensures now - l.lastCleanup > CleanupIntervalMs ==>
              r == Limiter(Cleanup(l.windows, now), now)
    ensures now - l.lastCleanup <= CleanupIntervalMs ==> r == l
  {
    if now - l.lastCleanup > CleanupIntervalMs then Limiter(Cleanup(l.windows, now), now) else l
  }

  /** One request through the middleware at time `now`. */
  function Step(l: Limiter, req: Request, now: int): (o: Outcome)
    // paths outside /api/ pass through and leave the state alone
    ensures !Text.StartsWith(req.path, "/api/") ==> o == Outcome(l, PassThrough)
    // a preflight is answered without creating or counting a window
    ensures Text.StartsWith(req.path, "/api/") && req.httpMethod == "OPTIONS" ==>
              o == Outcome(MaybeCleanup(l, now), Preflight)
  {
    if !Text.StartsWith(req.path, "/api/") then Outcome(l, PassThrough)
    else
      var l1 := MaybeCleanup(l, now);
      if req.httpMethod == "OPTIONS" then Outcome(l1, Preflight)
      else Count(l1, ClientKey(req.forwardedFor), now)
  }

  /** The rate check of a counted request from client `key`, on the state
      after the sweep. */
  function Count(l1: Limiter, key: string, now: int): Outcome
  {
    if key !in l1.windows || Expired(l1.windows[key], now) then
      Outcome(l1.(windows := l1.windows[key := Window(1, now + WindowMs)]), Admitted)
    else if l1.windows[key].count >= RateLimit then
      var w := l1.windows[key];
      Outcome(l1, TooManyRequests(Numeric.CeilDiv(w.resetAt - now, 1000)))
    else
      var w := l1.windows[key];
      Outcome(l1.(windows := l1.windows[key := w.(count := w.count + 1)]), Admitted)
  }

  /** A counted `/api/` request (any method but `OPTIONS`). */
  predicate Counted(req: Request)
  {
    Text.StartsWith(req.path, "/api/") && req.httpMethod != "OPTIONS"
  }

  /** The window of client `key`, if it has one that has not expired. */
  function Live(windows: map<string, Window>, key: string, now: int): Option<Window>
  {
    if key in windows && !Expired(windows[key], now) then Some(windows[key]) else None
  }

  /** The window of the request's client after the sweep, if it has one. */
  function LiveWindow(l: Limiter, req: Request, now: int): Option<Window>
  {
    Live(MaybeCleanup(l, now).windows, ClientKey(req.forwardedFor), now)
  }

  /** A counted request is the rate check on the swept state. */
  lemma StepIsCount(l: Limiter, req: Request, now: int)
    requires Counted(req)
    ensures Step(l, req, now) == Count(MaybeCleanup(l, now), ClientKey(req.forwardedFor), now)
  {
  }

  /** The three outcomes of the rate check; see `StepCounted`. */
  lemma CountCases(l1: Limiter, key: string, now: int)
    ensures var o := Count(l1, key, now);
            match Live(l1.windows, key, now)
            case None =>
              o.response == Admitted &&
              o.limiter == l1.(windows := l1.windows[key := Window(1, now + WindowMs)])
            case Some(w) =>
              if w.count < RateLimit then
                o.response == Admitted &&
                o.limiter == l1.(windows := l1.windows[key := Window(w.count + 1, w.resetAt)])
              else
                o.limiter == l1 && o.response.TooManyRequests? &&
                o.response.retryAfter * 1000 - 1000 < w.resetAt - now <= o.response.retryAfter * 1000
  {
  }

  /** The three outcomes of a counted request. With no live window the
      request opens a fresh one with count 1 and is admitted; in a live
      window below the limit the count goes up by one and the request is
      admitted; at the limit it is rejected, the count stays, and the
      client is told to retry after the rest of the window, rounded up to
      whole seconds. */
  lemma StepCounted(l: Limiter, req: Request, now: int)
    requires Counted(req)
    ensures var o := Step(l, req, now);
            var key := ClientKey(req.forwardedFor);
            var l1 := MaybeCleanup(l, now);
            match LiveWindow(l, req, now)
            case None =>
              o.response == Admitted &&
              o.limiter == l1.(windows := l1.windows[key := Window(1, now + WindowMs)])
            case Some(w) =>
              if w.count < RateLimit then
                o.response == Admitted &&
                o.limiter == l1.(windows := l1.windows[key := Window(w.count + 1, w.resetAt)])
              else
                o.limiter == l1 && o.response.TooManyRequests? &&
                o.response.retryAfter * 1000 - 1000 < w.resetAt - now <= o.response.retryAfter * 1000
  {
    StepIsCount(l, req, now);
    CountCases(MaybeCleanup(l, now), ClientKey(req.forwardedFor), now);
  }

  /** Every stored window has a count between 1 and the limit. */
  predicate CountsInRange(l: Limiter)
  {
    forall k | k in l.windows :: 1 <= l.windows[k].count <= RateLimit
  }

  lemma StepKeepsCountsInRange(l: Limiter, req: Request, now: int)
    requires CountsInRange(l)
    ensures CountsInRange(Step(l, req, now).limiter)
  {
    var l1 := MaybeCleanup(l, now);
    assert CountsInRange(l1);
    var l2 := Step(l, req, now).limiter;
    if Counted(req) {
      StepCounted(l, req, now);
      var key := ClientKey(req.forwardedFor);
      forall k | k in l2.windows
        ensures 1 <= l2.windows[k].count <= RateLimit
      {
        if k != key {
          assert l2.windows[k] == l1.windows[k];
        }
      }
    }
  }

  /** No window ends more than one window length after `now`. */
  predicate ResetsWithin(l: Limiter, now: int)
  {
    forall k | k in l.windows :: l.windows[k].resetAt <= now + WindowMs
  }

  /** With time never going backwards, every window still ends within one
      window length, so `Retry-After` is at most 60 seconds. */
  lemma StepKeepsResetsWithin(l: Limiter, req: Request, now: int, later: int)
    requires ResetsWithin(l, now)
    requires now <= later
    ensures ResetsWithin(Step(l, req, now).limiter, later)
  {
    var l1 := MaybeCleanup(l, now);
    assert ResetsWithin(l1, now);
    if Counted(req) {
      StepIsCount(l, req, now);
      CountKeepsResetsWithin(l1, ClientKey(req.forwardedFor), now);
    }
  }

  lemma CountKeepsResetsWithin(l1: Limiter, key: string, now: int)
    requires ResetsWithin(l1, now)
    ensures ResetsWithin(Count(l1, key, now).limiter, now)
  {
  }

  lemma RetryAfterBounded(l: Limiter, req: Request, now: int)
    requires ResetsWithin(l, now)
    ensures var r := Step(l, req, now).response;
            r.TooManyRequests? ==> 0 <= r.retryAfter <= WindowMs / 1000
  {
    var r := Step(l, req, now).response;
    if r.TooManyRequests? {
      var w := LiveWindow(l, req, now).value;
      StepCounted(l, req, now);
      assert w.resetAt - now <= WindowMs;
    }
  }

  /** A request changes no other client's window; the only thing that can
      happen to one is the sweep removing it, and only once it expired. */
  lemma StepIsolatesClients(l: Limiter, req: Request, now: int, k: string)
    requires k != ClientKey(req.forwardedFor)
    ensures var w := Step(l, req, now).limiter.windows;
            (k in w ==> k in l.windows && w[k] == l.windows[k])
            && (k in l.windows && k !in w ==> Expired(l.windows[k], now)
                                              && now - l.lastCleanup > CleanupIntervalMs)
  {
    var o := Step(l, req, now);
    if Text.StartsWith(req.path, "/api/") {
      var l1 := MaybeCleanup(l, now);
      assert k in o.limiter.windows <==> k in l1.windows by {
        StepOnlyTouchesKey(l, req, now, k);
      }
      assert k in l1.windows ==> o.limiter.windows[k] == l1.windows[k] by {
        StepOnlyTouchesKey(l, req, now, k);
      }
    }
  }

  /** Past the sweep, a request only writes its own client's window. */
  lemma StepOnlyTouchesKey(l: Limiter, req: Request, now: int, k: string)
    requires Text.StartsWith(req.path, "/api/")
    requires k != ClientKey(req.forwardedFor)
    ensures var w, w1 := Step(l, req, now).limiter.windows, MaybeCleanup(l, now).windows;
            (k in w <==> k in w1) && (k in w1 ==> w[k] == w1[k])
  {
    if req.httpMethod != "OPTIONS" {
      StepIsCount(l, req, now);
      CountOnlyTouchesKey(MaybeCleanup(l, now), ClientKey(req.forwardedFor), now, k);
    }
  }

  lemma CountOnlyTouchesKey(l1: Limiter, key: string, now: int, k: string)
    requires k != key
    ensures var w := Count(l1, key, now).limiter.windows;
            (k in w <==> k in l1.windows) && (k in l1.windows ==> w[k] == l1.windows[k])
  {
  }

  /** The sweep runs exactly when more than five minutes have passed since
      the previous one on an `/api/` request, and records when it ran. */
  lemma CleanupSchedule(l: Limiter, req: Request, now: int)
    requires Text.StartsWith(req.path, "/api/")
    ensures var l2 := Step(l, req, now).limiter;
            (now - l.lastCleanup > CleanupIntervalMs ==> l2.lastCleanup == now)
            && (now - l.lastCleanup <= CleanupIntervalMs ==> l2.lastCleanup == l.lastCleanup)
  {
  }

  /** The state and responses after a client sends `req` at each of the
      given times in turn. */
  function Run(l: Limiter, req: Request, times: seq<int>): (o: (Limiter, seq<Response>))
    ensures |o.1| == |times|
  {
    if |times| == 0 then (l, [])
    else
      var prev := Run(l, req, times[..|times| - 1]);
      var o := Step(prev.0, req, times[|times| - 1]);
      (o.limiter, prev.1 + [o.response])
  }

  /** Times in one window opened at `times[0]`, never going backwards. */
  predicate OneWindow(times: seq<int>)
  {
    && (forall i | 0 < i < |times| :: times[i - 1] <= times[i])
    && (forall i | 0 <= i < |times| :: times[i] <= times[0] + WindowMs)
  }

  /** A client with no live window that sends up to 60 counted requests
      inside one window has all of them admitted, and its window then
      counts them. */
  lemma {:induction false} BurstAdmitted(l: Limiter, req: Request, times: seq<int>)
    requires Counted(req)
    requires 0 < |times| <= RateLimit
    requires OneWindow(times)
    requires LiveWindow(l, req, times[0]).None?
    ensures var o := Run(l, req, times);
            var key := ClientKey(req.forwardedFor);
            && (forall i | 0 <= i < |times| :: o.1[i] == Admitted)
            && key in o.0.windows
            && o.0.windows[key] == Window(|times|, times[0] + WindowMs)
  {
    var key := ClientKey(req.forwardedFor);
    if |times| == 1 {
      StepCounted(l, req, times[0]);
    } else {
      var init := times[..|times| - 1];
      var now := times[|times| - 1];
      assert OneWindow(init);
      BurstAdmitted(l, req, init);
      var prev := Run(l, req, init);
      assert prev.0.windows[key] == Window(|init|, times[0] + WindowMs);
      assert LiveWindow(prev.0, req, now) == Some(Window(|init|, times[0] + WindowMs));
      StepCounted(prev.0, req, now);
      var o := Run(l, req, times);
      assert o.1 == prev.1 + [Admitted];
      forall i | 0 <= i < |times|
        ensures o.1[i] == Admitted
      {
        if i < |init| {
          assert o.1[i] == prev.1[i];
        }
      }
    }
  }

  /** ... and the 61st request in the same window is rejected with a
      positive `Retry-After`, leaving the count at 60. */
  lemma BurstRejected(l: Limiter, req: Request, times: seq<int>)
    requires Counted(req)
    requires |times| == RateLimit + 1
    requires OneWindow(times)
    requires times[RateLimit] < times[0] + WindowMs
    requires LiveWindow(l, req, times[0]).None?
    ensures var o := Run(l, req, times);
            var key := ClientKey(req.forwardedFor);
            && (forall i | 0 <= i < RateLimit :: o.1[i] == Admitted)
            && o.1[RateLimit].TooManyRequests? && o.1[RateLimit].retryAfter > 0
            && key in o.0.windows && o.0.windows[key].count == RateLimit
  {
    var key := ClientKey(req.forwardedFor);
    var init := times[..RateLimit];
    var now := times[RateLimit];
    assert OneWindow(init);
    BurstAdmitted(l, req, init);
    var prev := Run(l, req, init);
    assert LiveWindow(prev.0, req, now) == Some(Window(RateLimit, times[0] + WindowMs));
    StepCounted(prev.0, req, now);
    var o := Run(l, req, times);
    assert times[..|times| - 1] == init;
    assert o.1 == prev.1 + [o.1[RateLimit]];
    forall i | 0 <= i < RateLimit
      ensures o.1[i] == Admitted
    {
      assert o.1[i] == prev.1[i];
    }
  }

  /** Once the window has expired the next counted request is admitted and
      starts a new window with count 1, whatever the old count was. */
  lemma AfterExpiryRestarts(l: Limiter, req: Request, now: int)
    requires Counted(req)
    requires ClientKey(req.forwardedFor) in l.windows
    requires Expired(l.windows[ClientKey(req.forwardedFor)], now)
    ensures var o := Step(l, req, now);
            o.response == Admitted &&
            o.limiter.windows[ClientKey(req.forwardedFor)] == Window(1, now + WindowMs)
  {
    StepCounted(l, req, now);
  }
}

=== FILE: records.dfy ===
/** The compensation record of one member of the judiciary or the public
    prosecution for one reference month, and the invariants the dataset
    keeps. Money is in integer cents: R$ 46.366,19 is 4636619. */
module Records {
  import Seqs

  /** The constitutional pay cap (`TETO_CONSTITUCIONAL`), in cents. */
  const Teto: int := 4636619

  /** One month of a member's pay history. */
  datatype MonthlyRecord = MonthlyRecord(mes: string, remuneracaoBase: int, remuneracaoTotal: int)

  datatype Member = Member(
    id: int,
    nome: string,
    cargo: string,
    orgao: string,
    estado: string,
    remuneracaoBase: int,
    verbasIndenizatorias: int,
    direitosEventuais: int,
    direitosPessoais: int,
    remuneracaoTotal: int,
    acimaTeto: int,
    percentualAcimaTeto: real,
    mesReferencia: string,
    historico: seq<MonthlyRecord>)

  /** A member as the listing endpoint returns it: every field but
      `historico`. */
  datatype MemberSummary = MemberSummary(
    id: int,
    nome: string,
    cargo: string,
    orgao: string,
    estado: string,
    remuneracaoBase: int,
    verbasIndenizatorias: int,
    direitosEventuais: int,
    direitosPessoais: int,
    remuneracaoTotal: int,
    acimaTeto: int,
    percentualAcimaTeto: real,
    mesReferencia: string)

  /** The amount above the cap: `max(0, total − TETO)`. */
  function AboveCap(total: int): (a: int)
    ensures a >= 0 && a >= total - Teto
    ensures a == 0 || a == total - Teto
  {
    if total > Teto then total - Teto else 0
  }

  /** The amount above the cap as a percentage of the cap. */
  function PercentOfCap(acima: int): real
  {
    (acima as real) / (Teto as real) * 100.0
  }

  function ComponentSum(m: Member): int
  {
    m.remuneracaoBase + m.verbasIndenizatorias + m.direitosEventuais + m.direitosPessoais
  }

  /** The derived fields agree with the components: the total is the sum of
      the four components and the excess is `max(0, total − TETO)` (exact in
      cents, which is what "within 0.01" means for amounts in reais with two
      decimals). */
  predicate WellFormed(m: Member)
  {
    && m.remuneracaoTotal == ComponentSum(m)
    && m.acimaTeto == AboveCap(m.remuneracaoTotal)
    && m.percentualAcimaTeto == PercentOfCap(m.acimaTeto)
  }

  /** Builds a record from its components, deriving the total, the excess
      and its percentage. */
  function MakeMember(id: int, nome: string, cargo: string, orgao: string, estado: string,
                      base: int, verbas: int, eventuais: int, pessoais: int,
                      mes: string, historico: seq<MonthlyRecord>): (m: Member)
    ensures WellFormed(m)
    ensures m.remuneracaoTotal == base + verbas + eventuais + pessoais
    ensures m.acimaTeto > 0 <==> base + verbas + eventuais + pessoais > Teto
    ensures m.id == id && m.nome == nome && m.cargo == cargo && m.orgao == orgao && m.estado == estado
    ensures m.historico == historico
  {
    var total := base + verbas + eventuais + pessoais;
    var acima := AboveCap(total);
    Member(id, nome, cargo, orgao, estado, base, verbas, eventuais, pessoais,
           total, acima, PercentOfCap(acima), mes, historico)
  }

  /** Every well-formed record is the one `MakeMember` builds from its own
      components. */
  lemma WellFormedIsMade(m: Member)
    requires WellFormed(m)
    ensures m == MakeMember(m.id, m.nome, m.cargo, m.orgao, m.estado,
                            m.remuneracaoBase, m.verbasIndenizatorias,
                            m.direitosEventuais, m.direitosPessoais,
                            m.mesReferencia, m.historico)
  {
  }

  /** A record exceeds the cap exactly when its total does. */
  lemma AboveCapIffTotal(m: Member)
    requires WellFormed(m)
    ensures m.acimaTeto > 0 <==> m.remuneracaoTotal > Teto
    ensures m.acimaTeto <= m.remuneracaoTotal || m.remuneracaoTotal < 0
  {
  }

  /** `({ historico, ...rest }) => rest` */
  function Strip(m: Member): (r: MemberSummary)
    ensures Restore(r, m.historico) == m
  {
    MemberSummary(m.id, m.nome, m.cargo, m.orgao, m.estado, m.remuneracaoBase,
                  m.verbasIndenizatorias, m.direitosEventuais, m.direitosPessoais,
                  m.remuneracaoTotal, m.acimaTeto, m.percentualAcimaTeto, m.mesReferencia)
  }

  /** Puts a history back on a summary. */
  function Restore(s: MemberSummary, historico: seq<MonthlyRecord>): Member
  {
    Member(s.id, s.nome, s.cargo, s.orgao, s.estado, s.remuneracaoBase,
           s.verbasIndenizatorias, s.direitosEventuais, s.direitosPessoais,
           s.remuneracaoTotal, s.acimaTeto, s.percentualAcimaTeto, s.mesReferencia, historico)
  }

  /** Stripping loses only the history: restoring it gives the record back,
      and two records with the same summary differ at most in history. */
  lemma StripLosesOnlyHistory(m: Member, n: Member)
    ensures Restore(Strip(m), m.historico) == m
    ensures Strip(m) == Strip(n) <==> m.(historico := n.historico) == n
  {
  }

  /** The record exceeds the cap. */
  predicate IsAbove(m: Member)
  {
    m.acimaTeto > 0
  }

  /** Sort keys: the total and the excess, as reals for the comparators. */
  function TotalKey(m: Member): real { m.remuneracaoTotal as real }

  function AcimaKey(m: Member): real { m.acimaTeto as real }

  /** `mockMembers.map(m => m.id)` has no repeats. */
  predicate UniqueIds(s: seq<Member>)
  {
    forall i, j | 0 <= i < j < |s| :: s[i].id != s[j].id
  }

  /** Non-increasing by `remuneracaoTotal`, checked pairwise on neighbours
      as the dataset test does. */
  predicate SortedByTotalDesc(s: seq<Member>)
  {
    forall i | 1 <= i < |s| :: s[i - 1].remuneracaoTotal >= s[i].remuneracaoTotal
  }

  /** The neighbour check implies the order between any two positions. */
  lemma {:induction false} SortedByTotalDescPairwise(s: seq<Member>, i: int, j: int)
    requires SortedByTotalDesc(s)
    requires 0 <= i <= j < |s|
    ensures s[i].remuneracaoTotal >= s[j].remuneracaoTotal
    decreases j - i
  {
    if i < j {
      SortedByTotalDescPairwise(s, i, j - 1);
    }
  }

  /** The dataset as the application loads it. */
  predicate ValidDataset(s: seq<Member>)
  {
    && UniqueIds(s)
    && SortedByTotalDesc(s)
    && forall i | 0 <= i < |s| :: WellFormed(s[i])
  }
}

=== FILE: routes.dfy ===
/** The two aggregate endpoints: `GET /api/v1/orgaos` lists one row per
    organisation with its member list reduced to ids, and `GET
    /api/v1/estados` lists the per-state statistics; both order the rows by
    descending total excess. */
module Routes {
  import Seqs
  import Sorting
  import Grouping
  import opened Records
  import opened Aggregation

  /** An organisation row of the response: the statistics with `membros`
      replaced by their ids. */
  datatype OrgaoRow = OrgaoRow(
    orgao: string,
    estado: string,
    totalMembros: int,
    membrosAcimaTeto: int,
    totalAcimaTeto: int,
    percentualAcimaTeto: real,
    transparenciaScore: int,
    totalMembrosIds: seq<int>)

  /** The members' ids, in order. */
  function Ids(ms: seq<Member>): (ids: seq<int>)
    ensures |ids| == |ms|
    ensures forall i | 0 <= i < |ms| :: ids[i] == ms[i].id
  {
    seq(|ms|, i requires 0 <= i < |ms| => ms[i].id)
  }

  /** `({ membros, ...rest }) => ({ ...rest, totalMembrosIds: membros.map(m => m.id) })` */
  function Reshape(st: OrgaoStats): OrgaoRow
  {
    OrgaoRow(st.orgao, st.estado, st.totalMembros, st.membrosAcimaTeto, st.totalAcimaTeto,
             st.percentualAcimaTeto, st.transparenciaScore, Ids(st.membros))
  }

  /** Puts a member list back on a row. */
  function Unshape(row: OrgaoRow, membros: seq<Member>): OrgaoStats
  {
    OrgaoStats(row.orgao, row.estado, row.totalMembros, row.membrosAcimaTeto, row.totalAcimaTeto,
               row.percentualAcimaTeto, row.transparenciaScore, membros)
  }

  /** Reshaping keeps every field but `membros`, and keeps of `membros`
      exactly the ids, in order: putting the members back gives the
      statistics back, and two statistics reshape alike exactly when they
      differ at most in members with the same ids. */
  lemma ReshapeKeepsAllButMembers(st: OrgaoStats, other: OrgaoStats)
    ensures Unshape(Reshape(st), st.membros) == st
    ensures var r := Reshape(st);
            && r.orgao == st.orgao && r.estado == st.estado && r.totalMembros == st.totalMembros
            && r.membrosAcimaTeto == st.membrosAcimaTeto && r.totalAcimaTeto == st.totalAcimaTeto
            && r.percentualAcimaTeto == st.percentualAcimaTeto && r.transparenciaScore == st.transparenciaScore
    ensures |Reshape(st).totalMembrosIds| == |st.membros|
    ensures forall i | 0 <= i < |st.membros| :: Reshape(st).totalMembrosIds[i] == st.membros[i].id
    ensures Reshape(st) == Reshape(other) <==>
              st.(membros := other.membros) == other && Ids(st.membros) == Ids(other.membros)
  {
  }

  function ReshapeAll(rows: seq<OrgaoStats>): (r: seq<OrgaoRow>)
    ensures |r| == |rows|
    ensures forall i | 0 <= i < |rows| :: r[i] == Reshape(rows[i])
  {
    seq(|rows|, i requires 0 <= i < |rows| => Reshape(rows[i]))
  }

  function RowAcima(r: OrgaoRow): real { r.totalAcimaTeto as real }

  function RowOrgao(r: OrgaoRow): string { r.orgao }

  /** The `data` of `GET /api/v1/orgaos`: the reshaped statistics of every
      organisation, ordered by non-increasing total excess. */
  function OrgaosData(s: seq<Member>, score: (string, seq<Member>) -> Score): (d: seq<OrgaoRow>)
    ensures multiset(d) == multiset(ReshapeAll(StatsByOrgao(s, score)))
    ensures forall i, j | 0 <= i < j < |d| :: d[i].totalAcimaTeto >= d[j].totalAcimaTeto
  {
    var rows := ReshapeAll(StatsByOrgao(s, score));
    Sorting.SortDescByKey(rows, RowAcima);
    Sorting.Sort(rows, Sorting.Desc(RowAcima))
  }

  /** The sort is stable: organisations with the same total excess keep
      their first-seen order. */
  lemma OrgaosDataStable(s: seq<Member>, score: (string, seq<Member>) -> Score)
    ensures Sorting.IsStableSortOf(OrgaosData(s, score), ReshapeAll(StatsByOrgao(s, score)), Sorting.Desc(RowAcima))
  {
    Sorting.DescIsTotalPreorder(RowAcima);
    Sorting.SortIsStableSort(ReshapeAll(StatsByOrgao(s, score)), Sorting.Desc(RowAcima));
  }

    /** Before sorting, row `i` is the `i`-th organisation in first-seen
      order. */
  lemma RowKeys(s: seq<Member>, score: (string, seq<Member>) -> Score)
    ensures var rows, ks := ReshapeAll(StatsByOrgao(s, score)), Grouping.Keys(s, OrgaoOf);
            |rows| == |ks| && forall i | 0 <= i < |rows| :: RowOrgao(rows[i]) == ks[i]
  {
    var rows, ks := ReshapeAll(StatsByOrgao(s, score)), Grouping.Keys(s, OrgaoOf);
    forall i | 0 <= i < |rows|
      ensures RowOrgao(rows[i]) == ks[i]
    {
      UnsortedRow(s, score, i);
    }
  }

/** Exactly one row per organisation that occurs in the records, and none
      for any other name. */
  lemma OrgaosOneRowPerKey(s: seq<Member>, score: (string, seq<Member>) -> Score, k: string)
    ensures |Grouping.Group(OrgaosData(s, score), RowOrgao, k)| ==
            if Grouping.Occurs(s, OrgaoOf, k) then 1 else 0
  {
    var rows := ReshapeAll(StatsByOrgao(s, score));
    var ks := Grouping.Keys(s, OrgaoOf);
    RowKeys(s, score);
    Grouping.GroupOfDistinctKeys(rows, RowOrgao, k);
    assert Grouping.Occurs(rows, RowOrgao, k) <==> k in ks by {
      if k in ks {
        var i :| 0 <= i < |ks| && ks[i] == k;
        assert RowOrgao(rows[i]) == k;
      }
    }
    Seqs.FilterPermutation(OrgaosData(s, score), rows, Grouping.HasKey(RowOrgao, k));
  }

  /** Every row is the reshaped statistics of its organisation: the fields
      are those of `getStatsByOrgao`, the state is that of one of the
      organisation's records, and the ids are those of its records, largest
      total first. */
  lemma OrgaoRowIsReshaped(s: seq<Member>, score: (string, seq<Member>) -> Score, row: OrgaoRow)
    requires row in OrgaosData(s, score)
    ensures Grouping.Occurs(s, OrgaoOf, row.orgao)
    ensures row == Reshape(OrgaoStatsOf(row.orgao, Grouping.Group(s, OrgaoOf, row.orgao), score))
    ensures exists m | m in s :: m.orgao == row.orgao && m.estado == row.estado
  {
    var i := RowIndex(s, score, row);
    UnsortedRow(s, score, i);
    OrgaoEstadoFromRecords(s, score, i);
  }

  /** Where a row of the response sits before sorting. */
  lemma RowIndex(s: seq<Member>, score: (string, seq<Member>) -> Score, row: OrgaoRow) returns (i: int)
    requires row in OrgaosData(s, score)
    ensures 0 <= i < |ReshapeAll(StatsByOrgao(s, score))| && ReshapeAll(StatsByOrgao(s, score))[i] == row
  {
    i := Seqs.IndexInPermutation(row, OrgaosData(s, score), ReshapeAll(StatsByOrgao(s, score)));
  }

  lemma UnsortedRow(s: seq<Member>, score: (string, seq<Member>) -> Score, i: int)
    requires 0 <= i < |Grouping.Keys(s, OrgaoOf)|
    ensures var k := Grouping.Keys(s, OrgaoOf)[i];
            && Grouping.Occurs(s, OrgaoOf, k)
            && |ReshapeAll(StatsByOrgao(s, score))| == |Grouping.Keys(s, OrgaoOf)|
            && ReshapeAll(StatsByOrgao(s, score))[i] == Reshape(OrgaoStatsOf(k, Grouping.Group(s, OrgaoOf, k), score))
  {
  }

  function EstadoAcima(st: EstadoStats): real { st.totalAcimaTeto as real }

  /** The `data` of `GET /api/v1/estados`: the per-state statistics, ordered
      by non-increasing total excess. */
  function EstadosData(s: seq<Member>): (d: seq<EstadoStats>)
    ensures multiset(d) == multiset(StatsByEstado(s))
    ensures forall i, j | 0 <= i < j < |d| :: d[i].totalAcimaTeto >= d[j].totalAcimaTeto
  {
    Sorting.SortDescByKey(StatsByEstado(s), EstadoAcima);
    Sorting.Sort(StatsByEstado(s), Sorting.Desc(EstadoAcima))
  }

  /** The sort is stable: states with the same total excess keep their
      first-seen order. */
  lemma EstadosDataStable(s: seq<Member>)
    ensures Sorting.IsStableSortOf(EstadosData(s), StatsByEstado(s), Sorting.Desc(EstadoAcima))
  {
    Sorting.DescIsTotalPreorder(EstadoAcima);
    Sorting.SortIsStableSort(StatsByEstado(s), Sorting.Desc(EstadoAcima));
  }

  /** Every row is the unmodified statistics object stored under its state,
      and there is one row per distinct state. */
  lemma EstadosRows(s: seq<Member>)
    ensures forall r | r in EstadosData(s) :: r.estado in EstadoMap(s) && EstadoMap(s)[r.estado] == r
    ensures |EstadosData(s)| == |Grouping.KeyValues(s, EstadoOf)|
  {
    var d := EstadosData(s);
    var r := StatsByEstado(s);
    forall x | x in d
      ensures x.estado in EstadoMap(s) && EstadoMap(s)[x.estado] == x
    {
      assert x in multiset(r);
      EstadoMapValues(s);
    }
    assert |d| == |multiset(d)| == |multiset(r)| == |r|;
    EstadosCount(s);
  }
}

=== FILE: salarybar.dfy ===
/** The horizontal pay bar of one record: four coloured segments, one per
    pay component, on a scale that always leaves room for the cap marker,
    and the base and extras shares of the total.

    Widths and positions are percentages of the bar's length, as reals;
    amounts are integer cents, so every ratio below is the same as the
    ratio of the amounts in reais. */
module SalaryBar {
  import Numeric
  import Records

  const Cap: real := Records.Teto as real

  /** The scale: the cap times 1.1, or the total when it is larger. */
  function MaxValue(total: int): (m: real)
    ensures m >= total as real && m >= 1.1 * Cap
    ensures m == total as real || m == 1.1 * Cap
  {
    if total as real >= 1.1 * Cap then total as real else 1.1 * Cap
  }

  /** `value / maxValue * 100` */
  function Width(value: int, maxValue: real): (w: real)
    requires maxValue > 0.0
    ensures w * maxValue == value as real * 100.0
  {
    value as real / maxValue * 100.0
  }

  /** `Math.round(part / total * 100)` for a positive total, else 0. */
  function Share(part: int, total: int): (p: int)
    ensures total <= 0 ==> p == 0
    ensures total > 0 ==> p as real - 0.5 <= Numeric.Percent(part, total) < p as real + 0.5
  {
    if total > 0 then Numeric.Round(Numeric.Percent(part, total)) else 0
  }

  datatype Segment = Segment(key: string, value: int, width: real)

  datatype Bar = Bar(
    maxValue: real,
    penduricalhos: int,
    segments: seq<Segment>,
    tetoPosition: real,
    basePercent: int,
    extrasPercent: int)

  /** A segment as wide as its value's share of a scale `m`. */
  predicate Fits(s: Segment, m: real)
  {
    s.width * m == s.value as real * 100.0
  }

  /** Four segments whose widths are their values as percentages of a
      positive scale. */
  predicate Scaled(b: Bar)
  {
    && |b.segments| == 4 && b.maxValue > 0.0
    && Fits(b.segments[0], b.maxValue) && Fits(b.segments[1], b.maxValue)
    && Fits(b.segments[2], b.maxValue) && Fits(b.segments[3], b.maxValue)
  }

  /** The key of the `k`-th segment, in the fixed order base, verbas,
      eventuais, pessoais. */
  function SegmentKey(k: int): string
  {
    match k
    case 0 => "base" case 1 => "verbas" case 2 => "eventuais" case _ => "pessoais"
  }

  /** One segment per amount, each as wide as its share of the scale. */
  function Segments(values: seq<int>, m: real): (r: seq<Segment>)
    requires m > 0.0
    ensures |r| == |values|
    ensures forall k | 0 <= k < |r| ::
              && r[k].key == SegmentKey(k) && r[k].value == values[k]
              && Fits(r[k], m)
  {
    seq(|values|, k requires 0 <= k < |values| => Segment(SegmentKey(k), values[k], Width(values[k], m)))
  }

  /** `SalaryBar(...)`: the scale, the extras (`penduricalhos`), the four
      segments in the fixed order base, verbas, eventuais, pessoais, the
      cap marker's position and the two shares. */
  function Draw(base: int, verbas: int, eventuais: int, pessoais: int, total: int): (b: Bar)
    ensures b.penduricalhos == verbas + eventuais + pessoais
    ensures |b.segments| == 4
    ensures b.segments[0].key == "base" && b.segments[1].key == "verbas"
    ensures b.segments[2].key == "eventuais" && b.segments[3].key == "pessoais"
    ensures b.segments[0].value == base && b.segments[1].value == verbas
    ensures b.segments[2].value == eventuais && b.segments[3].value == pessoais
    ensures b.maxValue == MaxValue(total) && Scaled(b)
  {
    var m := MaxValue(total);
    var extras := verbas + eventuais + pessoais;
    Bar(m, extras,
        Segments([base, verbas, eventuais, pessoais], m),
        Width(Records.Teto, m),
        Share(base, total),
        Share(extras, total))
  }

  /** The cap marker sits at most at `100 / 1.1` per cent, so it is always
      inside the bar, short of its end. */
  lemma CapMarkerInside(base: int, verbas: int, eventuais: int, pessoais: int, total: int)
    ensures var b := Draw(base, verbas, eventuais, pessoais, total);
            0.0 < b.tetoPosition && b.tetoPosition * 1.1 <= 100.0 && b.tetoPosition < 100.0
  {
    var b := Draw(base, verbas, eventuais, pessoais, total);
    var m, t := b.maxValue, b.tetoPosition;
    assert t * m == Cap * 100.0;
    assert t > 0.0;
    assert t * (1.1 * Cap) <= t * m;
    assert (t * 1.1) * Cap <= 100.0 * Cap;
  }

  /** The segments' widths add up to the sum of the components over the
      scale, so a bar whose scale is at least that sum (as `Draw` makes it
      when the total is the sum of the components) is never overfull. */
  lemma SegmentsFit(b: Bar)
    requires Scaled(b)
    ensures var w := b.segments;
            var sum := w[0].width + w[1].width + w[2].width + w[3].width;
            var all := w[0].value + w[1].value + w[2].value + w[3].value;
            && sum * b.maxValue == all as real * 100.0
            && (all as real <= b.maxValue ==> sum <= 100.0)
  {
    var m, w := b.maxValue, b.segments;
    var sum := w[0].width + w[1].width + w[2].width + w[3].width;
    var v0, v1, v2, v3 := w[0].value as real, w[1].value as real, w[2].value as real, w[3].value as real;
    var all := w[0].value + w[1].value + w[2].value + w[3].value;
    Numeric.FourParts(w[0].width, w[1].width, w[2].width, w[3].width, v0, v1, v2, v3, m, 100.0);
    Numeric.Congr(v0 + v1 + v2 + v3, all as real, 100.0);
    if all as real <= m {
      Numeric.ScaleCompare(m, all as real, 100.0);
      Numeric.Commute(m, 100.0);
      Numeric.ScaleCompare(100.0, sum, m);
    }
  }

  /** Both shares are 0 for a total of 0 or less; for a positive total made
      of its components, they add up to 100 or, when both round up, 101. */
  lemma SharesAddUp(base: int, verbas: int, eventuais: int, pessoais: int, total: int)
    ensures var b := Draw(base, verbas, eventuais, pessoais, total);
            && (total <= 0 ==> b.basePercent == 0 && b.extrasPercent == 0)
            && (total > 0 && total == base + verbas + eventuais + pessoais ==>
                  b.basePercent + b.extrasPercent == 100 || b.basePercent + b.extrasPercent == 101)
  {
    var b := Draw(base, verbas, eventuais, pessoais, total);
    if total > 0 && total == base + verbas + eventuais + pessoais {
      ShareSum(base, b.penduricalhos, total);
    }
  }

  /** Two parts of a positive whole have percentages adding up to 100. */
  lemma ShareSum(a: int, b: int, t: int)
    requires t > 0 && a + b == t
    ensures Share(a, t) + Share(b, t) == 100 || Share(a, t) + Share(b, t) == 101
  {
    var x, y := Numeric.Percent(a, t), Numeric.Percent(b, t);
    var w := t as real;
    Numeric.PartsOfWhole(x, y, a as real, b as real, w, 100.0);
    Numeric.ScaleCompare(x + y, 100.0, w);
    Numeric.ScaleCompare(100.0, x + y, w);
  }

  /** 101 happens: R$ 5.000 of base and R$ 3.000 of extras are 62.5% and
      37.5%, shown as 63% and 38%. */
  lemma SharesCanOvershoot()
    ensures var b := Draw(500000, 300000, 0, 0, 800000);
            b.basePercent == 63 && b.extrasPercent == 38
  {
    var b := Draw(500000, 300000, 0, 0, 800000);
    assert Numeric.Percent(500000, 800000) == 62.5;
    assert Numeric.Percent(300000, 800000) == 37.5;
  }
}

=== FILE: searchbar.dfy ===
/** The search box of the home page: the typed query, the autocomplete
    suggestions, whether the dropdown is open and which suggestion the
    arrow keys have selected.

    The fuzzy matcher is a parameter `search`: given the accent-stripped
    query it returns the ids of the matching records, best first. The
    debounced `onSearch(query)` call is driven by a timer and is not part
    of this model; the immediate `onSearch("")` of the clear button is. */
module SearchBar {
  import opened Options
  import Seqs
  import Accents
  import Text

  /** Shorter queries clear the suggestions instead of searching. */
  const MinQueryLength: int := 2
  /** The `limit` passed to the matcher. */
  const MaxSuggestions: int := 6
  /** `selectedIndex` when no suggestion is selected. */
  const NoSelection: int := -1

  datatype Search = Search(query: string, suggestions: seq<int>, open: bool, selected: int)

  /** The first render. */
  const Initial: Search := Search("", [], false, NoSelection)

  /** What an event hands to the page: the record chosen with
      `onSelectMember`, and the query passed to `onSearch`. */
  datatype Outcome = Outcome(state: Search, chosen: Option<int>, searched: Option<string>)

  /** The dropdown is only open over some suggestions, and the selection is
      either none or one of the suggestions. After the clear button the
      selection may be stale, but then there is nothing to select. */
  predicate Valid(s: Search)
  {
    && (s.open ==> |s.suggestions| > 0)
    && NoSelection <= s.selected
    && (|s.suggestions| > 0 ==> s.selected < |s.suggestions|)
  }

  /** `handleSearch(value)`: the input changed. The length test counts
      UTF-16 code units, so a single emoji already searches. */
  function HandleSearch(s: Search, value: string, search: string -> seq<int>): (r: Search)
    ensures r.query == value && r.selected == NoSelection
    ensures Text.Utf16Length(value) < MinQueryLength ==> r.suggestions == [] && !r.open
    ensures Text.Utf16Length(value) >= MinQueryLength ==>
              && r.suggestions <= search(Accents.RemoveAccents(value))
              && |r.suggestions| == Seqs.Min(MaxSuggestions, |search(Accents.RemoveAccents(value))|)
              && (r.open <==> |r.suggestions| > 0)
  {
    if Text.Utf16Length(value) < MinQueryLength then Search(value, [], false, NoSelection)
    else
      var results := search(Accents.RemoveAccents(value));
      var top := results[..Seqs.Min(MaxSuggestions, |results|)];
      Search(value, top, |top| > 0, NoSelection)
  }

  datatype Key = ArrowDown | ArrowUp | Enter | Escape | OtherKey

  /** `handleKeyDown(e)`: nothing happens while the dropdown is closed. */
  function HandleKeyDown(s: Search, key: Key): (r: Outcome)
    requires Valid(s)
    ensures !s.open ==> r == Outcome(s, None, None)
    ensures r.state.query == s.query && r.state.suggestions == s.suggestions
    ensures r.chosen.Some? <==> s.open && key == Enter && s.selected >= 0
    ensures r.chosen.Some? ==> r.chosen.value in s.suggestions && !r.state.open
    ensures r.searched.None?
  {
    if !s.open then Outcome(s, None, None)
    else match key
      case ArrowDown =>
        Outcome(s.(selected := Seqs.Min(s.selected + 1, |s.suggestions| - 1)), None, None)
      case ArrowUp =>
        Outcome(s.(selected := Seqs.Max(s.selected - 1, NoSelection)), None, None)
      case Enter =>
        if s.selected >= 0 then Outcome(s.(open := false), Some(s.suggestions[s.selected]), None)
        else Outcome(s, None, None)
      case Escape => Outcome(s.(open := false), None, None)
      case OtherKey => Outcome(s, None, None)
  }

  /** The events the component reacts to. */
  datatype Event =
    | Typed(value: string)
    | Pressed(key: Key)
    | Focused
    | ClickedOutside
    | Picked(index: int)
    | Cleared

  /** A suggestion can only be clicked while the dropdown shows it, and the
      clear button is only rendered over a non-empty query. */
  predicate Possible(s: Search, e: Event)
  {
    && (e.Picked? ==> s.open && 0 <= e.index < |s.suggestions|)
    && (e.Cleared? ==> s.query != "")
  }

  function Step(s: Search, e: Event, search: string -> seq<int>): (r: Outcome)
    requires Valid(s) && Possible(s, e)
  {
    match e
    case Typed(value) => Outcome(HandleSearch(s, value, search), None, None)
    case Pressed(key) => HandleKeyDown(s, key)
    case Focused => Outcome(if |s.suggestions| > 0 then s.(open := true) else s, None, None)
    case ClickedOutside => Outcome(s.(open := false), None, None)
    case Picked(i) => Outcome(s.(open := false), Some(s.suggestions[i]), None)
    case Cleared => Outcome(s.(query := "", suggestions := [], open := false), None, Some(""))
  }

  /** Every event keeps the dropdown and the selection consistent; a record
      is only ever chosen from the suggestions, and choosing one closes the
      dropdown. */
  lemma StepKeepsValid(s: Search, e: Event, search: string -> seq<int>)
    requires Valid(s) && Possible(s, e)
    ensures var r := Step(s, e, search);
            && Valid(r.state)
            && (r.chosen.Some? ==> r.chosen.value in s.suggestions && !r.state.open)
            && (r.searched.Some? <==> e == Cleared)
  {
    if e.Typed? {
      var r := HandleSearch(s, e.value, search);
      assert Valid(r);
    }
  }

  /** The clear button empties the query and the suggestions, closes the
      dropdown and reports an empty search at once; it does not reset the
      selection, which is harmless only because nothing is left to select. */
  lemma ClearEmpties(s: Search, search: string -> seq<int>)
    requires Valid(s) && Possible(s, Cleared)
    ensures var r := Step(s, Cleared, search);
            && r.state.query == "" && r.state.suggestions == [] && !r.state.open
            && r.searched == Some("") && r.chosen.None?
            && r.state.selected == s.selected
            && HandleKeyDown(r.state, Enter) == Outcome(r.state, None, None)
  {
  }

  /** Any sequence of events from the first render keeps the state valid. */
  function Run(s: Search, events: seq<Event>, search: string -> seq<int>): (r: Option<Search>)
    requires Valid(s)
    ensures r.Some? ==> Valid(r.value)
    decreases |events|
  {
    if |events| == 0 then Some(s)
    else if !Possible(s, events[0]) then None
    else
      StepKeepsValid(s, events[0], search);
      Run(Step(s, events[0], search).state, events[1..], search)
  }

  /** Down then up, or up then down, comes back to the same selection while
      the dropdown is open and the first move was not stopped at an end. */
  lemma ArrowsUndo(s: Search)
    requires Valid(s) && s.open
    ensures s.selected < |s.suggestions| - 1 ==>
              HandleKeyDown(HandleKeyDown(s, ArrowDown).state, ArrowUp).state == s
    ensures s.selected >= 0 ==>
              HandleKeyDown(HandleKeyDown(s, ArrowUp).state, ArrowDown).state == s
  {
  }

  /** Holding an arrow key stops at the ends: the last suggestion going down
      and no selection going up. */
  lemma ArrowsStopAtEnds(s: Search)
    requires Valid(s) && s.open
    ensures s.selected == |s.suggestions| - 1 ==> HandleKeyDown(s, ArrowDown).state == s
    ensures s.selected == NoSelection ==> HandleKeyDown(s, ArrowUp).state == s
  {
  }

  /** A query shorter than two UTF-16 code units never opens the dropdown,
      and a longer one opens it exactly when the matcher finds something. */
  lemma OpenIffMatches(s: Search, value: string, search: string -> seq<int>)
    ensures HandleSearch(s, value, search).open <==>
              Text.Utf16Length(value) >= MinQueryLength && |search(Accents.RemoveAccents(value))| > 0
  {
  }

  /** Two characters always search, a single emoji does too, and a single
      character of the Basic Multilingual Plane never does. */
  lemma ShortQueries(s: Search, c: char, d: char, search: string -> seq<int>)
    ensures HandleSearch(s, [c, d], search).suggestions
              == search(Accents.RemoveAccents([c, d]))[..Seqs.Min(MaxSuggestions, |search(Accents.RemoveAccents([c, d]))|)]
    ensures Text.Astral(c) ==> HandleSearch(s, [c], search).open == (|search(Accents.RemoveAccents([c]))| > 0)
    ensures !Text.Astral(c) ==> HandleSearch(s, [c], search).suggestions == [] && !HandleSearch(s, [c], search).open
  {
    assert Text.Utf16Length([c]) == (if Text.Astral(c) then 2 else 1) by {
      assert [c][1..] == [];
    }
  }
}

=== FILE: seqs.dfy ===
/** Sequence helpers shared by the whole model: order-preserving filtering,
    integer sums, and the index rules of JavaScript's `Array.prototype.slice`. */
module Seqs {

  function Min(a: int, b: int): int { if a <= b then a else b }
  function Max(a: int, b: int): int { if a >= b then a else b }

  /** The elements of `s` that satisfy `p`, in their original order
      (JavaScript's `Array.prototype.filter`). */
  function Filter<T>(s: seq<T>, p: T -> bool): (r: seq<T>)
    ensures |r| <= |s|
    ensures forall i :: 0 <= i < |r| ==> r[i] in s && p(r[i])
    ensures forall i :: 0 <= i < |s| && p(s[i]) ==> s[i] in r
    ensures multiset(r) <= multiset(s)
  {
    if |s| == 0 then []
    else
      assert s == [s[0]] + s[1..];
      (if p(s[0]) then [s[0]] else []) + Filter(s[1..], p)
  }

  lemma FilterAppend<T>(a: seq<T>, b: seq<T>, p: T -> bool)
    ensures Filter(a + b, p) == Filter(a, p) + Filter(b, p)
  {
    if |a| == 0 {
      assert a + b == b;
    } else {
      assert (a + b)[1..] == a[1..] + b;
      FilterAppend(a[1..], b, p);
    }
  }

  /** Filters by two tests that agree everywhere give the same result. */
  lemma {:induction false} FilterExt<T>(s: seq<T>, p: T -> bool, q: T -> bool)
    requires forall x :: p(x) == q(x)
    ensures Filter(s, p) == Filter(s, q)
  {
    if |s| > 0 {
      FilterExt(s[1..], p, q);
    }
  }

  /** Filters by two tests that agree on every element give the same result. */
  lemma {:induction false} FilterExtOn<T>(s: seq<T>, p: T -> bool, q: T -> bool)
    requires forall x | x in s :: p(x) == q(x)
    ensures Filter(s, p) == Filter(s, q)
  {
    if |s| > 0 {
      FilterExtOn(s[1..], p, q);
    }
  }

  /** Filtering twice is filtering once by the conjunction. */
  lemma {:induction false} FilterFilter<T>(s: seq<T>, p: T -> bool, q: T -> bool, pq: T -> bool)
    requires forall x :: pq(x) == (p(x) && q(x))
    ensures Filter(Filter(s, p), q) == Filter(s, pq)
  {
    if |s| > 0 {
      FilterFilter(s[1..], p, q, pq);
      FilterAppend(if p(s[0]) then [s[0]] else [], Filter(s[1..], p), q);
    }
  }

  /** Filtering with a predicate that holds of no element gives nothing. */
  lemma {:induction false} FilterNone<T>(s: seq<T>, p: T -> bool)
    requires forall i | 0 <= i < |s| :: !p(s[i])
    ensures Filter(s, p) == []
  {
    if |s| > 0 {
      assert forall i | 0 <= i < |s[1..]| :: s[1..][i] == s[i + 1];
      FilterNone(s[1..], p);
    }
  }

  /** When no element from index `k` on passes, at most `k` elements do. */
  lemma FilterNoneAfter<T>(s: seq<T>, p: T -> bool, k: nat)
    requires k <= |s|
    requires forall i | k <= i < |s| :: !p(s[i])
    ensures |Filter(s, p)| <= k
  {
    var head, tail := s[..k], s[k..];
    assert Filter(tail, p) == [] by {
      assert forall i | 0 <= i < |tail| :: tail[i] == s[k + i];
      FilterNone(tail, p);
    }
    assert s == head + tail;
    FilterAppend(head, tail, p);
  }

  /** When no element before index `k` passes, at most `|s| - k` do. */
  lemma FilterNoneBefore<T>(s: seq<T>, p: T -> bool, k: nat)
    requires k <= |s|
    requires forall i | 0 <= i < k :: !p(s[i])
    ensures |Filter(s, p)| <= |s| - k
  {
    var head, tail := s[..k], s[k..];
    assert Filter(head, p) == [] by {
      assert forall i | 0 <= i < |head| :: head[i] == s[i];
      FilterNone(head, p);
    }
    assert s == head + tail;
    FilterAppend(head, tail, p);
  }

  /** Filtering with a predicate that holds of every element changes nothing. */
  lemma {:induction false} FilterAll<T>(s: seq<T>, p: T -> bool)
    requires forall x :: x in s ==> p(x)
    ensures Filter(s, p) == s
  {
    if |s| > 0 {
      FilterAll(s[1..], p);
    }
  }

  /** Multiset union is commutative. */
  lemma MultisetUnionCommutes<T>(a: multiset<T>, b: multiset<T>)
    ensures a + b == b + a
  {
  }

  lemma SplitAt<T>(t: seq<T>, j: nat)
    requires j < |t|
    ensures t == t[..j] + ([t[j]] + t[j + 1..])
  {
  }

  /** Moving a middle block to the end keeps the multiset. */
  lemma MultisetRearrange<T>(a: seq<T>, b: seq<T>, c: seq<T>)
    ensures multiset(a + (b + c)) == multiset(a + c) + multiset(b)
  {
    var ma, mb, mc := multiset(a), multiset(b), multiset(c);
    assert multiset(a + (b + c)) == ma + (mb + mc);
    assert multiset(a + c) == ma + mc;
    MultisetUnionCommutes(mb, mc);
  }

  lemma FilterAround<T>(t: seq<T>, j: nat, p: T -> bool)
    requires j < |t|
    ensures Filter(t, p) ==
            Filter(t[..j], p) + ((if p(t[j]) then [t[j]] else []) + Filter(t[j + 1..], p))
    ensures Filter(t[..j] + t[j + 1..], p) == Filter(t[..j], p) + Filter(t[j + 1..], p)
  {
    var left, right := t[..j], t[j + 1..];
    SplitAt(t, j);
    FilterAppend(left, [t[j]] + right, p);
    FilterAppend([t[j]], right, p);
    FilterAppend(left, right, p);
    assert Filter([t[j]], p) == (if p(t[j]) then [t[j]] else []);
  }

  /** Taking one element out of a sequence takes it out of the filtered result. */
  lemma FilterRemoveAt<T>(t: seq<T>, j: nat, p: T -> bool)
    requires j < |t|
    ensures multiset(Filter(t, p)) ==
            multiset(Filter(t[..j] + t[j + 1..], p)) + multiset(if p(t[j]) then [t[j]] else [])
  {
    FilterAround(t, j, p);
    MultisetRearrange(Filter(t[..j], p), if p(t[j]) then [t[j]] else [], Filter(t[j + 1..], p));
  }

  /** Taking the head of `s` and a matching element out of a permutation
      `t` of `s` leaves permutations of each other. */
  lemma RemoveMatch<T>(s: seq<T>, t: seq<T>) returns (j: nat)
    requires multiset(s) == multiset(t) && |s| > 0
    ensures j < |t| && t[j] == s[0]
    ensures multiset(t[..j] + t[j + 1..]) == multiset(s[1..])
  {
    var a := s[0];
    assert a in multiset(t);
    j :| 0 <= j < |t| && t[j] == a;
    assert t == t[..j] + [a] + t[j + 1..];
    assert multiset(t[..j] + t[j + 1..]) == multiset(t) - multiset{a};
    assert s == [a] + s[1..];
  }

  /** What survives a filter depends only on the multiset of the input. */
  lemma {:induction false} FilterPermutation<T>(s: seq<T>, t: seq<T>, p: T -> bool)
    requires multiset(s) == multiset(t)
    ensures multiset(Filter(s, p)) == multiset(Filter(t, p))
    ensures |Filter(s, p)| == |Filter(t, p)|
  {
    if |s| == 0 {
      assert |t| == |multiset(t)| == 0;
    } else {
      var j := RemoveMatch(s, t);
      var rest := t[..j] + t[j + 1..];
      FilterPermutation(s[1..], rest, p);
      FilterRemoveAt(t, j, p);
      var fa := if p(s[0]) then [s[0]] else [];
      assert Filter(s, p) == fa + Filter(s[1..], p);
      MultisetUnionCommutes(multiset(fa), multiset(Filter(rest, p)));
    }
    assert |Filter(s, p)| == |multiset(Filter(s, p))|;
    assert |Filter(t, p)| == |multiset(Filter(t, p))|;
  }

  /** An element of a sequence has a position in any permutation of it. */
  lemma IndexInPermutation<T>(x: T, a: seq<T>, b: seq<T>) returns (i: int)
    requires multiset(a) == multiset(b) && x in a
    ensures 0 <= i < |b| && b[i] == x
  {
    assert x in multiset(b);
    i :| 0 <= i < |b| && b[i] == x;
  }

  /** `Σ f(x)` over `s` (a `reduce((acc, x) => acc + f(x), 0)`). */
  function Sum<T>(s: seq<T>, f: T -> int): int
  {
    if |s| == 0 then 0 else f(s[0]) + Sum(s[1..], f)
  }

  lemma {:induction false} SumAppend<T>(a: seq<T>, b: seq<T>, f: T -> int)
    ensures Sum(a + b, f) == Sum(a, f) + Sum(b, f)
  {
    if |a| == 0 {
      assert a + b == b;
    } else {
      assert (a + b)[1..] == a[1..] + b;
      SumAppend(a[1..], b, f);
    }
  }

  /** Counting by filter is summing the indicator. */
  lemma {:induction false} FilterCount<T>(s: seq<T>, p: T -> bool, ind: T -> int)
    requires forall x :: ind(x) == if p(x) then 1 else 0
    ensures |Filter(s, p)| == Sum(s, ind)
  {
    if |s| > 0 {
      FilterCount(s[1..], p, ind);
    }
  }

  /** Summing the constant 1 counts. */
  lemma {:induction false} SumOnes<T>(s: seq<T>, one: T -> int)
    requires forall x :: one(x) == 1
    ensures Sum(s, one) == |s|
  {
    if |s| > 0 {
      SumOnes(s[1..], one);
    }
  }

  lemma {:induction false} SumNonNegative<T>(s: seq<T>, f: T -> int)
    requires forall x :: x in s ==> f(x) >= 0
    ensures Sum(s, f) >= 0
  {
    if |s| > 0 {
      SumNonNegative(s[1..], f);
    }
  }

  /** A sum is determined by the multiset of the summed elements. */
  lemma {:induction false} SumPermutation<T>(s: seq<T>, t: seq<T>, f: T -> int)
    requires multiset(s) == multiset(t)
    ensures Sum(s, f) == Sum(t, f)
  {
    if |s| == 0 {
      assert |t| == |multiset(t)| == 0;
    } else {
      var j := RemoveMatch(s, t);
      SumPermutation(s[1..], t[..j] + t[j + 1..], f);
      SumRemoveAt(t, j, f);
    }
  }

  /** Taking one element out of a sequence takes its value out of the sum. */
  lemma SumRemoveAt<T>(t: seq<T>, j: nat, f: T -> int)
    requires j < |t|
    ensures Sum(t, f) == f(t[j]) + Sum(t[..j] + t[j + 1..], f)
  {
    SplitAt(t, j);
    SumAppend(t[..j], [t[j]] + t[j + 1..], f);
    SumAppend([t[j]], t[j + 1..], f);
    SumAppend(t[..j], t[j + 1..], f);
  }

  /** The start or end position that `slice` actually uses for an index `i`
      into a sequence of length `len`: negative indices count from the end,
      and both ends are clamped to `[0, len]`. */
  function SliceIndex(len: nat, i: int): (r: nat)
    ensures r <= len
    ensures 0 <= i ==> r == Min(i, len)
    ensures i < 0 ==> r == Max(len + i, 0)
  {
    if i < 0 then (if len + i < 0 then 0 else len + i)
    else if i > len then len
    else i
  }

  /** `s.slice(start, end)` in JavaScript. */
  function Slice<T>(s: seq<T>, start: int, end: int): (r: seq<T>)
    ensures |r| <= |s|
    ensures 0 <= start && 0 <= end ==> |r| == Max(0, Min(end, |s|) - Min(start, |s|))
    ensures 0 <= start ==> forall i :: 0 <= i < |r| ==> start + i < |s| && r[i] == s[start + i]
  {
    var a := SliceIndex(|s|, start);
    var b := SliceIndex(|s|, end);
    if a >= b then [] else s[a..b]
  }

  /** All elements distinct. */
  ghost predicate Distinct<T>(s: seq<T>)
  {
    forall i, j :: 0 <= i < j < |s| ==> s[i] != s[j]
  }
}

=== FILE: sorting.dfy ===
/** Stable sorting by a comparator.

    Every ordering step of the dashboard is a call of `Array.prototype.sort`
    with a comparator, which ECMAScript requires to be stable. Here a
    comparator is a relation `le`: `le(a, b)` holds when `a` may be placed
    before `b` (for a JavaScript comparator `cmp`, `cmp(a, b) <= 0`). For a
    total preorder, a stable sort's result is fully determined: it is a
    permutation of the input, ordered by `le`, in which elements that `le`
    ranks equal keep their input order. `Sort` computes that result by
    insertion, and `StableSortUnique` shows that any other stable sort
    produces the same sequence. */
module Sorting {

  ghost predicate Total<T(!new)>(le: (T, T) -> bool)
  {
    forall a, b :: le(a, b) || le(b, a)
  }

  ghost predicate Transitive<T(!new)>(le: (T, T) -> bool)
  {
    forall a, b, c :: le(a, b) && le(b, c) ==> le(a, c)
  }

  ghost predicate TotalPreorder<T(!new)>(le: (T, T) -> bool)
  {
    Total(le) && Transitive(le)
  }

  /** `le` ranks `a` and `b` equal. */
  predicate Tied<T>(le: (T, T) -> bool, a: T, b: T)
  {
    le(a, b) && le(b, a)
  }

  /** `s` is ordered by `le`: each element may precede every later one. */
  ghost predicate SortedBy<T>(le: (T, T) -> bool, s: seq<T>)
  {
    forall i, j :: 0 <= i < j < |s| ==> le(s[i], s[j])
  }

  /** The elements of `s` that `le` ranks equal to `v`, in their order in `s`. */
  function Ties<T>(s: seq<T>, le: (T, T) -> bool, v: T): seq<T>
  {
    if |s| == 0 then []
    else (if Tied(le, s[0], v) then [s[0]] else []) + Ties(s[1..], le, v)
  }

  /** What a stable sort of `s` by `le` promises of its result `r`. */
  ghost predicate IsStableSortOf<T(!new)>(r: seq<T>, s: seq<T>, le: (T, T) -> bool)
  {
    && multiset(r) == multiset(s)
    && SortedBy(le, r)
    && forall v :: Ties(r, le, v) == Ties(s, le, v)
  }

  /** Places `x` before the first element it may precede. */
  function Insert<T>(x: T, s: seq<T>, le: (T, T) -> bool): (r: seq<T>)
    ensures |r| == |s| + 1
    ensures multiset(r) == multiset(s) + multiset{x}
  {
    if |s| == 0 then [x]
    else if le(x, s[0]) then [x] + s
    else
      assert s == [s[0]] + s[1..];
      [s[0]] + Insert(x, s[1..], le)
  }

  /** Insertion sort; the head of the input is inserted into the sorted
      tail, in front of every element it ties with. */
  function Sort<T>(s: seq<T>, le: (T, T) -> bool): (r: seq<T>)
    ensures |r| == |s|
    ensures multiset(r) == multiset(s)
  {
    if |s| == 0 then []
    else
      assert s == [s[0]] + s[1..];
      Insert(s[0], Sort(s[1..], le), le)
  }

  lemma {:induction false} InsertSorted<T(!new)>(x: T, s: seq<T>, le: (T, T) -> bool)
    requires TotalPreorder(le)
    requires SortedBy(le, s)
    ensures SortedBy(le, Insert(x, s, le))
  {
    if |s| > 0 && !le(x, s[0]) {
      var tail := s[1..];
      InsertSorted(x, tail, le);
      var r := Insert(x, s, le);
      assert r == [s[0]] + Insert(x, tail, le);
      assert le(s[0], x);
      forall j | 1 <= j < |r|
        ensures le(r[0], r[j])
      {
        assert r[j] in multiset(Insert(x, tail, le));
        assert r[j] == x || r[j] in tail;
      }
    }
  }

  lemma TiesCons<T>(y: T, w: seq<T>, le: (T, T) -> bool, v: T)
    ensures Ties([y] + w, le, v) == (if Tied(le, y, v) then [y] else []) + Ties(w, le, v)
  {
    assert ([y] + w)[1..] == w;
  }

  lemma {:induction false} InsertTies<T(!new)>(x: T, s: seq<T>, le: (T, T) -> bool, v: T)
    requires Transitive(le)
    ensures Ties(Insert(x, s, le), le, v) == (if Tied(le, x, v) then [x] else []) + Ties(s, le, v)
  {
    var tx := if Tied(le, x, v) then [x] else [];
    if |s| == 0 {
      TiesCons(x, [], le, v);
    } else if le(x, s[0]) {
      TiesCons(x, s, le, v);
    } else {
      var t0 := if Tied(le, s[0], v) then [s[0]] else [];
      var rest := Ties(s[1..], le, v);
      var ins := Insert(x, s[1..], le);
      assert Ties(ins, le, v) == tx + rest by {
        InsertTies(x, s[1..], le, v);
      }
      assert Ties(Insert(x, s, le), le, v) == t0 + Ties(ins, le, v) by {
        assert Insert(x, s, le) == [s[0]] + ins;
        TiesCons(s[0], ins, le, v);
      }
      assert Ties(s, le, v) == t0 + rest by {
        assert s == [s[0]] + s[1..];
        TiesCons(s[0], s[1..], le, v);
      }
      // `x` and `s[0]` cannot both tie with `v`, or `x` would tie with `s[0]`
      assert t0 == [] || tx == [] by {
        TiesExclusive(le, x, s[0], v);
      }
      SwapEmpty(t0, tx, rest);
    }
  }

  /** Two elements that `le` puts in different orders cannot both tie with
      the same `v`. */
  lemma TiesExclusive<T(!new)>(le: (T, T) -> bool, x: T, y: T, v: T)
    requires Transitive(le) && !le(x, y)
    ensures !(Tied(le, x, v) && Tied(le, y, v))
  {
  }

  lemma SwapEmpty<T>(a: seq<T>, b: seq<T>, r: seq<T>)
    requires a == [] || b == []
    ensures a + (b + r) == b + (a + r)
  {
    if a == [] {
      assert a + (b + r) == b + r;
      assert a + r == r;
    } else {
      assert b + r == r;
      assert b + (a + r) == a + r;
    }
  }

  /** `Sort` is a stable sort. */
  lemma {:induction false} SortIsStableSort<T(!new)>(s: seq<T>, le: (T, T) -> bool)
    requires TotalPreorder(le)
    ensures IsStableSortOf(Sort(s, le), s, le)
  {
    if |s| > 0 {
      SortIsStableSort(s[1..], le);
      InsertSorted(s[0], Sort(s[1..], le), le);
      forall v
        ensures Ties(Sort(s, le), le, v) == Ties(s, le, v)
      {
        InsertTies(s[0], Sort(s[1..], le), le, v);
      }
    }
  }

  /** Two stable sorts of the same input agree: so `Sort` is exactly the
      order that JavaScript's stable `Array.prototype.sort` produces. */
  lemma {:induction false} StableSortUnique<T(!new)>(r1: seq<T>, r2: seq<T>, s: seq<T>, le: (T, T) -> bool)
    requires TotalPreorder(le)
    requires IsStableSortOf(r1, s, le) && IsStableSortOf(r2, s, le)
    ensures r1 == r2
  {
    SortedTiesUnique(r1, r2, le);
  }

  /** Two sorted permutations of each other start with tied elements. */
  lemma SortedHeadsTie<T(!new)>(r1: seq<T>, r2: seq<T>, le: (T, T) -> bool)
    requires TotalPreorder(le)
    requires multiset(r1) == multiset(r2) && |r1| > 0
    requires SortedBy(le, r1) && SortedBy(le, r2)
    ensures |r2| > 0 && Tied(le, r1[0], r2[0])
  {
    assert |r2| == |multiset(r2)| == |r1|;
    var a, b := r1[0], r2[0];
    assert a in multiset(r2) && b in multiset(r1);
    var k :| 0 <= k < |r2| && r2[k] == a;
    var m :| 0 <= m < |r1| && r1[m] == b;
    assert le(b, b) || le(b, b);
    assert le(a, a) || le(a, a);
    assert le(b, a);
    assert le(a, b);
  }

  lemma HeadsEqual<T>(r1: seq<T>, r2: seq<T>, le: (T, T) -> bool)
    requires |r1| > 0 && |r2| > 0
    requires le(r1[0], r1[0]) && Tied(le, r2[0], r1[0])
    requires Ties(r1, le, r1[0]) == Ties(r2, le, r1[0])
    ensures r1[0] == r2[0]
  {
    var a := r1[0];
    assert r1 == [a] + r1[1..] && r2 == [r2[0]] + r2[1..];
    TiesCons(a, r1[1..], le, a);
    TiesCons(r2[0], r2[1..], le, a);
  }

  lemma TiesTail<T>(r1: seq<T>, r2: seq<T>, le: (T, T) -> bool, v: T)
    requires |r1| > 0 && |r2| > 0 && r1[0] == r2[0]
    requires Ties(r1, le, v) == Ties(r2, le, v)
    ensures Ties(r1[1..], le, v) == Ties(r2[1..], le, v)
  {
    var t0 := if Tied(le, r1[0], v) then [r1[0]] else [];
    assert Ties(r1, le, v) == t0 + Ties(r1[1..], le, v);
    assert Ties(r2, le, v) == t0 + Ties(r2[1..], le, v);
    assert Ties(r1[1..], le, v) == Ties(r1, le, v)[|t0|..];
    assert Ties(r2[1..], le, v) == Ties(r2, le, v)[|t0|..];
  }

  lemma TiesTails<T(!new)>(r1: seq<T>, r2: seq<T>, le: (T, T) -> bool)
    requires |r1| > 0 && |r2| > 0 && r1[0] == r2[0]
    requires forall v :: Ties(r1, le, v) == Ties(r2, le, v)
    ensures forall v :: Ties(r1[1..], le, v) == Ties(r2[1..], le, v)
  {
    forall v
      ensures Ties(r1[1..], le, v) == Ties(r2[1..], le, v)
    {
      TiesTail(r1, r2, le, v);
    }
  }

  lemma {:induction false} SortedTiesUnique<T(!new)>(r1: seq<T>, r2: seq<T>, le: (T, T) -> bool)
    requires TotalPreorder(le)
    requires multiset(r1) == multiset(r2)
    requires SortedBy(le, r1) && SortedBy(le, r2)
    requires forall v :: Ties(r1, le, v) == Ties(r2, le, v)
    ensures r1 == r2
  {
    if |r1| == 0 {
      assert |r2| == |multiset(r2)| == 0;
    } else {
      SortedHeadsTie(r1, r2, le);
      var a := r1[0];
      assert le(a, a) || le(a, a);
      HeadsEqual(r1, r2, le);
      TiesTails(r1, r2, le);
      SortedTail(r1, le);
      SortedTail(r2, le);
      assert r1 == [a] + r1[1..] && r2 == [a] + r2[1..];
      assert multiset(r1[1..]) == multiset(r1) - multiset{a};
      assert multiset(r2[1..]) == multiset(r2) - multiset{a};
      SortedTiesUnique(r1[1..], r2[1..], le);
    }
  }

  lemma SortedTail<T>(r: seq<T>, le: (T, T) -> bool)
    requires SortedBy(le, r) && |r| > 0
    ensures SortedBy(le, r[1..])
  {
    forall i, j | 0 <= i < j < |r| - 1
      ensures le(r[1..][i], r[1..][j])
    {
      assert r[1..][i] == r[i + 1] && r[1..][j] == r[j + 1];
    }
  }

  /** The comparator `(a, b) => key(b) - key(a)`: descending by `key`. */
  function Desc<T>(key: T -> real): (T, T) -> bool
  {
    (a, b) => key(a) >= key(b)
  }

  /** The comparator `(a, b) => key(a) - key(b)`: ascending by `key`. */
  function Asc<T>(key: T -> real): (T, T) -> bool
  {
    (a, b) => key(a) <= key(b)
  }

  lemma DescIsTotalPreorder<T(!new)>(key: T -> real)
    ensures TotalPreorder(Desc(key))
  {
  }

  lemma AscIsTotalPreorder<T(!new)>(key: T -> real)
    ensures TotalPreorder(Asc(key))
  {
  }

  /** Sorting descending by a key: the result is a permutation, the key never
      increases along it, and items with equal keys keep their input order. */
  lemma SortDescByKey<T(!new)>(s: seq<T>, key: T -> real)
    ensures multiset(Sort(s, Desc(key))) == multiset(s)
    ensures forall i, j :: 0 <= i < j < |s| ==> key(Sort(s, Desc(key))[i]) >= key(Sort(s, Desc(key))[j])
    ensures forall v :: Ties(Sort(s, Desc(key)), Desc(key), v) == Ties(s, Desc(key), v)
  {
    DescIsTotalPreorder(key);
    SortIsStableSort(s, Desc(key));
  }

  /** Sorting ascending by a key: a permutation along which the key never decreases. */
  lemma SortAscByKey<T(!new)>(s: seq<T>, key: T -> real)
    ensures multiset(Sort(s, Asc(key))) == multiset(s)
    ensures forall i, j :: 0 <= i < j < |s| ==> key(Sort(s, Asc(key))[i]) <= key(Sort(s, Asc(key))[j])
  {
    AscIsTotalPreorder(key);
    SortIsStableSort(s, Asc(key));
  }

  /** Cutting a descending sort after `n` places keeps the `n` largest: an
      element not among them has a key no larger than the last one kept. */
  lemma {:induction false} PrefixOfDescIsTop<T(!new)>(s: seq<T>, key: T -> real, n: int, x: T)
    requires 0 < n <= |s| && x in s
    ensures x in Sort(s, Desc(key))[..n] || key(x) <= key(Sort(s, Desc(key))[n - 1])
  {
    var r := Sort(s, Desc(key));
    SortDescByKey(s, key);
    assert x in multiset(r);
    var j :| 0 <= j < |r| && r[j] == x;
    if j < n {
      assert r[..n][j] == x;
    }
  }
}

=== FILE: statemap.dfy ===
/** The map page: the states ranked by a chosen figure, the national totals
    and the link from a state's row to the listing filtered by that state. */
module StateMap {
  import opened Options
  import Seqs
  import Sorting
  import Text
  import opened Records
  import opened Aggregation

  /** `sortedStates`: the per-state statistics ordered by non-increasing
      `metric`, ties in first-encounter order. */
  function SortedStates(s: seq<Member>, metric: Metric): (r: seq<EstadoStats>)
    ensures multiset(r) == multiset(StatsByEstado(s))
    ensures forall i, j | 0 <= i < j < |r| :: EstadoMetric(metric)(r[i]) >= EstadoMetric(metric)(r[j])
  {
    Sorting.SortDescByKey(StatsByEstado(s), EstadoMetric(metric));
    Sorting.Sort(StatsByEstado(s), Sorting.Desc(EstadoMetric(metric)))
  }

  /** The sort is stable: states with the same metric keep their
      first-seen order. */
  lemma SortedStatesStable(s: seq<Member>, metric: Metric)
    ensures Sorting.IsStableSortOf(SortedStates(s, metric), StatsByEstado(s), Sorting.Desc(EstadoMetric(metric)))
  {
    Sorting.DescIsTotalPreorder(EstadoMetric(metric));
    Sorting.SortIsStableSort(StatsByEstado(s), Sorting.Desc(EstadoMetric(metric)));
  }

  datatype Totals = Totals(membros: int, totalAcimaTeto: int, membrosAcimaTeto: int)

  /** `totals`: three sums over the states. */
  function GetTotals(s: seq<Member>): (t: Totals)
    ensures t.membros == |s|
  {
    EstadosPartition(s);
    var states := StatsByEstado(s);
    Totals(Seqs.Sum(states, TotalMembrosOf), Seqs.Sum(states, TotalAcimaOf), Seqs.Sum(states, MembrosAcimaOf))
  }

  /** Because the states partition the records, the totals are the
      figures of the whole record set: its size, its total excess and the
      number of records above the cap. */
  lemma TotalsAreNational(s: seq<Member>)
    ensures GetTotals(s) == Totals(|s|, Seqs.Sum(s, AcimaOf), CountAbove(s))
  {
    EstadosPartition(s);
  }

  /** The totals do not depend on the ranking chosen for display. */
  lemma TotalsOfSortedStates(s: seq<Member>, metric: Metric)
    ensures Seqs.Sum(SortedStates(s, metric), TotalMembrosOf) == GetTotals(s).membros
    ensures Seqs.Sum(SortedStates(s, metric), TotalAcimaOf) == GetTotals(s).totalAcimaTeto
    ensures Seqs.Sum(SortedStates(s, metric), MembrosAcimaOf) == GetTotals(s).membrosAcimaTeto
  {
    var r, st := SortedStates(s, metric), StatsByEstado(s);
    Seqs.SumPermutation(r, st, TotalMembrosOf);
    Seqs.SumPermutation(r, st, TotalAcimaOf);
    Seqs.SumPermutation(r, st, MembrosAcimaOf);
  }

  const EstadoLinkPrefix: string := "/?estado="

  /** `` `/?estado=${estado}` `` */
  function EstadoLink(estado: string): (r: string)
    ensures Text.StartsWith(r, EstadoLinkPrefix) && r[|EstadoLinkPrefix|..] == estado
  {
    EstadoLinkPrefix + estado
  }

  /** The state a link from the map selects. */
  function LinkedEstado(href: string): (e: Option<string>)
    ensures e.Some? <==> Text.StartsWith(href, EstadoLinkPrefix)
    ensures e.Some? ==> EstadoLink(e.value) == href
  {
    if Text.StartsWith(href, EstadoLinkPrefix) then
      assert href == href[..|EstadoLinkPrefix|] + href[|EstadoLinkPrefix|..];
      Some(href[|EstadoLinkPrefix|..])
    else None
  }

  /** A link is read back as the state it was built from. */
  lemma LinkRoundTrip(estado: string)
    ensures LinkedEstado(EstadoLink(estado)) == Some(estado)
  {
    assert EstadoLink(estado)[..|EstadoLinkPrefix|] == EstadoLinkPrefix;
    assert EstadoLink(estado)[|EstadoLinkPrefix|..] == estado;
  }

  /** A row of the ranking table: its position, its state, and where a
      click on it leads. */
  datatype StateRow = StateRow(rank: int, estado: string, href: string)

  function Rows(sorted: seq<EstadoStats>): (r: seq<StateRow>)
    ensures |r| == |sorted|
    ensures forall i | 0 <= i < |r| :: r[i].rank == i + 1 && r[i].estado == sorted[i].estado
    ensures forall i | 0 <= i < |r| :: LinkedEstado(r[i].href) == Some(sorted[i].estado)
  {
    seq(|sorted|, i requires 0 <= i < |sorted| =>
      LinkRoundTrip(sorted[i].estado);
      StateRow(i + 1, sorted[i].estado, EstadoLink(sorted[i].estado)))
  }
}

=== FILE: statistics.dfy ===
/** The statistics page: the ten organisations leading a chosen figure,
    the composition of pay, the median total of the members above the cap,
    and how many public works the total excess would pay for. */
module Statistics {
  import Seqs
  import Sorting
  import Numeric
  import opened Records
  import opened Aggregation

  /** One bar of the ranking chart. */
  datatype BarDatum = BarDatum(name: string, value: real)

  function BarOf(metric: Metric, o: OrgaoStats): BarDatum
  {
    BarDatum(o.orgao, OrgaoMetric(metric)(o))
  }

  /** The organisations by non-increasing `metric`, ties in first-encounter
      order. */
  function Ranked(stats: seq<OrgaoStats>, metric: Metric): (r: seq<OrgaoStats>)
    ensures multiset(r) == multiset(stats)
    ensures forall i, j | 0 <= i < j < |r| :: OrgaoMetric(metric)(r[i]) >= OrgaoMetric(metric)(r[j])
  {
    Sorting.SortDescByKey(stats, OrgaoMetric(metric));
    Sorting.Sort(stats, Sorting.Desc(OrgaoMetric(metric)))
  }

  /** The ranking is a stable sort: organisations with the same metric keep
      their input order, which decides who takes the last of the ten bars. */
  lemma RankedStable(stats: seq<OrgaoStats>, metric: Metric)
    ensures Sorting.IsStableSortOf(Ranked(stats, metric), stats, Sorting.Desc(OrgaoMetric(metric)))
  {
    Sorting.DescIsTotalPreorder(OrgaoMetric(metric));
    Sorting.SortIsStableSort(stats, Sorting.Desc(OrgaoMetric(metric)));
  }

  /** `top10Orgaos`: the first ten ranked organisations as chart bars. */
  function Top10(stats: seq<OrgaoStats>, metric: Metric): (r: seq<BarDatum>)
    ensures |r| == Seqs.Min(10, |stats|)
    ensures forall i | 0 <= i < |r| :: r[i] == BarOf(metric, Ranked(stats, metric)[i])
  {
    var ranked := Ranked(stats, metric);
    assert |ranked| == |multiset(ranked)| == |stats|;
    var n := Seqs.Min(10, |ranked|);
    seq(n, i requires 0 <= i < n => BarOf(metric, ranked[i]))
  }

  /** The bar shows some organisation of the list. */
  predicate FromSome(stats: seq<OrgaoStats>, metric: Metric, d: BarDatum)
  {
    exists o | o in stats :: d == BarOf(metric, o)
  }

  /** The bars are non-increasing and each comes from an organisation. */
  lemma Top10Sorted(stats: seq<OrgaoStats>, metric: Metric)
    ensures forall i, j | 0 <= i < j < |Top10(stats, metric)| :: Top10(stats, metric)[i].value >= Top10(stats, metric)[j].value
    ensures forall i | 0 <= i < |Top10(stats, metric)| :: FromSome(stats, metric, Top10(stats, metric)[i])
  {
    var r, ranked := Top10(stats, metric), Ranked(stats, metric);
    forall i | 0 <= i < |r|
      ensures FromSome(stats, metric, r[i])
    {
      var o := ranked[i];
      assert o in multiset(stats);
      assert o in stats && r[i] == BarOf(metric, o);
    }
  }

  /** An organisation left out of the chart ranks no higher than the last
      bar shown; with ten or fewer organisations, none is left out. */
  lemma Top10IsTop(stats: seq<OrgaoStats>, metric: Metric, o: OrgaoStats)
    requires o in stats
    ensures var r := Top10(stats, metric);
            BarOf(metric, o) in r || OrgaoMetric(metric)(o) <= r[|r| - 1].value
    ensures |stats| <= 10 ==> BarOf(metric, o) in Top10(stats, metric)
  {
    var r, ranked := Top10(stats, metric), Ranked(stats, metric);
    assert |ranked| == |stats| by {
      assert |ranked| == |multiset(ranked)| && |stats| == |multiset(stats)|;
    }
    var i := Seqs.IndexInPermutation(o, stats, ranked);
    if i < |r| {
      assert r[i] == BarOf(metric, o);
    } else {
      assert r[|r| - 1] == BarOf(metric, ranked[|r| - 1]);
    }
  }

  function BaseOf(m: Member): int { m.remuneracaoBase }
  function VerbasOf(m: Member): int { m.verbasIndenizatorias }
  function EventuaisOf(m: Member): int { m.direitosEventuais }
  function PessoaisOf(m: Member): int { m.direitosPessoais }
  function TotalOf(m: Member): int { m.remuneracaoTotal }

  /** `composition`: the four per-component sums, their total, and the
      rounded percentage of the base salary in it. */
  datatype Composition = Composition(base: int, verbas: int, eventuais: int, pessoais: int,
                                     total: int, basePercent: int)

  function CompositionOf(s: seq<Member>): (c: Composition)
    ensures c.total == c.base + c.verbas + c.eventuais + c.pessoais
    ensures c.total > 0 ==> (c.basePercent as real) - 0.5 <= (c.base as real) / (c.total as real) * 100.0
                                                        < (c.basePercent as real) + 0.5
    ensures c.total <= 0 ==> c.basePercent == 0
  {
    var base, verbas, eventuais, pessoais :=
      Seqs.Sum(s, BaseOf), Seqs.Sum(s, VerbasOf), Seqs.Sum(s, EventuaisOf), Seqs.Sum(s, PessoaisOf);
    var total := base + verbas + eventuais + pessoais;
    Composition(base, verbas, eventuais, pessoais, total,
                if total > 0 then Numeric.Round((base as real) / (total as real) * 100.0) else 0)
  }

  /** On well-formed records, the composition total is the total payroll. */
  lemma {:induction false} CompositionIsPayroll(s: seq<Member>)
    requires forall i | 0 <= i < |s| :: WellFormed(s[i])
    ensures CompositionOf(s).total == Seqs.Sum(s, TotalOf)
  {
    if |s| > 0 {
      assert forall i | 0 <= i < |s[1..]| :: s[1..][i] == s[i + 1];
      CompositionIsPayroll(s[1..]);
    }
  }

  /** With non-negative components, the base share lies in [0, 100]. */
  lemma BasePercentBounds(s: seq<Member>)
    requires forall i | 0 <= i < |s| :: s[i].remuneracaoBase >= 0 && s[i].verbasIndenizatorias >= 0
                                     && s[i].direitosEventuais >= 0 && s[i].direitosPessoais >= 0
    ensures 0 <= CompositionOf(s).basePercent <= 100
  {
    var c := CompositionOf(s);
    Seqs.SumNonNegative(s, BaseOf);
    Seqs.SumNonNegative(s, VerbasOf);
    Seqs.SumNonNegative(s, EventuaisOf);
    Seqs.SumNonNegative(s, PessoaisOf);
    if c.total > 0 {
      Numeric.PercentBounds(c.base, c.total);
      Numeric.RoundWithin((c.base as real) / (c.total as real) * 100.0, 0, 100);
    }
  }

  /** A segment's percentage of the composition bar, 0 for an empty total. */
  function SegmentShare(value: int, total: int): (p: real)
    ensures total > 0 ==> p * (total as real) == (value as real) * 100.0
    ensures total <= 0 ==> p == 0.0
  {
    if total > 0 then Numeric.Percent(value, total) else 0.0
  }

  /** The segment is drawn: its share is at least 1%. */
  predicate Drawn(value: int, total: int)
  {
    SegmentShare(value, total) >= 1.0
  }

  /** A segment is drawn exactly when there is a total and the segment is at
      least a hundredth of it; nothing is drawn for an empty total. */
  lemma DrawnIff(value: int, total: int)
    ensures Drawn(value, total) <==> total > 0 && 100 * value >= total
  {
    if total > 0 {
      var p := SegmentShare(value, total);
      var t := total as real;
      var v := (100 * value) as real;
      assert p * t == v;
      Numeric.AtLeastOne(p, t, v);
    }
  }

  /** With a positive total, the four segments together fill the bar. */
  lemma SegmentsFillTheBar(c: Composition)
    requires c.total == c.base + c.verbas + c.eventuais + c.pessoais && c.total > 0
    ensures SegmentShare(c.base, c.total) + SegmentShare(c.verbas, c.total)
            + SegmentShare(c.eventuais, c.total) + SegmentShare(c.pessoais, c.total) == 100.0
  {
    var t := c.total as real;
    var a, b, e, p :=
      SegmentShare(c.base, c.total), SegmentShare(c.verbas, c.total),
      SegmentShare(c.eventuais, c.total), SegmentShare(c.pessoais, c.total);
    var sum := a + b + e + p;
    Numeric.FourPartsOfWhole(a, b, e, p, c.base as real, c.verbas as real,
                             c.eventuais as real, c.pessoais as real, t, 100.0);
    Numeric.ScaleCompare(sum, 100.0, t);
    Numeric.ScaleCompare(100.0, sum, t);
  }

  /** The members above the cap, ascending by total. */
  function AboveByTotal(s: seq<Member>): (r: seq<Member>)
    ensures multiset(r) == multiset(Seqs.Filter(s, IsAbove))
    ensures forall i, j | 0 <= i < j < |r| :: r[i].remuneracaoTotal <= r[j].remuneracaoTotal
  {
    var acima := Seqs.Filter(s, IsAbove);
    Sorting.SortAscByKey(acima, TotalKey);
    Sorting.Sort(acima, Sorting.Asc(TotalKey))
  }

  /** The sort is stable: members with the same total keep their input
      order. */
  lemma AboveByTotalStable(s: seq<Member>)
    ensures Sorting.IsStableSortOf(AboveByTotal(s), Seqs.Filter(s, IsAbove), Sorting.Asc(TotalKey))
  {
    Sorting.AscIsTotalPreorder(TotalKey);
    Sorting.SortIsStableSort(Seqs.Filter(s, IsAbove), Sorting.Asc(TotalKey));
  }

  /** `medianRemun`: 0 when no member is above the cap, otherwise the total
      at position `floor(n / 2)` of the above-cap members sorted ascending. */
  function MedianAbove(s: seq<Member>): (med: int)
    ensures |Seqs.Filter(s, IsAbove)| == 0 ==> med == 0
    ensures |Seqs.Filter(s, IsAbove)| > 0 ==> exists m | m in s :: IsAbove(m) && m.remuneracaoTotal == med
  {
    var r := AboveByTotal(s);
    assert |r| == |multiset(r)| == |Seqs.Filter(s, IsAbove)|;
    if |r| == 0 then 0
    else
      assert r[|r| / 2] in multiset(Seqs.Filter(s, IsAbove));
      r[|r| / 2].remuneracaoTotal
  }

  function TotalBelow(v: int): Member -> bool { (m: Member) => m.remuneracaoTotal < v }

  function TotalAbove(v: int): Member -> bool { (m: Member) => m.remuneracaoTotal > v }

  /** The median splits the above-cap members: at most `floor(n / 2)` of
      them have a smaller total and at most `n − floor(n / 2) − 1` a larger
      one. */
  lemma MedianSplits(s: seq<Member>)
    requires |Seqs.Filter(s, IsAbove)| > 0
    ensures var acima, med := Seqs.Filter(s, IsAbove), MedianAbove(s);
            && |Seqs.Filter(acima, TotalBelow(med))| <= |acima| / 2
            && |Seqs.Filter(acima, TotalAbove(med))| <= |acima| - |acima| / 2 - 1
  {
    var acima, med := Seqs.Filter(s, IsAbove), MedianAbove(s);
    var r := AboveByTotal(s);
    assert |r| == |multiset(r)| == |acima|;
    assert med == r[|r| / 2].remuneracaoTotal;
    Seqs.FilterPermutation(acima, r, TotalBelow(med));
    Seqs.FilterPermutation(acima, r, TotalAbove(med));
    SortedSplit(r, |r| / 2);
  }

  /** In a list ascending by total, at most `k` entries are below the
      `k`-th total and at most `n − k − 1` above it. */
  lemma SortedSplit(r: seq<Member>, k: int)
    requires forall i, j | 0 <= i < j < |r| :: r[i].remuneracaoTotal <= r[j].remuneracaoTotal
    requires 0 <= k < |r|
    ensures |Seqs.Filter(r, TotalBelow(r[k].remuneracaoTotal))| <= k
    ensures |Seqs.Filter(r, TotalAbove(r[k].remuneracaoTotal))| <= |r| - k - 1
  {
    FewBelow(r, k);
    FewAbove(r, k);
  }

  lemma FewBelow(r: seq<Member>, k: int)
    requires forall i, j | 0 <= i < j < |r| :: r[i].remuneracaoTotal <= r[j].remuneracaoTotal
    requires 0 <= k < |r|
    ensures |Seqs.Filter(r, TotalBelow(r[k].remuneracaoTotal))| <= k
  {
    var p := TotalBelow(r[k].remuneracaoTotal);
    forall i | k <= i < |r|
      ensures !p(r[i])
    {
      assert i == k || r[k].remuneracaoTotal <= r[i].remuneracaoTotal;
    }
    Seqs.FilterNoneAfter(r, p, k);
  }

  lemma FewAbove(r: seq<Member>, k: int)
    requires forall i, j | 0 <= i < j < |r| :: r[i].remuneracaoTotal <= r[j].remuneracaoTotal
    requires 0 <= k < |r|
    ensures |Seqs.Filter(r, TotalAbove(r[k].remuneracaoTotal))| <= |r| - k - 1
  {
    var p := TotalAbove(r[k].remuneracaoTotal);
    forall i | 0 <= i < k + 1
      ensures !p(r[i])
    {
      assert i == k || r[i].remuneracaoTotal <= r[k].remuneracaoTotal;
    }
    Seqs.FilterNoneBefore(r, p, k + 1);
  }

  /** `Math.round(medianRemun / 12)` in whole reais, returned in cents: the
      monthly equivalent of the median, off by at most half a real. */
  function MonthlyEquivalent(median: int): (r: int)
    ensures r % 100 == 0
    ensures 24 * r - 1200 <= 2 * median < 24 * r + 1200
  {
    Numeric.RoundDiv(median, 1200) * 100
  }

  /** A public work the excess is compared with, and its unit cost. */
  datatype InfraItem = InfraItem(nome: string, custo: int)

  /** The four works and their unit costs, in cents. */
  const InfraItems: seq<InfraItem> := [
    InfraItem("Hospitais", 5_000_000_000),
    InfraItem("Creches", 350_000_000),
    InfraItem("Escolas", 800_000_000),
    InfraItem("Universidades", 15_000_000_000)]

  /** `Math.floor(totalAcimaTeto / item.custo)`: the whole number of units
      the amount pays for. Amounts are in cents on both sides, so the
      quotient is the one computed in reais. */
  function Quantidade(total: int, custo: int): (q: int)
    requires custo > 0
    ensures q * custo <= total < (q + 1) * custo
  {
    Numeric.FloorDiv(total, custo)
  }

  /** One quantity per work, in the order of the table. */
  function Quantidades(total: int): (r: seq<int>)
    ensures |r| == |InfraItems|
    ensures forall i | 0 <= i < |r| :: r[i] * InfraItems[i].custo <= total < (r[i] + 1) * InfraItems[i].custo
  {
    seq(|InfraItems|, i requires 0 <= i < |InfraItems| => Quantidade(total, InfraItems[i].custo))
  }

  /** A cheaper work is built at least as often, and a non-negative amount
      builds a non-negative number of units. */
  lemma CheaperBuildsMore(total: int, c1: int, c2: int)
    requires 0 <= total && 0 < c1 <= c2
    ensures 0 <= Quantidade(total, c2) <= Quantidade(total, c1)
  {
    var q1, q2 := Quantidade(total, c1), Quantidade(total, c2);
    Numeric.FactorSign(q2 + 1, c2);
    Numeric.MulMonotone(c1, c2, q2);
    assert (q1 + 1 - q2) * c1 > 0;
    Numeric.FactorSign(q1 + 1 - q2, c1);
  }

  /** The statistics page's total excess is the headline figure, and the
      sum of the per-state totals. */
  lemma TotalAcimaTetoAgrees(s: seq<Member>)
    ensures Seqs.Sum(s, AcimaOf) == GetKpis(s).totalAcimaTeto
    ensures Seqs.Sum(s, AcimaOf) == Seqs.Sum(StatsByEstado(s), TotalAcimaOf)
  {
    EstadosPartition(s);
  }
}

=== FILE: temporal.dfy ===
/** The monthly history chart of one record: the `"Mmm/YY"` label of each
    reference month, the chart rows built from the history, and the title
    made of the first two words of the name. */
module Temporal {
  import opened Options
  import Seqs
  import Text
  import PageParams
  import opened Records

  /** The Portuguese abbreviation of month `m`: entry `m - 1` of the
      component's `months` array. */
  function MonthAbbrev(m: int): (r: string)
    requires 1 <= m <= 12
    ensures |r| == 3
  {
    match m
    case 1 => "Jan" case 2 => "Fev" case 3 => "Mar" case 4 => "Abr"
    case 5 => "Mai" case 6 => "Jun" case 7 => "Jul" case 8 => "Ago"
    case 9 => "Set" case 10 => "Out" case 11 => "Nov" case _ => "Dez"
  }

  /** What a template literal prints for a missing array entry. */
  const Undefined: string := "undefined"

  /** `months[parseInt(month) - 1]`, where a missing `month` or one that is
      not a number in 1..12 finds no entry. `parseInt` is given no radix,
      so a `0x` month is read as hexadecimal. */
  function MonthName(month: Option<string>): (r: string)
    ensures r == Undefined || |r| == 3
  {
    if month.None? then Undefined
    else match Text.ParseIntAuto(month.value)
      case Some(v) => if 1 <= v <= 12 then MonthAbbrev(v) else Undefined
      case None => Undefined
  }

  /** `year.slice(2)` */
  function DropTwo(year: string): string
  {
    if |year| <= 2 then "" else year[2..]
  }

  /** `formatMonth(mes)`: split at `-`, then the month's abbreviation, a
      slash and the year without its first two characters. */
  function FormatMonth(mes: string): (r: string)
    ensures |r| >= 4 && (r[3] == '/' || (|r| >= 10 && r[..10] == Undefined + "/"))
  {
    var parts := Text.Split(mes, '-');
    var month := if |parts| >= 2 then Some(parts[1]) else None;
    MonthName(month) + "/" + DropTwo(parts[0])
  }

  /** A text that reads as a month number names that month. */
  lemma MonthNameOf(t: string, v: int)
    requires Text.ParseIntAuto(t) == Some(v) && 1 <= v <= 12
    ensures MonthName(Some(t)) == MonthAbbrev(v)
  {
  }

  /** `parseInt` of a two-digit month: no hexadecimal prefix, so the
      decimal reading. */
  lemma ParseMonth(m: nat)
    requires m < 100
    ensures Text.ParseIntAuto(PageParams.TwoDigits(m)) == Some(m)
  {
    var t := PageParams.TwoDigits(m);
    assert Text.TrimStart(t) == t by { Text.TrimStartNoSpace(t); }
    assert Text.Unsigned(t) == t && !Text.HexPrefixed(t);
    Text.ParseIntAutoDecimal(t);
    Text.ParseIntDigits(t, "");
    assert t + "" == t;
  }

  /** A hexadecimal month also gets a label: after `0x`, a digit `c` from 1
      to 9 names month `c`. */
  lemma HexMonthNamed(t: string, c: char, rest: string)
    requires Text.HexPrefixed(t) && t[2..] == [c] + rest
    requires '1' <= c <= '9'
    requires |rest| > 0 ==> !Text.IsHexDigit(rest[0])
    ensures MonthName(Some(t)) == MonthAbbrev(Text.DigitValue(c))
  {
    Text.RadixMatters(t, c, rest);
  }

  /** A well-formed reference month is labelled with its month's
      abbreviation and the last two digits of its year. */
  lemma FormatValidMonth(year: string, m: nat)
    requires PageParams.IsValidYear(year) && 1 <= m <= 12
    ensures FormatMonth(PageParams.MesRef(year, m)) == MonthAbbrev(m) + "/" + year[2..]
  {
    var mm := PageParams.TwoDigits(m);
    var mes := PageParams.MesRef(year, m);
    assert Text.Split(mes, '-') == [year, mm] by {
      Text.SplitCons(year, '-', mm);
      assert mes == year + ['-'] + mm;
      assert Text.Split(mm, '-') == [mm];
    }
    ParseMonth(m);
    MonthNameOf(mm, m);
    assert DropTwo(year) == year[2..];
  }

  /** Every month the home page accepts gets a real label. */
  lemma AcceptedMonthsAreLabelled(mes: string)
    requires PageParams.IsValidMesRef(mes)
    ensures exists k | 1 <= k <= 12 :: FormatMonth(mes) == MonthAbbrev(k) + "/" + mes[2..4]
  {
    var year, m := PageParams.ValidIsMesRef(mes);
    FormatValidMonth(year, m);
    assert mes[2..4] == year[2..];
  }

  const JuneRef: string := "2025-06"
  const JuneLabel: string := "Jun/25"

  /** `formatMonth("2025-06")` is `"Jun/25"`. */
  lemma JuneExample()
    ensures FormatMonth(JuneRef) == JuneLabel
  {
    var y := PageParams.DefaultYear;
    JuneRefParts();
    FormatValidMonth(y, 6);
    JuneLabelParts();
  }

  lemma JuneRefParts()
    ensures PageParams.IsValidYear(PageParams.DefaultYear)
    ensures PageParams.MesRef(PageParams.DefaultYear, 6) == JuneRef
  {
    assert PageParams.TwoDigits(6) == "06";
  }

  lemma JuneLabelParts()
    ensures MonthAbbrev(6) + "/" + PageParams.DefaultYear[2..] == JuneLabel
  {
  }

  /** No two months share an abbreviation. */
  lemma MonthsDistinct(i: int, j: int)
    requires 1 <= i <= 12 && 1 <= j <= 12 && MonthAbbrev(i) == MonthAbbrev(j)
    ensures i == j
  {
  }

  /** A label splits back into its abbreviation and its year digits. */
  lemma LabelSplits(a: string, b: string, c: string, d: string)
    requires |a| == 3 && |c| == 3 && a + "/" + b == c + "/" + d
    ensures a == c && b == d
  {
    var l := a + "/" + b;
    assert l[..3] == a && l[4..] == b;
    var k := c + "/" + d;
    assert k[..3] == c && k[4..] == d;
  }

  /** Different months of a century get different labels: the label gives
      back the month and the year's last two digits. */
  lemma FormatInjective(y1: string, m1: nat, y2: string, m2: nat)
    requires PageParams.IsValidYear(y1) && 1 <= m1 <= 12
    requires PageParams.IsValidYear(y2) && 1 <= m2 <= 12
    requires FormatMonth(PageParams.MesRef(y1, m1)) == FormatMonth(PageParams.MesRef(y2, m2))
    ensures m1 == m2 && y1[2..] == y2[2..]
  {
    var a, c := MonthAbbrev(m1), MonthAbbrev(m2);
    assert a + "/" + y1[2..] == c + "/" + y2[2..] by {
      FormatValidMonth(y1, m1);
      FormatValidMonth(y2, m2);
    }
    LabelSplits(a, y1[2..], c, y2[2..]);
    MonthsDistinct(m1, m2);
  }

  /** One chart row: the month's record, its label and the cap line. */
  datatype ChartRow = ChartRow(record: MonthlyRecord, mesLabel: string, teto: int)

  /** `historico.map(h => ({ ...h, mesLabel: formatMonth(h.mes), teto }))` */
  function ChartData(historico: seq<MonthlyRecord>): (r: seq<ChartRow>)
    ensures |r| == |historico|
    ensures forall i | 0 <= i < |r| :: r[i].record == historico[i] && r[i].teto == Teto
  {
    seq(|historico|, i requires 0 <= i < |historico| =>
      ChartRow(historico[i], FormatMonth(historico[i].mes), Teto))
  }

  /** The chart title: `nome.split(" ").slice(0, 2).join(" ")`. */
  function Title(nome: string): (r: string)
    ensures r <= nome
  {
    var words := Text.Split(nome, ' ');
    Text.JoinSplit(nome, ' ');
    JoinPrefix(words, " ", Seqs.Min(2, |words|));
    Text.Join(words[..Seqs.Min(2, |words|)], " ")
  }

  /** A prefix of the pieces joins to a prefix of the whole. */
  lemma {:induction false} JoinPrefix(parts: seq<string>, sep: string, k: int)
    requires 0 <= k <= |parts|
    ensures Text.Join(parts[..k], sep) <= Text.Join(parts, sep)
  {
    if 0 < k < |parts| {
      assert parts[..k][0] == parts[0];
      if k > 1 {
        JoinPrefix(parts[1..], sep, k - 1);
        assert parts[..k][1..] == parts[1..][..k - 1];
      }
    } else if k == |parts| {
      assert parts[..k] == parts;
    }
  }

  /** The title is the start of the name, and the whole name when it holds
      at most one space-separated break. */
  lemma TitleIsPrefix(nome: string)
    ensures Title(nome) <= nome
    ensures |Text.Split(nome, ' ')| <= 2 ==> Title(nome) == nome
  {
    var words := Text.Split(nome, ' ');
    Text.JoinSplit(nome, ' ');
    JoinPrefix(words, " ", Seqs.Min(2, |words|));
    assert words[..|words|] == words;
  }
}

=== FILE: text.dfy ===
/** The few JavaScript string operations the dashboard relies on:
    `trim`, `split`/`join` on one character, `startsWith`, `includes`,
    `String(n)` for naturals and `parseInt(s, 10)`. */
module Text {
  import opened Options

  predicate IsDigit(c: char) { '0' <= c <= '9' }

  predicate AllDigits(s: string) { forall i :: 0 <= i < |s| ==> IsDigit(s[i]) }

  function DigitValue(c: char): (d: nat)
    requires IsDigit(c)
    ensures d < 10
  {
    c as int - '0' as int
  }

  function DigitChar(d: nat): (c: char)
    requires d < 10
    ensures IsDigit(c) && DigitValue(c) == d
  {
    ('0' as int + d) as char
  }

  /** The number a string of decimal digits denotes, most significant first. */
  function DigitsValue(s: string): nat
    requires AllDigits(s)
  {
    if |s| == 0 then 0 else 10 * DigitsValue(s[..|s| - 1]) + DigitValue(s[|s| - 1])
  }

  /** `10^d` */
  function Pow10(d: nat): (p: nat)
    ensures p >= 1
  {
    if d == 0 then 1 else 10 * Pow10(d - 1)
  }

  /** `d` digits read as a number below `10^d`. */
  lemma {:induction false} DigitsValueBelow(s: string)
    requires AllDigits(s)
    ensures DigitsValue(s) < Pow10(|s|)
  {
    if |s| > 0 {
      DigitsValueBelow(s[..|s| - 1]);
    }
  }

  /** `String(n)` for a natural number: decimal, no leading zero. */
  function NatToString(n: nat): (r: string)
    ensures |r| >= 1 && AllDigits(r)
    ensures r[0] == '0' ==> n == 0 && |r| == 1
  {
    (if n < 10 then "" else NatToString(n / 10)) + [DigitChar(n % 10)]
  }

  /** Reading back the decimal rendering of `n` gives `n`. */
  lemma {:induction false} NatToStringValue(n: nat)
    ensures DigitsValue(NatToString(n)) == n
  {
    var r := NatToString(n);
    var last := DigitChar(n % 10);
    if n >= 10 {
      var front := NatToString(n / 10);
      assert r == front + [last];
      assert r[..|r| - 1] == front;
      NatToStringValue(n / 10);
      assert DigitsValue(r) == 10 * DigitsValue(front) + DigitValue(last);
    } else {
      assert r == [last];
      assert r[..|r| - 1] == "";
    }
  }

  /** Distinct naturals render as distinct strings. */
  lemma NatToStringInjective(m: nat, n: nat)
    requires NatToString(m) == NatToString(n)
    ensures m == n
  {
    NatToStringValue(m);
    NatToStringValue(n);
  }

  /** JavaScript's white space and line terminators (what `trim` and
      `parseInt` skip). */
  predicate IsJsSpace(c: char)
  {
    ('\U{9}' <= c <= '\U{D}') || c == ' ' || c == '\U{A0}' || c == '\U{1680}'
    || ('\U{2000}' <= c <= '\U{200A}') || c == '\U{2028}' || c == '\U{2029}'
    || c == '\U{202F}' || c == '\U{205F}' || c == '\U{3000}' || c == '\U{FEFF}'
  }

  /** `s.trimStart()`. */
  function TrimStart(s: string): (r: string)
    ensures |r| <= |s| && r == s[|s| - |r|..]
    ensures forall i :: 0 <= i < |s| - |r| ==> IsJsSpace(s[i])
    ensures |r| > 0 ==> !IsJsSpace(r[0])
  {
    if |s| > 0 && IsJsSpace(s[0]) then
      var r := TrimStart(s[1..]);
      assert s[1..][|s| - 1 - |r|..] == s[|s| - |r|..];
      assert forall i | 1 <= i < |s| - |r| :: s[i] == s[1..][i - 1];
      r
    else s
  }

  lemma TrimStartNoSpace(s: string)
    requires |s| > 0 ==> !IsJsSpace(s[0])
    ensures TrimStart(s) == s
  {
  }

  /** `s.trimEnd()`. */
  function TrimEnd(s: string): (r: string)
    ensures |r| <= |s| && r == s[..|r|]
    ensures forall i :: |r| <= i < |s| ==> IsJsSpace(s[i])
    ensures |r| > 0 ==> !IsJsSpace(r[|r| - 1])
  {
    if |s| > 0 && IsJsSpace(s[|s| - 1]) then
      var r := TrimEnd(s[..|s| - 1]);
      assert s[..|s| - 1][..|r|] == s[..|r|];
      r
    else s
  }

  /** `s` is `r` placed at position `k` with only white space around it. */
  predicate PaddedAt(s: string, r: string, k: nat)
  {
    k + |r| <= |s| && r == s[k..k + |r|]
    && (forall i :: 0 <= i < k ==> IsJsSpace(s[i]))
    && (forall i :: k + |r| <= i < |s| ==> IsJsSpace(s[i]))
  }

  /** `s.trim()`: the infix of `s` left after removing white space at both
      ends. */
  function Trim(s: string): (r: string)
    ensures exists k | 0 <= k <= |s| - |r| :: PaddedAt(s, r, k)
    ensures |r| > 0 ==> !IsJsSpace(r[0]) && !IsJsSpace(r[|r| - 1])
  {
    var t := TrimStart(s);
    var r := TrimEnd(t);
    TrimParts(s, t, r);
    r
  }

  /** A suffix `t` of `s` after leading white space, and a prefix `r` of
      `t` before trailing white space, make `r` the padded infix of `s`. */
  lemma TrimParts(s: string, t: string, r: string)
    requires |t| <= |s| && t == s[|s| - |t|..]
    requires forall i :: 0 <= i < |s| - |t| ==> IsJsSpace(s[i])
    requires |t| > 0 ==> !IsJsSpace(t[0])
    requires |r| <= |t| && r == t[..|r|]
    requires forall i :: |r| <= i < |t| ==> IsJsSpace(t[i])
    requires |r| > 0 ==> !IsJsSpace(r[|r| - 1])
    ensures PaddedAt(s, r, |s| - |t|)
    ensures |r| > 0 ==> !IsJsSpace(r[0]) && !IsJsSpace(r[|r| - 1])
  {
    var k := |s| - |t|;
    assert r == s[k..k + |r|];
    assert forall i | k + |r| <= i < |s| :: s[i] == t[i - k];
  }

  /** Trimming only removes characters. */
  lemma TrimWithout(s: string, c: char)
    requires c !in s
    ensures c !in Trim(s)
  {
    var r := Trim(s);
    var k :| 0 <= k <= |s| - |r| && PaddedAt(s, r, k);
    forall i | 0 <= i < |r|
      ensures r[i] != c
    {
      assert r[i] == s[k + i];
    }
  }

  /** A string without white space at either end is its own trim. */
  lemma TrimTrimmed(s: string)
    requires |s| > 0 ==> !IsJsSpace(s[0]) && !IsJsSpace(s[|s| - 1])
    ensures Trim(s) == s
  {
  }

  /** `s.startsWith(p)`. */
  predicate StartsWith(s: string, p: string)
  {
    |p| <= |s| && s[..|p|] == p
  }

  /** `sub` occurs in `s` starting at position `i`. */
  predicate OccursAt(s: string, sub: string, i: nat)
  {
    i + |sub| <= |s| && s[i..i + |sub|] == sub
  }

  /** `s.includes(sub)`. */
  predicate Contains(s: string, sub: string)
  {
    exists i | 0 <= i <= |s| :: OccursAt(s, sub, i)
  }

  /** Every string contains the empty string and itself, and contains
      what its prefixes contain. */
  lemma ContainsBasics(s: string, sub: string)
    ensures Contains(s, "") && Contains(s, s)
    ensures StartsWith(s, sub) ==> Contains(s, sub)
  {
    assert OccursAt(s, "", 0);
    assert OccursAt(s, s, 0);
    if StartsWith(s, sub) {
      assert OccursAt(s, sub, 0);
    }
  }

  /** Index of the first occurrence of `c` in `s`. */
  function IndexOf(s: string, c: char): (i: nat)
    requires c in s
    ensures i < |s| && s[i] == c && c !in s[..i]
  {
    if s[0] == c then 0
    else
      assert s[1..] == s[1..];
      var j := IndexOf(s[1..], c);
      assert s[..j + 1] == [s[0]] + s[1..][..j];
      j + 1
  }

  /** `s.split(sep)` for a one-character separator. */
  function Split(s: string, sep: char): (parts: seq<string>)
    ensures |parts| >= 1
    ensures forall i :: 0 <= i < |parts| ==> sep !in parts[i]
    decreases |s|
  {
    if sep !in s then [s]
    else
      var i := IndexOf(s, sep);
      [s[..i]] + Split(s[i + 1..], sep)
  }

  /** `n` is where the first field of `s` ends: at the first `sep`, or at
      the end of `s` when there is none. */
  predicate FirstFieldEnd(s: string, sep: char, n: int)
  {
    0 <= n <= |s| && sep !in s[..n] && (n < |s| ==> s[n] == sep)
  }

  /** The first field has only one end, so it is determined by `s`. */
  lemma FirstFieldEndUnique(s: string, sep: char, n: int, m: int)
    requires FirstFieldEnd(s, sep, n) && FirstFieldEnd(s, sep, m)
    ensures n == m
  {
  }

  /** The first piece of a split is the text before the first separator. */
  lemma SplitFirst(s: string, sep: char)
    ensures var n := |Split(s, sep)[0]|;
            FirstFieldEnd(s, sep, n) && Split(s, sep)[0] == s[..n]
  {
    if sep in s {
      var i := IndexOf(s, sep);
      assert Split(s, sep)[0] == s[..i];
    } else {
      assert s[..|s|] == s;
    }
  }

  /** `parts.join(sep)`. */
  function Join(parts: seq<string>, sep: string): string
  {
    if |parts| == 0 then ""
    else if |parts| == 1 then parts[0]
    else parts[0] + sep + Join(parts[1..], sep)
  }

  /** Joining the pieces of a split with the same separator rebuilds the
      string. */
  lemma {:induction false} JoinSplit(s: string, sep: char)
    ensures Join(Split(s, sep), [sep]) == s
    decreases |s|
  {
    if sep in s {
      var i := IndexOf(s, sep);
      var tail := Split(s[i + 1..], sep);
      JoinSplit(s[i + 1..], sep);
      assert Split(s, sep) == [s[..i]] + tail;
      assert Join([s[..i]] + tail, [sep]) == s[..i] + [sep] + Join(tail, [sep]) by {
        assert ([s[..i]] + tail)[1..] == tail;
      }
      assert s == s[..i] + [sep] + s[i + 1..];
    }
  }

  /** The first occurrence is the one with no earlier copy. */
  lemma IndexOfUnique(s: string, c: char, k: nat)
    requires k < |s| && s[k] == c && c !in s[..k]
    ensures IndexOf(s, c) == k
  {
  }

  /** A separator-free piece, the separator, and the rest split into that
      piece followed by the pieces of the rest. */
  lemma SplitCons(p: string, sep: char, rest: string)
    requires sep !in p
    ensures Split(p + [sep] + rest, sep) == [p] + Split(rest, sep)
  {
    var s := p + [sep] + rest;
    assert s[..|p|] == p;
    IndexOfUnique(s, sep, |p|);
    assert s[|p| + 1..] == rest;
  }

  /** Splitting a join of separator-free pieces gives the pieces back. */
  lemma {:induction false} SplitJoin(parts: seq<string>, sep: char)
    requires |parts| >= 1
    requires forall i :: 0 <= i < |parts| ==> sep !in parts[i]
    ensures Split(Join(parts, [sep]), sep) == parts
  {
    if |parts| > 1 {
      assert forall i :: 0 <= i < |parts[1..]| ==> parts[1..][i] == parts[i + 1];
      SplitJoin(parts[1..], sep);
      assert Join(parts, [sep]) == parts[0] + [sep] + Join(parts[1..], [sep]);
      SplitCons(parts[0], sep, Join(parts[1..], [sep]));
      assert parts == [parts[0]] + parts[1..];
    }
  }

  /** The longest prefix of `s` made of decimal digits. */
  function LeadingDigits(s: string): (d: string)
    ensures |d| <= |s| && d == s[..|d|] && AllDigits(d)
    ensures |d| < |s| ==> !IsDigit(s[|d|])
  {
    if |s| > 0 && IsDigit(s[0]) then [s[0]] + LeadingDigits(s[1..]) else ""
  }

  /** `parseInt(s, 10)`, with `NaN` as `None`: leading white space is
      skipped, one optional sign is read, and then the longest run of digits;
      whatever follows is ignored. */
  function ParseInt(s: string): Option<int>
  {
    ParseSigned(TrimStart(s))
  }

  /** `parseInt(s, 10)` is a number exactly when a digit follows the white
      space and the optional sign, and it is negative only after a `-`. */
  lemma ParseIntIsNumber(s: string)
    ensures var u := Unsigned(TrimStart(s));
      ParseInt(s).Some? <==> |u| > 0 && IsDigit(u[0])
    ensures ParseInt(s).Some? && ParseInt(s).value < 0 ==> TrimStart(s)[0] == '-'
  {
    var t := TrimStart(s);
    ParseDigitsIsNumber(Unsigned(t));
  }

  /** A run of decimal digits is read exactly when the text starts with one. */
  lemma ParseDigitsIsNumber(t: string)
    ensures ParseDigits(t).Some? <==> |t| > 0 && IsDigit(t[0])
    ensures ParseDigits(t).Some? ==> ParseDigits(t).value >= 0
  {
  }

  function ParseSigned(t: string): Option<int>
  {
    if |t| == 0 then None
    else if t[0] == '-' then Negate(ParseDigits(t[1..]))
    else if t[0] == '+' then ParseDigits(t[1..])
    else ParseDigits(t)
  }

  function Negate(o: Option<int>): Option<int>
  {
    if o.Some? then Some(-o.value) else None
  }

  function ParseDigits(t: string): Option<int>
  {
    var d := LeadingDigits(t);
    if |d| == 0 then None else Some(DigitsValue(d))
  }

  lemma {:induction false} LeadingDigitsOf(d: string, rest: string)
    requires AllDigits(d)
    requires |rest| > 0 ==> !IsDigit(rest[0])
    ensures LeadingDigits(d + rest) == d
  {
    if |d| == 0 {
      assert d + rest == rest;
    } else {
      assert (d + rest)[1..] == d[1..] + rest;
      LeadingDigitsOf(d[1..], rest);
    }
  }

  lemma ParseDigitsOf(d: string, rest: string)
    requires |d| > 0 && AllDigits(d)
    requires |rest| > 0 ==> !IsDigit(rest[0])
    ensures ParseDigits(d + rest) == Some(DigitsValue(d))
  {
    LeadingDigitsOf(d, rest);
  }

  /** `parseInt` on a run of digits followed by non-digit text. */
  lemma ParseIntDigits(d: string, rest: string)
    requires |d| > 0 && AllDigits(d)
    requires |rest| > 0 ==> !IsDigit(rest[0])
    ensures ParseInt(d + rest) == Some(DigitsValue(d))
  {
    ParseDigitsOf(d, rest);
    var s := d + rest;
    assert s[0] == d[0];
    TrimStartNoSpace(s);
  }

  /** `parseInt("1")`, the default page. */
  lemma ParseIntOne()
    ensures ParseInt("1") == Some(1)
  {
    var d := "1";
    assert DigitsValue(d) == 1 by {
      assert d[..0] == "";
    }
    assert ParseInt(d + "") == Some(DigitsValue(d)) by {
      ParseIntDigits(d, "");
    }
    assert d + "" == d;
  }

  /** `parseInt("50")`, the default page size. */
  lemma ParseIntFifty()
    ensures ParseInt("50") == Some(50)
  {
    var d := "50";
    ParseIntDigits(d, "");
    assert d + "" == d;
    assert DigitsValue(d) == 50;
  }

  /** A leading minus sign negates what follows it. */
  lemma ParseIntMinus(s: string)
    ensures ParseInt("-" + s) == Negate(ParseDigits(s))
  {
    var m := "-" + s;
    assert m[0] == '-' && m[1..] == s;
    TrimStartNoSpace(m);
  }

  /** `parseInt` on a minus sign, a run of digits and non-digit text. */
  lemma ParseIntNegative(d: string, rest: string)
    requires |d| > 0 && AllDigits(d)
    requires |rest| > 0 ==> !IsDigit(rest[0])
    ensures var r := ParseInt("-" + (d + rest)); r.Some? && r.value == -(DigitsValue(d) as int)
  {
    var s := d + rest;
    assert ParseDigits(s) == Some(DigitsValue(d)) by { ParseDigitsOf(d, rest); }
    assert ParseInt("-" + s) == Negate(ParseDigits(s)) by { ParseIntMinus(s); }
  }

  /** `parseInt` reads back `String(n)`, and `"-" + String(n)` as `-n`,
      whatever non-digit text follows. */
  lemma ParseIntNatToString(n: nat, rest: string)
    requires |rest| > 0 ==> !IsDigit(rest[0])
    ensures ParseInt(NatToString(n) + rest) == Some(n)
    ensures ParseInt("-" + (NatToString(n) + rest)) == Some(-(n as int))
  {
    NatToStringValue(n);
    ParseIntDigits(NatToString(n), rest);
    ParseIntNegative(NatToString(n), rest);
  }

  /** Leading white space does not change what `parseInt` reads. */
  lemma ParseIntSkipsSpace(c: char, s: string)
    requires IsJsSpace(c)
    ensures ParseInt([c] + s) == ParseInt(s)
  {
    assert ([c] + s)[1..] == s;
  }

  /** The first `k` characters of `s` are blank and the next one, if any,
      can start no number: it is neither blank, a digit nor a sign. */
  predicate NoNumberAt(s: string, k: nat)
  {
    && k <= |s|
    && (forall i :: 0 <= i < k ==> IsJsSpace(s[i]))
    && (k < |s| ==> !IsJsSpace(s[k]) && !IsDigit(s[k]) && s[k] != '-' && s[k] != '+')
  }

  /** `parseInt` gives `NaN` when the first non-blank character is neither a
      sign nor a digit, and on blank input. */
  lemma ParseIntRejects(s: string, k: nat)
    requires NoNumberAt(s, k)
    ensures ParseInt(s) == None
  {
    var t := TrimStart(s);
    if |t| > 0 {
      assert |s| - |t| == k;
      assert t[0] == s[k];
    } else {
      assert k == |s|;
    }
  }

  predicate IsHexDigit(c: char) { IsDigit(c) || 'a' <= c <= 'f' || 'A' <= c <= 'F' }

  predicate AllHexDigits(s: string) { forall i :: 0 <= i < |s| ==> IsHexDigit(s[i]) }

  function HexDigitValue(c: char): (d: nat)
    requires IsHexDigit(c)
    ensures d < 16
    ensures IsDigit(c) ==> d == DigitValue(c)
  {
    if IsDigit(c) then DigitValue(c)
    else if 'a' <= c <= 'f' then c as int - 'a' as int + 10
    else c as int - 'A' as int + 10
  }

  function HexDigitsValue(s: string): nat
    requires AllHexDigits(s)
  {
    if |s| == 0 then 0 else 16 * HexDigitsValue(s[..|s| - 1]) + HexDigitValue(s[|s| - 1])
  }

  /** The longest prefix of `s` made of hexadecimal digits. */
  function LeadingHexDigits(s: string): (d: string)
    ensures |d| <= |s| && d == s[..|d|] && AllHexDigits(d)
    ensures |d| < |s| ==> !IsHexDigit(s[|d|])
  {
    if |s| > 0 && IsHexDigit(s[0]) then [s[0]] + LeadingHexDigits(s[1..]) else ""
  }

  function ParseHexDigits(t: string): Option<int>
  {
    var d := LeadingHexDigits(t);
    if |d| == 0 then None else Some(HexDigitsValue(d))
  }

  /** The text starts with `0x` or `0X`. */
  predicate HexPrefixed(t: string)
  {
    |t| >= 2 && t[0] == '0' && (t[1] == 'x' || t[1] == 'X')
  }

  /** The text without its one optional sign. */
  function Unsigned(t: string): string
  {
    if |t| > 0 && (t[0] == '-' || t[0] == '+') then t[1..] else t
  }

  /** The number after the sign: hexadecimal after a `0x` or `0X` prefix,
      decimal otherwise. */
  function ParseMagnitude(t: string): Option<int>
  {
    if HexPrefixed(t) then ParseHexDigits(t[2..]) else ParseDigits(t)
  }

  /** `parseInt(s)` with no radix, with `NaN` as `None`: as `parseInt(s, 10)`
      except that a `0x` or `0X` after the optional sign makes the digits
      that follow hexadecimal. */
  function ParseIntAuto(s: string): Option<int>
  {
    ParseSignedAuto(TrimStart(s))
  }

  /** A run of hexadecimal digits is read exactly when the text starts
      with one. */
  lemma ParseHexDigitsIsNumber(t: string)
    ensures ParseHexDigits(t).Some? <==> |t| > 0 && IsHexDigit(t[0])
    ensures ParseHexDigits(t).Some? ==> ParseHexDigits(t).value >= 0
  {
  }

  /** `parseInt(s)` is a number exactly when, after the white space and the
      optional sign, a hexadecimal digit follows a `0x` prefix or, without
      the prefix, a decimal digit comes first; it is negative only after a
      `-`. */
  lemma ParseIntAutoIsNumber(s: string)
    ensures var u := Unsigned(TrimStart(s));
      ParseIntAuto(s).Some? <==> if HexPrefixed(u) then |u| > 2 && IsHexDigit(u[2]) else |u| > 0 && IsDigit(u[0])
    ensures ParseIntAuto(s).Some? && ParseIntAuto(s).value < 0 ==> TrimStart(s)[0] == '-'
  {
    MagnitudeIsNumber(Unsigned(TrimStart(s)));
  }

  /** The magnitude after the sign is read exactly when its first digit is
      there, and it is never negative. */
  lemma MagnitudeIsNumber(u: string)
    ensures ParseMagnitude(u).Some? <==>
      if HexPrefixed(u) then |u| > 2 && IsHexDigit(u[2]) else |u| > 0 && IsDigit(u[0])
    ensures ParseMagnitude(u).Some? ==> ParseMagnitude(u).value >= 0
  {
    if HexPrefixed(u) {
      ParseHexDigitsIsNumber(u[2..]);
      assert |u| > 2 ==> u[2..][0] == u[2];
    } else {
      ParseDigitsIsNumber(u);
    }
  }

  function ParseSignedAuto(t: string): Option<int>
  {
    if |t| == 0 then None
    else if t[0] == '-' then Negate(ParseMagnitude(t[1..]))
    else if t[0] == '+' then ParseMagnitude(t[1..])
    else ParseMagnitude(t)
  }

  /** Without a `0x` or `0X` prefix after the sign, `parseInt(s)` and
      `parseInt(s, 10)` agree. */
  lemma ParseIntAutoDecimal(s: string)
    requires !HexPrefixed(Unsigned(TrimStart(s)))
    ensures ParseIntAuto(s) == ParseInt(s)
  {
  }

  lemma {:induction false} LeadingHexDigitsOf(d: string, rest: string)
    requires AllHexDigits(d)
    requires |rest| > 0 ==> !IsHexDigit(rest[0])
    ensures LeadingHexDigits(d + rest) == d
  {
    if |d| == 0 {
      assert d + rest == rest;
    } else {
      assert (d + rest)[1..] == d[1..] + rest;
      LeadingHexDigitsOf(d[1..], rest);
    }
  }

  /** `parseInt(s)` on `0x` or `0X`, hexadecimal digits `d` and then text
      that does not start with one reads `d`. */
  lemma ParseIntAutoHex(s: string, d: string, rest: string)
    requires HexPrefixed(s) && s[2..] == d + rest
    requires |d| > 0 && AllHexDigits(d)
    requires |rest| > 0 ==> !IsHexDigit(rest[0])
    ensures ParseIntAuto(s) == Some(HexDigitsValue(d))
  {
    assert TrimStart(s) == s by { TrimStartNoSpace(s); }
    assert ParseHexDigits(d + rest) == Some(HexDigitsValue(d)) by { LeadingHexDigitsOf(d, rest); }
    assert ParseSignedAuto(s) == ParseHexDigits(s[2..]);
  }

  /** With radix 10 the reading stops at the `x` of the prefix, so it gives
      0 whatever follows. */
  lemma DecimalStopsAtX(s: string)
    requires HexPrefixed(s)
    ensures ParseInt(s) == Some(0)
  {
    assert s == "0" + s[1..];
    ParseIntDigits("0", s[1..]);
    assert DigitsValue("0") == 0 by { assert "0"[..0] == ""; }
  }

  /** The radix matters: after `0x`, a non-zero decimal digit `c` is read
      as 0 by `parseInt(s, 10)` and as `c` by `parseInt(s)`. */
  lemma RadixMatters(s: string, c: char, rest: string)
    requires HexPrefixed(s) && s[2..] == [c] + rest
    requires '1' <= c <= '9'
    requires |rest| > 0 ==> !IsHexDigit(rest[0])
    ensures ParseInt(s) == Some(0)
    ensures ParseIntAuto(s) == Some(DigitValue(c)) && DigitValue(c) > 0
  {
    assert ParseInt(s) == Some(0) by { DecimalStopsAtX(s); }
    assert ParseIntAuto(s) == Some(HexDigitsValue([c])) by { ParseIntAutoHex(s, [c], rest); }
    assert HexDigitsValue([c]) == DigitValue(c) by { HexDigitsSingle(c); }
  }

  /** One hexadecimal digit is worth its own value. */
  lemma HexDigitsSingle(c: char)
    requires IsHexDigit(c)
    ensures HexDigitsValue([c]) == HexDigitValue(c)
  {
    assert [c][..0] == "";
  }

  /** A character outside the Basic Multilingual Plane, which UTF-16 stores
      as a surrogate pair. */
  predicate Astral(c: char)
  {
    c as int > 0xFFFF
  }

  /** JavaScript's `string.length`: the number of UTF-16 code units, two for
      each astral character and one for every other. */
  function Utf16Length(s: string): (n: nat)
    ensures |s| <= n <= 2 * |s|
  {
    if |s| == 0 then 0
    else (if Astral(s[0]) then 2 else 1) + Utf16Length(s[1..])
  }

  /** The UTF-16 length is the number of characters exactly when none of
      them is astral. */
  lemma {:induction false} Utf16LengthIsLength(s: string)
    ensures Utf16Length(s) == |s| <==> forall i | 0 <= i < |s| :: !Astral(s[i])
  {
    if |s| > 0 {
      Utf16LengthIsLength(s[1..]);
      assert forall i | 1 <= i < |s| :: s[i] == s[1..][i - 1];
      if !Astral(s[0]) && Utf16Length(s) == |s| {
        assert forall i | 0 <= i < |s| - 1 :: s[1..][i] == s[i + 1];
      }
    }
  }

  /** A single astral character, an emoji say, has length 2. */
  lemma AstralPair(c: char)
    requires Astral(c)
    ensures Utf16Length([c]) == 2
  {
  }
}

=== FILE: transparency.dfy ===
/** The transparency index: each organisation's score placed in one of
    three bands, which picks the card's label and colours, its icon and the
    colour of its score bar; and the organisations listed by score. */
module Transparency {
  import Sorting
  import opened Aggregation

  datatype Band = Bom | Regular | Insuficiente

  /** The lower score of each band above the last. */
  const GoodFrom: int := 80
  const FairFrom: int := 60

  /** The label banding of `getScoreColor`. */
  function BandOf(score: int): (b: Band)
    ensures b == Bom <==> score >= GoodFrom
    ensures b == Regular <==> FairFrom <= score < GoodFrom
    ensures b == Insuficiente <==> score < FairFrom
  {
    if score >= GoodFrom then Bom
    else if score >= FairFrom then Regular
    else Insuficiente
  }

  /** The bands in increasing order of merit. */
  function Merit(b: Band): int
  {
    match b
    case Insuficiente => 0
    case Regular => 1
    case Bom => 2
  }

  /** A higher score never gets a lower band. */
  lemma BandMonotone(s: int, t: int)
    requires s <= t
    ensures Merit(BandOf(s)) <= Merit(BandOf(t))
  {
  }

  /** `getScoreColor(score)`: background, text and border classes and label. */
  datatype Style = Style(bg: string, text: string, border: string, name: string)

  function ScoreStyle(score: int): (st: Style)
    ensures st.name == LabelOf(BandOf(score))
  {
    if score >= 80 then Style("bg-green-50", "text-green-700", "border-green-200", "Bom")
    else if score >= 60 then Style("bg-amber-50", "text-amber-700", "border-amber-200", "Regular")
    else Style("bg-red-50", "text-red-700", "border-red-200", "Insuficiente")
  }

  function LabelOf(b: Band): string
  {
    match b
    case Bom => "Bom"
    case Regular => "Regular"
    case Insuficiente => "Insuficiente"
  }

  /** The three labels differ, so the label tells the band. */
  lemma LabelsDistinct(b: Band, c: Band)
    ensures LabelOf(b) == LabelOf(c) <==> b == c
  {
  }

  datatype Icon = CheckCircle | MinusCircle | AlertCircle

  /** `ScoreIcon`, with its own comparisons. */
  function ScoreIcon(score: int): Icon
  {
    if score >= 80 then CheckCircle
    else if score >= 60 then MinusCircle
    else AlertCircle
  }

  function IconOf(b: Band): Icon
  {
    match b
    case Bom => CheckCircle
    case Regular => MinusCircle
    case Insuficiente => AlertCircle
  }

  datatype BarColour = Green | Amber | Red

  /** The inline colour choice of the score bar. */
  function ScoreBarColour(score: int): BarColour
  {
    if score >= 80 then Green
    else if score >= 60 then Amber
    else Red
  }

  function BarColourOf(b: Band): BarColour
  {
    match b
    case Bom => Green
    case Regular => Amber
    case Insuficiente => Red
  }

  /** The icon and the bar colour, each written with its own thresholds,
      agree with the label's band for every score. */
  lemma BandingAgrees(score: int)
    ensures ScoreIcon(score) == IconOf(BandOf(score))
    ensures ScoreBarColour(score) == BarColourOf(BandOf(score))
    ensures ScoreStyle(score).name == LabelOf(BandOf(score))
  {
  }

  function ScoreKey(o: OrgaoStats): real { o.transparenciaScore as real }

  /** `[...orgaos].sort((a, b) => b.transparenciaScore - a.transparenciaScore)`:
      a sorted copy; the input sequence is a value and is not changed. */
  function SortedByScore(orgaos: seq<OrgaoStats>): (r: seq<OrgaoStats>)
    ensures multiset(r) == multiset(orgaos)
    ensures forall i, j | 0 <= i < j < |r| :: r[i].transparenciaScore >= r[j].transparenciaScore
  {
    Sorting.SortDescByKey(orgaos, ScoreKey);
    Sorting.Sort(orgaos, Sorting.Desc(ScoreKey))
  }

  /** The sort is stable: organisations with the same score keep their
      input order. */
  lemma SortedByScoreStable(orgaos: seq<OrgaoStats>)
    ensures Sorting.IsStableSortOf(SortedByScore(orgaos), orgaos, Sorting.Desc(ScoreKey))
  {
    Sorting.DescIsTotalPreorder(ScoreKey);
    Sorting.SortIsStableSort(orgaos, Sorting.Desc(ScoreKey));
  }

  /** One line of the list. */
  datatype Line = Line(rank: int, orgao: string, estado: string, score: int, style: Style, icon: Icon, bar: BarColour)

  /** The line of rank `rank` for organisation `o`. */
  function LineOf(rank: int, o: OrgaoStats): Line
  {
    Line(rank, o.orgao, o.estado, o.transparenciaScore, ScoreStyle(o.transparenciaScore),
         ScoreIcon(o.transparenciaScore), ScoreBarColour(o.transparenciaScore))
  }

  /** The sorted copy holds as many organisations as the input, each from
      the input. */
  lemma SortedFromInput(orgaos: seq<OrgaoStats>)
    ensures var sorted := SortedByScore(orgaos);
            |sorted| == |orgaos| && forall i | 0 <= i < |sorted| :: sorted[i] in orgaos
  {
    var sorted := SortedByScore(orgaos);
    assert |sorted| == |multiset(sorted)| == |orgaos|;
    forall i | 0 <= i < |sorted|
      ensures sorted[i] in orgaos
    {
      assert sorted[i] in multiset(sorted);
    }
  }

  /** The lines, numbered from 1 in sorted order; each shows the name,
      state and score of one of the organisations, styled by its score. */
  function Lines(orgaos: seq<OrgaoStats>): (r: seq<Line>)
    ensures |r| == |orgaos|
    ensures forall i | 0 <= i < |r| :: r[i].rank == i + 1
    ensures forall i | 0 <= i < |r| ::
              && (exists o | o in orgaos :: r[i].orgao == o.orgao && r[i].estado == o.estado && r[i].score == o.transparenciaScore)
              && r[i].style == ScoreStyle(r[i].score) && r[i].icon == ScoreIcon(r[i].score)
              && r[i].bar == ScoreBarColour(r[i].score)
  {
    var sorted := SortedByScore(orgaos);
    SortedFromInput(orgaos);
    var r := seq(|sorted|, i requires 0 <= i < |sorted| => LineOf(i + 1, sorted[i]));
    assert forall i | 0 <= i < |r| :: r[i] == LineOf(i + 1, sorted[i]) && sorted[i] in orgaos;
    r
  }

  /** Line `i` is the `i`-th organisation of the sorted copy. */
  lemma LineAt(orgaos: seq<OrgaoStats>, i: int)
    requires 0 <= i < |orgaos|
    ensures |SortedByScore(orgaos)| == |orgaos|
    ensures Lines(orgaos)[i] == LineOf(i + 1, SortedByScore(orgaos)[i])
  {
    SortedFromInput(orgaos);
  }

  /** Down the list the scores never rise and the bands never improve;
      every organisation appears on some line. */
  lemma LinesOrdered(orgaos: seq<OrgaoStats>)
    ensures var r := Lines(orgaos);
            && (forall i, j | 0 <= i < j < |r| ::
                  r[i].score >= r[j].score && Merit(BandOf(r[i].score)) >= Merit(BandOf(r[j].score)))
            && (forall o | o in orgaos ::
                  exists i | 0 <= i < |r| :: r[i].orgao == o.orgao && r[i].estado == o.estado && r[i].score == o.transparenciaScore)
  {
    LinesDescend(orgaos);
    LinesCover(orgaos);
  }

  lemma LinesDescend(orgaos: seq<OrgaoStats>)
    ensures var r := Lines(orgaos);
            forall i, j | 0 <= i < j < |r| ::
              r[i].score >= r[j].score && Merit(BandOf(r[i].score)) >= Merit(BandOf(r[j].score))
  {
    var r := Lines(orgaos);
    var sorted := SortedByScore(orgaos);
    forall i, j | 0 <= i < j < |r|
      ensures r[i].score >= r[j].score && Merit(BandOf(r[i].score)) >= Merit(BandOf(r[j].score))
    {
      LineAt(orgaos, i);
      LineAt(orgaos, j);
      BandMonotone(r[j].score, r[i].score);
    }
  }

  lemma LinesCover(orgaos: seq<OrgaoStats>)
    ensures var r := Lines(orgaos);
            forall o | o in orgaos ::
              exists i | 0 <= i < |r| :: r[i].orgao == o.orgao && r[i].estado == o.estado && r[i].score == o.transparenciaScore
  {
    var r := Lines(orgaos);
    var sorted := SortedByScore(orgaos);
    forall o | o in orgaos
      ensures exists i | 0 <= i < |r| :: r[i].orgao == o.orgao && r[i].estado == o.estado && r[i].score == o.transparenciaScore
    {
      assert o in multiset(sorted);
      var i :| 0 <= i < |sorted| && sorted[i] == o;
      LineAt(orgaos, i);
    }
  }
}
